=== FILE: README.md ===
# genii-backend: a Dafny model of the route handlers and their data services

genii-backend is the REST backend of an education-content shop. Students register with
their phone number, browse study material (PDFs and videos) by class, board and subject,
and place orders. Further routes publish content, move orders along, set the price list
of each class, look users up and upload files to object storage. The source labels these
as administrator routes, but none of them checks a token or a role: any caller reaches
them. Only the profile routes and the order routes for placing, listing one's own and
viewing an order take the token check, and only the order view looks at a role. A router
for reviews is written but the server does not mount it. This project models:

- the route handlers for accounts, content, orders, reviews, users, pricing and uploads;
- the data-access service over DynamoDB: its creates, lookups, partial updates,
  deletes, filtered scans and the phone index;
- the S3 helpers that make object keys and public URLs and map URLs back to keys.

A handler is a pure function. It takes the table it works on, the request body or query,
and the outside facts it depends on: the clock, the random id suffix, the date parser,
`parseFloat`, bcrypt, the JWT signer and the URL presigner. It returns the new table and
the reply, with the reply's status and JSON body spelled out.

The files follow the program's structure:

| file | module | what it holds |
|---|---|---|
| `wrappers.dfy` | `Wrappers` | `Option` and `Result` |
| `text.dfy` | `Text` | decimal numerals, `parseInt` on text, `startsWith`, `includes`, ASCII `toLowerCase`, `join` |
| `values.dfy` | `Values` | JavaScript values, truthiness, `===`, `+`, `parseInt(x) \|\| d`, object spread |
| `update_expression.dfy` | `UpdateExpression` | the `SET` expression built by the update functions, and how the store evaluates it |
| `store.dfy` | `Store` | get, put, conditional put, delete and update on one table, and the rule that index key attributes hold non-empty text |
| `listing.dfy` | `Listing` | the filter steps, newest-first sorting, counts and `reduce` sums over scans |
| `dynamodb.dfy` | `Dynamo` | the data-access service, one function per table operation |
| `s3.dfy` | `Storage` | object keys, `path.extname`, public URLs and `getKeyFromUrl` |
| `http.dfy` | `Http` | replies, allow-listed updates and the password-free view of a user |
| `auth_routes.dfy`, `content_routes.dfy`, `order_routes.dfy`, `review_routes.dfy`, `user_routes.dfy`, `pricing_routes.dfy`, `upload_routes.dfy` | one module per router | the handlers |

Four places where the model follows the code rather than a plain reading of its intent:

- **An update to a missing key creates the record.** DynamoDB's `UpdateCommand` on an
  absent key creates an item from the key and the `SET` clauses. The review update never
  looks the review up first, so its `PUT /:id` with an unknown id stores a new review
  with no `createdAt` (`ReviewRoutes.UpdateCreatesMissing`), were the router mounted. The content and order updates
  look the record up first and answer 404. The profile update goes straight to the store.
- **A content delete can stop half way.** `getKeyFromUrl` on the thumbnail URL runs
  outside the inner `try`. A truthy thumbnail URL that is not text therefore throws after
  the file object was already deleted. The reply is 500 and the record stays.
- **The content search can throw.** It calls `toLowerCase` on the title of every listed
  item, and on a truthy description when the title does not match. An item without a
  text title makes the whole listing fail with 500.
- **The store's indexes refuse some writes.** The content table indexes `classId` and
  `type`, and the orders table indexes `phone` and `createdAt`, all as text
  (scripts/createTables.js:26-47, 79-88). DynamoDB refuses a put or update that gives one
  of them `''` (written as NULL), `null`, a number or a boolean, while an item without
  the attribute just stays out of the index. So a content create whose class or type is
  not text, or a content update setting `classId` to `''`, answers 500 and writes nothing.

## Model

| member | source | states |
|---|---|---|
| Text.NatToString | routes/content.js:177-181 | the numeral of a number is made of digits only, with no leading zero |
| Text.ParseIntRoundTrip | routes/content.js:177-181 | `parseInt(String(n))` gives `n` back for every integer `n` |
| Text.NatToStringInjective | services/dynamodb.js:98 | different numbers have different numerals, so different clock readings give different ids |
| Text.IncludesIffOccurs | routes/content.js:31-32 | `includes` holds exactly when the query occurs at some position of the text |
| Text.Lower | routes/content.js:29-32 | lowercasing keeps the length and maps each character on its own |
| Text.BeforeSeparator | services/dynamodb.js:98 | in an id `prefix_rest` whose prefix has no `_`, the text before the first `_` is the prefix, so an id splits back into its prefix and the rest |
| Values.Plus | routes/content.js:88-89 | JavaScript `+` adds two numbers, concatenates two texts, and gives text once either side is text |
| Values.IntOrCases | routes/content.js:177-181 | `parseInt(x) \|\| d` keeps a non-zero integer and falls back on zero, `NaN` and absence |
| Values.IntOrKept | routes/reviews.js:48 | a non-zero number sent as a number or as its numeral survives `parseInt(x) \|\| d` |
| Values.ParseNonNumeric | routes/content.js:177-181 | text that starts with neither JavaScript white space (tab, line terminators, the byte order mark and every Unicode space separator), a sign nor a digit parses to `NaN` |
| Values.ParseUndefined | routes/content.js:177-181 | `parseInt(undefined)` is `NaN` |
| Values.StrictEqString | services/dynamodb.js:173-187 | `x === 'text'` holds exactly when the property is that text |
| Values.Override | services/dynamodb.js:48-74 | `{...r, ...u}` sets every listed property to its value and keeps every other one |
| UpdateExpression.PlaceholderTextInjective | services/dynamodb.js:53-57 | two different placeholders never share a text |
| UpdateExpression.Bind | services/dynamodb.js:53-57 | key `i` of the update becomes clause `#field_i = :value_i`, and the placeholder tables hold exactly those names and values |
| UpdateExpression.Build | services/dynamodb.js:53-66 | the expression is the bound keys followed by `#updatedAt = :updatedAt`, with `updatedAt` set to the current time |
| UpdateExpression.RenderIgnoresNames | services/dynamodb.js:66 | the expression text depends only on how many keys are updated, never on their names or values |
| UpdateExpression.EmptyUpdate | services/dynamodb.js:59-66 | an update with no keys renders as `SET #updatedAt = :updatedAt` |
| UpdateExpression.BuildResolvable | services/dynamodb.js:53-66 | every placeholder the clauses use is defined in the tables |
| UpdateExpression.BuildAllUsed | services/dynamodb.js:53-66 | every placeholder defined in the tables is used by some clause |
| UpdateExpression.ResolveBuild | services/dynamodb.js:53-66 | substituting the placeholders gives back the update's pairs, in order, then the timestamp |
| UpdateExpression.BuildThenEvaluate | services/dynamodb.js:48-74 | the store accepts the expression exactly when neither the key nor `updatedAt` is updated; the result is the old item with the keys replaced and `updatedAt` refreshed |
| Store.GetItem | services/dynamodb.js:38-46 | a lookup fails on a key that is not non-empty text, and otherwise finds exactly the stored item |
| Store.PutItem | services/dynamodb.js:216-228 | a put stores the item under its own key and replaces whatever was there; a table with secondary indexes refuses an item that gives an index key attribute anything but non-empty text |
| Store.PutIfAbsent | services/dynamodb.js:16-36 | a conditional put is refused when the key is taken, and otherwise stores the item |
| Store.DeleteItem | services/dynamodb.js:154-162 | a delete removes the key and nothing else; an absent key is not an error |
| Store.UpdateItem | services/dynamodb.js:48-74 | an update writes the evaluated item back under its key, and starts from the bare key when no item is stored; it is refused when it sets an index key attribute to anything but non-empty text |
| Listing.Where | services/dynamodb.js:173-187 | filtering keeps exactly the records that pass, each as often as the scan holds it |
| Listing.WhereWhere | services/dynamodb.js:173-187 | two filters in a row are one filter by the conjunction |
| Listing.WhereCommute | services/dynamodb.js:173-187 | two filters in a row give the same result in either order |
| Listing.WhereMultiset | routes/content.js:28-34 | filtering two permutations of each other gives two permutations of each other |
| Listing.WhereKeepsTies | routes/content.js:28-34 | filtering a stably sorted list keeps the same-date records of what remains in their original order |
| Listing.ApplyFiltersIsWhere | services/dynamodb.js:173-187 | the chain of `if (filters.f)` steps keeps exactly the records meeting every truthy filter, and an absent or falsy filter imposes nothing |
| Listing.TryFilterThrows | routes/content.js:28-34 | a filter whose test can throw fails exactly when the test throws on some record |
| Listing.TryFilterKeeps | routes/content.js:28-34 | when it does not throw, that filter keeps exactly the accepted records, in order |
| Listing.SortNewestFirst | services/dynamodb.js:190 | the sort is a permutation of its input, ordered newest first, and stable: records with the same date keep their input order |
| Listing.InsertSameKey | services/dynamodb.js:190 | an inserted record goes ahead of the records with its own date and behind every newer one |
| Listing.InsertOtherKey | services/dynamodb.js:190 | inserting a record leaves the order of the records of every other date untouched |
| Listing.InsertKeepsTies | services/dynamodb.js:190 | inserting the head of the input into the sorted rest keeps each date's records in input order |
| Listing.InsertSorted | services/dynamodb.js:190 | inserting into a newest-first sequence keeps it newest first |
| Listing.WhereNewestFirst | routes/content.js:28-34 | filtering a newest-first sequence keeps it newest first |
| Listing.ReverseOldestFirst | services/dynamodb.js:312-325 | reading an oldest-first index backwards gives it newest first |
| Listing.Count | routes/orders.js:116-141 | `filter(p).length` is at most the length of the sequence |
| Listing.CountDisjoint | routes/users.js:45-53 | two predicates that never hold together count as many records as their disjunction |
| Listing.CountPermutation | routes/content.js:80-87 | counting over a reordered scan gives the same count |
| Listing.PlusOne | routes/content.js:121 | `(views \|\| 0) + 1` is one more than a numeric count of views |
| Listing.TotalOfNumbers | routes/content.js:88-89 | when every value is a number or missing, the `reduce` with `+` is the arithmetic sum |
| Listing.SumOfPermutation | routes/content.js:88-89 | the arithmetic sum of a property does not depend on the order of the records |
| Listing.TotalOfPermutation | routes/content.js:88-89 | when every scanned value is numeric, the `reduce` over the sorted scan is the arithmetic sum over the scan |
| Dynamo.IdInjective | services/dynamodb.js:98 | two ids with one prefix are equal only when the clock reading and the random suffix agree |
| Dynamo.CreateRecord | services/dynamodb.js:329-344 | a create stores the data under a generated id, with `createdAt` and `updatedAt` from two separate clock readings, exactly when the new item's index key attributes are non-empty text |
| Dynamo.NewItemIndexTyped | scripts/createTables.js:26-47 | when the key, the timestamps and the added counters are no index keys, a new item is indexable exactly when its data is |
| Dynamo.CreateContent | services/dynamodb.js:97-114 | new content starts with no views and no purchases, whatever the data says, and otherwise keeps the data; the store takes it exactly when the class and type it carries are non-empty text |
| Dynamo.CreateUser | services/dynamodb.js:16-36 | creating a user fails on a malformed phone, reports a taken phone, and otherwise stores the user with `createdAt` and `updatedAt` from two clock readings |
| Dynamo.UpdateRecord | services/dynamodb.js:48-74 | a partial update succeeds exactly when the key is non-empty, neither the key nor `updatedAt` is updated, and every index key it sets gets non-empty text; it replaces exactly the given properties and refreshes `updatedAt` |
| Dynamo.BuildIndexSets | services/dynamodb.js:53-72 | the built expression sets index values exactly when the update's pairs and the `updatedAt` stamp do |
| Dynamo.EmptyUpdateStamps | services/dynamodb.js:59-61 | an update with no properties changes only `updatedAt` |
| Dynamo.GetAllUsers | services/dynamodb.js:76-93 | the user scan keeps exactly the users meeting every truthy filter, in scan order |
| Dynamo.GetAllContent | services/dynamodb.js:164-193 | the content scan holds exactly the items meeting every truthy filter, newest first, items of the same date in scan order |
| Dynamo.GetAllOrders | services/dynamodb.js:287-310 | the order scan holds exactly the orders meeting every truthy filter, newest first, orders of the same date in scan order |
| Dynamo.GetAllReviews | services/dynamodb.js:346-358 | the review scan holds every review, newest first, reviews of the same date in scan order |
| Dynamo.GetOrdersByPhone | services/dynamodb.js:312-325 | the phone-index query fails on a phone that is not non-empty text, and otherwise returns exactly that phone's orders |
| Dynamo.OrdersByPhoneNewestFirst | services/dynamodb.js:312-325 | with `ScanIndexForward: false` the query answers newest first |
| Dynamo.UpsertPricing | services/dynamodb.js:216-228 | an upsert stores the class id, the data and the time under the class, replacing what was there |
| Dynamo.UpsertForgetsOld | services/dynamodb.js:216-228 | nothing of the previous price list survives an upsert |
| Storage.GetKeyFromUrl | services/s3.js:114-124 | no URL gives no key, a truthy non-text URL throws, and only a URL inside the bucket gives a key, namely the text after the bucket prefix |
| Storage.KeyFromUrlRoundTrip | services/s3.js:114-124 | the public URL of a key gives that key back |
| Storage.Extname | services/s3.js:22 | an extension is empty, or a dot followed by text with no dot and no slash |
| Storage.MakeKey | services/s3.js:22-23 | a generated key lies in its folder and ends with the file's extension |
| Storage.KeyKeepsExtension | services/s3.js:52-53 | a generated key has the same extension as the file name it was made from |
| Http.Ok | routes/content.js:36-40 | a success reply carries `success: true` and the given fields |
| Http.Refuse | routes/content.js:43-47 | a refusal carries exactly `success: false` and the message |
| Http.ListMembers | routes/reviews.js:15-20 | the JSON array lists exactly the given records |
| Http.ListEntries | routes/reviews.js:15-20 | reading the records back out of a listed sequence's JSON array gives the sequence, order included |
| Http.Pick | routes/content.js:17-25 | destructuring the named properties keeps them and drops every other one |
| Http.WithoutPassword | routes/users.js:88 | the password-free view drops the password and keeps every other property |
| Http.Project | routes/content.js:217-227 | the allow-listed update holds exactly the listed properties the body has and the test accepts, each with the body's value |
| Http.OverrideProjection | routes/content.js:217-229 | applying the allow-listed update changes exactly the listed properties the body carries and keeps every other one |
| Http.ApplyEdits | routes/reviews.js:75-84 | an allow-listed update through the store succeeds exactly when the key is non-empty and the edits give the table's index keys non-empty text; it stamps `updatedAt` and keeps every property the body does not set |
| Http.ProjectIndexWrites | routes/content.js:221-225 | the projected update sets index values exactly when every allow-listed index key the body carries is non-empty text |
| Http.TruthyEdits | routes/orders.js:195-200 | an update from the truthy listed properties, whose index keys (if any) are non-empty text, takes exactly those and keeps the rest of the stored record |
| Http.SetProperty | routes/content.js:121 | setting one property to a value the table's indexes accept changes it and `updatedAt`, and nothing else |
| AuthRoutes.UserData | routes/auth.js:37-48 | a new user is stored under the phone sent, with no timestamps of its own |
| AuthRoutes.RegisterNeverAdmin | routes/auth.js:37-48 | a new account is an ordinary user with no purchases, and stores the hash, never the password sent |
| AuthRoutes.RegisterDefaults | routes/auth.js:40-45 | class 10, the state board and empty contact details are the defaults |
| AuthRoutes.Session | routes/auth.js:66-75 | the reply's user is the stored user without the password |
| AuthRoutes.Register | routes/auth.js:11-85 | the table gains exactly the new user when name, phone and password are present, the phone is free and the hash succeeds, and changes in no other case; the reply is 201 when the token is also signed, and 500 with the user already stored when signing fails |
| AuthRoutes.RegisterTwice | routes/auth.js:24-30 | registering the same phone again is refused and leaves the first account in place |
| AuthRoutes.Login | routes/auth.js:90-145 | a sign-in succeeds exactly when the phone has an account, the password matches its hash and the token is signed; a matching password whose token cannot be signed gets 500 |
| AuthRoutes.LoginUniform | routes/auth.js:102-117 | an unknown phone and a wrong password get the same refusal |
| AuthRoutes.Me | routes/auth.js:150-175 | the signed-in user's record is found exactly when it exists, and is shown without the password |
| AuthRoutes.ProfileExcludesPrivileges | routes/auth.js:182-190 | role, password and purchases are not profile properties |
| AuthRoutes.UpdateProfile | routes/auth.js:180-209 | a profile update takes exactly the truthy profile properties of the body and keeps the rest |
| AuthRoutes.ProfileKeepsPrivileges | routes/auth.js:180-209 | a profile update never changes role, password, purchases, phone or creation time |
| ContentRoutes.PublicFilters | routes/content.js:17-25 | the public listing always filters on `status: 'published'`, whatever the query says |
| ContentRoutes.SearchOutcome | routes/content.js:28-34 | the search fails exactly when one item's test throws, and otherwise keeps exactly the hits, in order |
| ContentRoutes.PublicListing | routes/content.js:15-26 | the public scan lists only published items meeting the filters |
| ContentRoutes.SearchFails | routes/content.js:28-34 | over the items the public filters list, the search throws exactly when the search string's test throws on one of them |
| ContentRoutes.SearchKeeps | routes/content.js:28-34 | a search that does not throw, over the filtered listing sorted newest first, gives a permutation of the scan's shown items, newest first, same-date items in scan order |
| ContentRoutes.SearchPublic | routes/content.js:15-34 | with a text search string, the public listing fails exactly when the search throws on a filtered item, and otherwise holds the scan's shown items, newest first, same-date items in scan order |
| ContentRoutes.UnsearchedListing | routes/content.js:15-26 | without a search, the shown items are exactly those meeting the public filters |
| ContentRoutes.PublishedItems | routes/content.js:15-49 | the public listing holds each published item meeting the filters and the search as often as the scan does, newest first, same-date items in scan order; it fails exactly when there is a search whose string is not text or whose test throws on a filtered item |
| ContentRoutes.ShownMembers | routes/content.js:15-34 | the shown items are exactly the scan's items meeting the public filters and the search, and all of them are published |
| ContentRoutes.AdminItems | routes/content.js:54-73 | the admin listing holds the items meeting the filters, status included, as often as the scan does, newest first, same-date items in scan order |
| ContentRoutes.Stats | routes/content.js:78-104 | the counts by type and status are counts over every item, and the views and purchases totals are the sums over the scan when every value is numeric |
| ContentRoutes.Read | routes/content.js:109-135 | a read shows the item as it was and adds one to its views, changing nothing else |
| ContentRoutes.CountView | routes/content.js:121 | counting a view changes only `views` and `updatedAt` |
| ContentRoutes.CreateCopiesRequired | routes/content.js:167-183 | title, type, class and subject are stored as sent |
| ContentRoutes.CreateTextDefaults | routes/content.js:167-183 | new content is a draft with no board and an empty description unless the request says otherwise |
| ContentRoutes.CreateBlankDefaults | routes/content.js:167-183 | file URL, thumbnail URL, file key and duration default to empty text |
| ContentRoutes.NumericDefaults | routes/content.js:177-181 | a missing count is 0 and a missing preview length is 5 |
| ContentRoutes.NumeralPages | routes/content.js:178 | a page count sent as a non-zero numeral is stored as its number |
| ContentRoutes.Create | routes/content.js:140-200 | a create missing a required property is refused and writes nothing; one whose class or type is not text is refused by the store's indexes with a 500 and writes nothing; otherwise (201 exactly then) the new item holds the data, no views or purchases, and both timestamps, and the reply carries it |
| ContentRoutes.CreateIndexable | scripts/createTables.js:26-47 | the content table's indexes take a new item exactly when its class and type are text |
| ContentRoutes.Update | routes/content.js:205-244 | an update of existing content answers 200 exactly when the class it sets, if any, is non-empty text, and otherwise a 500 that writes nothing; on 200 it replaces exactly the allow-listed properties the body defines, keeps the rest, and replies with the updated item |
| ContentRoutes.EditsIndexableIff | routes/content.js:216-225 | an update's edits suit the content table's indexes exactly when the class it sets, if any, is non-empty text; the type is not editable |
| ContentRoutes.UpdateKeepsFixed | routes/content.js:217-227 | an update never changes type, views, purchases, id or creation time |
| ContentRoutes.NextStatus | routes/content.js:260 | a published item becomes a draft, and anything else becomes published |
| ContentRoutes.Toggle | routes/content.js:249-276 | the toggle changes only the status and `updatedAt`, and replies with the message and the updated item |
| ContentRoutes.ToggleTwice | routes/content.js:249-276 | toggling a draft or published item twice restores its status |
| ContentRoutes.Delete | routes/content.js:281-326 | a delete removes exactly the item, after asking storage to delete its file and in-bucket thumbnail; only a truthy file key or a non-empty thumbnail key is deleted; a thumbnail URL that throws leaves the item in place |
| ContentRoutes.DeleteSkipsBlankKey | routes/content.js:293 | the empty file key a create stores by default is never deleted from storage |
| ContentRoutes.DeleteRemovesThumbnail | routes/content.js:301-310 | a thumbnail uploaded to the bucket is deleted along with its item |
| OrderRoutes.OrderData | routes/orders.js:36-48 | an order belongs to the signed-in user's phone and has no id or timestamps of its own |
| OrderRoutes.OrderCopies | routes/orders.js:36-48 | the type is stored as sent, the amount as parsed, and no tracking id is set |
| OrderRoutes.OrderStatusDefaults | routes/orders.js:36-48 | an order is paid online, pending payment and pending delivery unless the request says otherwise |
| OrderRoutes.OrderBlankDefaults | routes/orders.js:36-48 | no items, class or package gives an empty list or empty text, and no address gives `null` |
| OrderRoutes.Create | routes/orders.js:15-65 | an order without type or amount is refused; an amount that does not parse, or a phone or creation time the phone index cannot key, gives a 500 that writes nothing; otherwise the order is stored under a fresh id |
| OrderRoutes.OrderIndexable | scripts/createTables.js:79-88 | the orders table's phone index takes a new order exactly when its phone (if the token carries one) and its creation time are non-empty text |
| OrderRoutes.Mine | routes/orders.js:70-87 | a user's order list holds exactly the orders with their phone, in descending index order, and fails when the token carries no phone |
| OrderRoutes.MineNewestFirst | services/dynamodb.js:310-322 | with the phone index in ascending creation order, a user's orders are listed newest first |
| OrderRoutes.SelectedMatches | routes/orders.js:94-96 | passing only type and status leaves the phone filter idle |
| OrderRoutes.AdminOrders | routes/orders.js:92-111 | the admin listing holds the orders of the chosen type and status as often as the scan does, newest first, same-date orders in scan order |
| OrderRoutes.FinishedCounts | routes/orders.js:124-125 | a finished order is counted once, whether completed or delivered, and never as pending too |
| OrderRoutes.Stats | routes/orders.js:116-141 | the counts by type and status are counts over every order, and the revenue is the sum over the scan when every amount is numeric |
| OrderRoutes.View | routes/orders.js:146-177 | an order is shown exactly to its owner or an administrator |
| OrderRoutes.ViewByPhone | routes/orders.js:158 | an order placed with a phone is visible to that phone and hidden from any other phone that is not an administrator's |
| OrderRoutes.Update | routes/orders.js:182-215 | an update of an existing order takes exactly the truthy ones among status, payment status and tracking id |
| ReviewRoutes.All | routes/reviews.js:13-29 | the listing is a permutation of every review, newest first, reviews of the same date in scan order, and the count is their number |
| ReviewRoutes.ReviewDefaults | routes/reviews.js:45-51 | a new review is active, keeps the name and comment, and has a rating that is never 0 |
| ReviewRoutes.RatingKept | routes/reviews.js:48 | a non-zero rating sent as a number or a numeral is stored as that number |
| ReviewRoutes.Create | routes/reviews.js:34-68 | a review without name, rating or comment is refused; otherwise it is stored under a fresh id with both timestamps |
| ReviewRoutes.Update | routes/reviews.js:73-99 | an update replaces exactly the allow-listed properties the body defines and keeps the rest |
| ReviewRoutes.UpdateCreatesMissing | routes/reviews.js:73-99 | an update to an unknown id stores a review holding only the id, the edits and `updatedAt` |
| ReviewRoutes.Delete | routes/reviews.js:104-119 | a delete removes exactly that review; an unknown id is not an error |
| ReviewRoutes.DeleteTwice | routes/reviews.js:104-119 | deleting twice is deleting once |
| UserRoutes.SafeUsers | routes/users.js:8-18 | the listed users are exactly the users meeting the filters, each without the password |
| UserRoutes.List | routes/users.js:8-33 | the reply counts and lists exactly the password-free users meeting the filters |
| UserRoutes.ClassesExclusive | routes/users.js:45-53 | the four class counts together never exceed the number of users |
| UserRoutes.Stats | routes/users.js:38-72 | the counts by class and board and the users who joined today are counts over every user; a non-text creation time makes it fail |
| UserRoutes.StatsReply | routes/users.js:38-72 | the statistics reply succeeds exactly when the counting does |
| UserRoutes.ByPhone | routes/users.js:77-102 | a user is found exactly when stored, and is shown without the password |
| PricingRoutes.All | routes/pricing.js:8-24 | the listing holds every price list |
| PricingRoutes.ForClass | routes/pricing.js:29-52 | a class's price list is found exactly when stored |
| PricingRoutes.PriceOr | routes/pricing.js:64-67 | `parseFloat(x) \|\| 0` keeps a parsed price and falls back on 0 |
| PricingRoutes.PricingData | routes/pricing.js:61-68 | the name defaults to the class id, the description to empty text, and each price to 0 |
| PricingRoutes.Put | routes/pricing.js:57-85 | a put stores the price list built from the body under the class |
| PricingRoutes.PutStores | routes/pricing.js:57-85 | the stored list is the class, the built prices and the time, and nothing of the old list |
| PricingRoutes.PutTwice | routes/pricing.js:57-85 | setting the same prices twice is setting them once, at the later time |
| PricingRoutes.SeedAll | routes/pricing.js:131-133 | writing the lists in order leaves the last list written to each class |
| PricingRoutes.IdsNamed | routes/pricing.js:131-133 | a class is written exactly when some list names it |
| PricingRoutes.WrittenKeys | routes/pricing.js:131-133 | the writes touch exactly the classes the lists name |
| PricingRoutes.WrittenLatest | routes/pricing.js:131-133 | a class holds the last list written to it |
| PricingRoutes.SeedWith | routes/pricing.js:90-148 | seeding adds the named classes, keeps every other class, and replies with the lists as given |
| PricingRoutes.SeedTwice | routes/pricing.js:90-148 | seeding twice is seeding once, at the later time |
| PricingRoutes.DefaultIds | routes/pricing.js:92-129 | the four defaults are for class 10, class 11, class 12 and NEET, in that order |
| PricingRoutes.SeedAddsDefaults | routes/pricing.js:90-148 | after seeding, the table holds exactly its old classes and the four defaults |
| PricingRoutes.SeedWritesDefaults | routes/pricing.js:92-133 | each default is stored as it stands, replacing what its class had |
| UploadRoutes.Presigned | routes/upload.js:8-43 | a presigned upload needs a file name, a type and an allowed folder, and then returns the signed URL, the public URL and the key |
| UploadRoutes.PresignedKey | services/s3.js:21-43 | the presigned key lies in an allowed folder, keeps the extension, and is what its public URL gives back |
| UploadRoutes.Uploaded | routes/upload.js:73-77 | the reply data holds the URL, the key and, when known, the size |
| UploadRoutes.UploadFile | routes/upload.js:48-87 | an upload succeeds exactly when a file of an accepted type with a text name is sent, and then writes it under a fresh key in the route's folder |
| UploadRoutes.KindsDisjoint | routes/upload.js:104-152 | no MIME type is accepted by two of the upload routes |
| UploadRoutes.UploadKey | services/s3.js:51-77 | an uploaded object lies in its folder, keeps the extension, and is what its public URL gives back |
| UploadRoutes.Delete | routes/upload.js:183-210 | a delete names the key sent, or else the key of a URL inside the bucket, and refuses when neither names an object |
| UploadRoutes.DeleteByUrl | routes/upload.js:185-196 | deleting by an object's public URL deletes that object |
| UploadRoutes.DeleteBucketUrl | routes/upload.js:185-194 | the bucket's own URL names no object and is refused |

## Left out

- Floating point: numbers are integers. `parseFloat` is a parameter, `None` standing for `NaN`, and amounts and prices are integers.
- Dates: `new Date(x)` is a parameter (`dateOf`), and so is today's date in the user statistics. `dateOf` gives every value an integer, so the sort comparator's behaviour on a missing or unparseable `createdAt` (a `NaN` comparison) is not modelled.
- The clock and `Math.random`: `Date.now()`, each `new Date().toISOString()` and the random id or key suffix are parameters. A create reads the clock once for `createdAt` and once more for `updatedAt` (services/dynamodb.js:21-22, 107-108, 240-241, 337-338), so the creates take two timestamps.
- PricingRoutes.SeedWith: one timestamp stands for the clock readings of all its upserts, which the source takes one class at a time (routes/pricing.js:90-148).
- bcrypt and JWT: hashing, comparing and signing are parameters, each of which may fail. Token checking in the auth middleware is not part of this model; a signed-in user is given as their record.
- S3 signing and transfers: the presigned URL is a parameter. Uploads and deletes report the key they write or remove, and failures of the transfer itself are not modelled.
- Reading the uploaded file from disk (`fs.readFileSync` for a temp file) is not modelled; only the file's name, type and size matter.
- `getPresignedUrl` (services/s3.js:98-108) is not modelled, because no route calls it.
- Text: lowercasing covers ASCII letters only, with no Unicode case folding.
- `String(n)` of numbers at or above 10^21 (exponent notation) is not modelled.
- The document client's `convertEmptyValues` option (config/aws.js:20): the client writes an empty string as NULL, so a later read gives `null` where the model's table keeps `''`. This is where the model differs from the store; replies built from the item just written (`''` defaults of a registration, a created record) agree with the source. `removeUndefinedValues` agrees with the model, where an undefined property is an absent key.
- ContentRoutes.Create, ContentRoutes.Update, OrderRoutes.Create, ReviewRoutes.Create, PricingRoutes.SeedWith: a store call fails only on key validation, on an index key attribute that is not non-empty text (the `S`-typed secondary indexes of scripts/createTables.js:26-47 and 79-88), and on conditional checks. Failures of the DynamoDB service itself (the 400 KB item limit, throttling, the network, a missing table) are not modelled, so a create whose request and index keys are valid always answers 201 and a seed always answers 200; in the source a seed failing part way answers 500 with the earlier classes already written.
- Concurrency: requests are applied one at a time. Interleavings such as two registrations of one phone racing past the lookup are not modelled.
- Error text: 500 replies carry the thrown error's message, which the model leaves out.
- ReviewRoutes: routes/reviews.js is modelled as written, but server.js (lines 32-37) does not mount it, so in the shipped server every `/api/reviews` request falls through to the catch-all 404 (server.js:66) and none of these handlers can be reached.
- Access control: the routes the source labels admin (content create, update, toggle, delete, admin listing and statistics; the order admin listing, statistics and update; pricing put and seed; uploads; the user routes) take no middleware, so any caller can use them. The handlers are modelled as they are, taking no caller; the only role check is the order view's (`OrderRoutes.View`).
- Logging, the server and its middleware are not part of this model, and of the table-provisioning script only the index key attributes it declares are. The notification router is not modelled either: it imports service functions that services/dynamodb.js does not export, and the server does not mount it.
- UploadRoutes.UploadFile: its contract states the URL and key of the reply, not its `size`, which the PDF and video routes copy from the file and the thumbnail route leaves out.

=== FILE: auth_routes.dfy ===
/** The account routes: register, sign in, read and edit one's own profile. Hashing,
    hash comparison and token signing are parameters: `hash` stands for bcrypt's hash
    with a fresh salt (`None` when bcrypt refuses its argument), `compare` for bcrypt's
    comparison (`None` when it throws), `sign` for the JSON Web Token of a payload
    `{ phone }` (an absent phone leaves the payload empty; `None` when signing throws,
    as it does without a secret). The `phone` of a signed-in user is the key of their
    stored record. */
module AuthRoutes {
  import opened Wrappers
  import opened Values
  import opened Store
  import opened Http
  import Dynamo
  import UserRoutes

  const UpdatedAt := Dynamo.UpdatedAt

  // ---------------------------------------------------------------- registering

  /** The three properties a registration cannot do without. */
  predicate HasRequired(body: Record) {
    IsTruthy(Get(body, "name")) && IsTruthy(Get(body, "phone")) && IsTruthy(Get(body, "password"))
  }

  /** The stored properties of a new user, with the defaults filled in. */
  function UserData(body: Record, hashed: string): (d: Record)
    requires HasRequired(body)
    ensures Get(d, Dynamo.UserKey) == Get(body, "phone")
    ensures Dynamo.CreatedAt !in d && UpdatedAt !in d
  {
    map[
      "phone" := body["phone"],
      "name" := body["name"],
      "email" := Or(Get(body, "email"), Str("")),
      "password" := Str(hashed),
      "classId" := Or(Get(body, "classId"), Str("class10")),
      "board" := Or(Get(body, "board"), Str("state")),
      "school" := Or(Get(body, "school"), Str("")),
      "pincode" := Or(Get(body, "pincode"), Str("")),
      "role" := Str("user"),
      "purchases" := Arr([])
    ]
  }

  /** Whatever the request says, a new account is an ordinary user with no purchases,
      and its stored password is the hash, never the password sent. */
  lemma RegisterNeverAdmin(body: Record, hashed: string)
    requires HasRequired(body)
    ensures var d := UserData(body, hashed);
      && Get(d, "role") == Some(Str("user"))
      && Get(d, "purchases") == Some(Arr([]))
      && Get(d, "password") == Some(Str(hashed))
      && Get(d, "name") == Get(body, "name")
  {
  }

  /** A new user studies class 10 on the state board, with empty contact details, unless
      the request says otherwise. */
  lemma RegisterDefaults(body: Record, hashed: string)
    requires HasRequired(body)
    ensures var d := UserData(body, hashed);
      && "classId" in d && "board" in d && "email" in d && "school" in d && "pincode" in d
      && (!IsTruthy(Get(body, "classId")) ==> d["classId"] == Str("class10"))
      && (!IsTruthy(Get(body, "board")) ==> d["board"] == Str("state"))
      && (!IsTruthy(Get(body, "email")) ==> d["email"] == Str(""))
      && (!IsTruthy(Get(body, "school")) ==> d["school"] == Str(""))
      && (!IsTruthy(Get(body, "pincode")) ==> d["pincode"] == Str(""))
  {
  }

  /** `{ token, user }` of a successful registration or sign-in. */
  function Session(token: Value, user: Record): (v: Value)
    ensures v.Obj? && "user" in v.fields && v.fields["user"].Obj? && "password" !in v.fields["user"].fields
    ensures v.fields["user"].fields == WithoutPassword(user)
  {
    Obj(map["token" := token, "user" := Obj(WithoutPassword(user))])
  }

  /** A complete registration whose phone is text and not yet taken. */
  predicate NewPhone(t: Table, body: Record) {
    HasRequired(body) && KeyText(Get(body, "phone")).Some? && KeyText(Get(body, "phone")).value !in t
  }

  /** POST `/register`: a registration missing a property, or for a taken phone, is
      refused; a phone that is not text makes the lookup fail; otherwise the user is
      stored under their phone and the reply carries a token and the user without the
      password. A token that cannot be signed fails the request after the user is
      stored. */
  function Register(t: Table, body: Record, hash: Value -> Option<string>, sign: Option<Value> -> Option<Value>,
                    created: Value, updated: Value): (h: Handled)
    ensures !HasRequired(body) ==> h == Handled(t, Refuse(400, "Name, phone and password are required"))
    ensures HasRequired(body) && KeyText(Get(body, "phone")).None? ==> h == Handled(t, Refuse(500, "Registration failed"))
    ensures HasRequired(body) && KeyText(Get(body, "phone")).Some? && KeyText(Get(body, "phone")).value in t ==>
      h == Handled(t, Refuse(400, "User already exists with this phone number"))
    ensures NewPhone(t, body) && hash(body["password"]).None? ==> h == Handled(t, Refuse(500, "Registration failed"))
    ensures h.table != t ==> NewPhone(t, body) && hash(body["password"]).Some?
    ensures NewPhone(t, body) && hash(body["password"]).Some? ==>
      var phone := KeyText(Get(body, "phone")).value;
      var user := UserData(body, hash(body["password"]).value)[Dynamo.CreatedAt := created][UpdatedAt := updated];
      && h.table == t[phone := user]
      && (sign(Get(body, "phone")).None? ==> h.reply == Refuse(500, "Registration failed"))
      && (sign(Get(body, "phone")).Some? ==>
            h.reply.status == 201 && "data" in h.reply.body
            && h.reply.body["data"] == Session(sign(Get(body, "phone")).value, user))
    ensures h.reply.status == 201 <==> NewPhone(t, body) && hash(body["password"]).Some? && sign(Get(body, "phone")).Some?
  {
    if !HasRequired(body) then Handled(t, Refuse(400, "Name, phone and password are required"))
    else match GetItem(t, Get(body, "phone"))
      case Failure(_) => Handled(t, Refuse(500, "Registration failed"))
      case Success(Some(_)) => Handled(t, Refuse(400, "User already exists with this phone number"))
      case Success(None) =>
        match hash(body["password"])
        case None => Handled(t, Refuse(500, "Registration failed"))
        case Some(hashed) =>
          var created := Dynamo.CreateUser(t, UserData(body, hashed), created, updated).value;
          match sign(Get(body, "phone"))
          case None => Handled(created.table, Refuse(500, "Registration failed"))
          case Some(token) =>
            Handled(created.table, Ok(201, map[
              "message" := Str("User registered successfully"),
              "data" := Session(token, created.user)]))
  }

  /** Registering the same phone twice leaves the first account in place. */
  lemma RegisterTwice(t: Table, body: Record, hash: Value -> Option<string>, sign: Option<Value> -> Option<Value>,
                         created1: Value, updated1: Value, created2: Value, updated2: Value)
    requires Register(t, body, hash, sign, created1, updated1).table != t
    ensures var t1 := Register(t, body, hash, sign, created1, updated1).table;
      Register(t1, body, hash, sign, created2, updated2) == Handled(t1, Refuse(400, "User already exists with this phone number"))
  {
  }

  // ---------------------------------------------------------------- signing in

  /** A sign-in naming a stored phone with a password that matches its stored hash. */
  predicate Authentic(t: Table, body: Record, compare: (Value, Option<Value>) -> Option<bool>) {
    && IsTruthy(Get(body, "phone")) && IsTruthy(Get(body, "password"))
    && KeyText(Get(body, "phone")).Some? && KeyText(Get(body, "phone")).value in t
    && compare(body["password"], Get(t[KeyText(Get(body, "phone")).value], "password")) == Some(true)
  }

  /** POST `/login`: a phone and a password matching the stored hash give a token and the
      user without the password, unless the token cannot be signed. */
  function Login(t: Table, body: Record, compare: (Value, Option<Value>) -> Option<bool>, sign: Option<Value> -> Option<Value>): (r: Reply)
    ensures !(IsTruthy(Get(body, "phone")) && IsTruthy(Get(body, "password"))) ==>
      r == Refuse(400, "Phone and password are required")
    ensures r.status == 200 <==>
      Authentic(t, body, compare) && sign(Get(t[KeyText(Get(body, "phone")).value], "phone")).Some?
    ensures r.status == 200 ==>
      var user := t[KeyText(Get(body, "phone")).value];
      "data" in r.body && r.body["data"] == Session(sign(Get(user, "phone")).value, user)
    ensures Authentic(t, body, compare) && r.status != 200 ==> r == Refuse(500, "Login failed")
  {
    if !(IsTruthy(Get(body, "phone")) && IsTruthy(Get(body, "password"))) then
      Refuse(400, "Phone and password are required")
    else match GetItem(t, Get(body, "phone"))
      case Failure(_) => Refuse(500, "Login failed")
      case Success(None) => Refuse(400, "Invalid credentials")
      case Success(Some(user)) =>
        match compare(body["password"], Get(user, "password"))
        case None => Refuse(500, "Login failed")
        case Some(false) => Refuse(400, "Invalid credentials")
        case Some(true) =>
          match sign(Get(user, "phone"))
          case None => Refuse(500, "Login failed")
          case Some(token) => Ok(200, map["message" := Str("Login successful"), "data" := Session(token, user)])
  }

  /** An unknown phone and a wrong password get the same reply, so a failed sign-in does
      not tell whether the phone has an account. */
  lemma LoginUniform(t: Table, body: Record, phone: string, compare: (Value, Option<Value>) -> Option<bool>, sign: Option<Value> -> Option<Value>)
    requires phone != "" && Get(body, "phone") == Some(Str(phone)) && IsTruthy(Get(body, "password"))
    requires phone !in t || compare(body["password"], Get(t[phone], "password")) == Some(false)
    ensures Login(t, body, compare, sign) == Refuse(400, "Invalid credentials")
  {
  }

  // ---------------------------------------------------------------- one's own profile

  /** GET `/me`: the signed-in user's record without the password, found exactly as
      the users router's lookup by phone finds it. */
  function Me(t: Table, phone: string): (r: Reply)
    ensures phone != "" && phone !in t ==> r == Refuse(404, "User not found")
    ensures r.status == 200 <==> phone != "" && phone in t
    ensures r.status == 200 ==> "data" in r.body && r.body["data"] == Obj(WithoutPassword(t[phone]))
  {
    UserRoutes.ByPhone(t, phone)
  }

  /** The properties a user may change on their own profile. */
  const Profile := ["name", "email", "classId", "board", "school", "pincode"]

  /** The key, the timestamps, the role, the password and the purchases are not among them. */
  lemma ProfileExcludesKeys()
    ensures Dynamo.UserKey !in Profile && UpdatedAt !in Profile && Dynamo.CreatedAt !in Profile
  {
  }

  lemma ProfileExcludesPrivileges()
    ensures "role" !in Profile && "password" !in Profile && "purchases" !in Profile
  {
  }

  /** PUT `/update`: the truthy ones among the body's profile properties replace the
      stored ones; the reply shows the user without the password. */
  function UpdateProfile(t: Table, phone: string, body: Record, now: Value): (h: Handled)
    ensures phone == "" ==> h == Handled(t, Refuse(500, "Profile update failed"))
    ensures phone != "" ==> h.reply.status == 200 && phone in h.table && h.table == t[phone := h.table[phone]]
    ensures phone != "" ==> Get(h.table[phone], UpdatedAt) == Some(now)
    ensures phone != "" ==> forall k :: k != UpdatedAt ==>
      Get(h.table[phone], k) == if k in Profile && IsTruthy(Get(body, k)) then Get(body, k)
                                else Get(Existing(t, Dynamo.UserKey, phone), k)
    ensures phone != "" ==> "data" in h.reply.body && h.reply.body["data"] == Obj(WithoutPassword(h.table[phone]))
  {
    if phone == "" then Handled(t, Refuse(500, "Profile update failed"))
    else
      ProfileExcludesKeys();
      var edited := TruthyEdits(t, Dynamo.UserKey, {}, phone, body, Profile, now);
      Handled(edited.0, Ok(200, map["message" := Str("Profile updated successfully"), "data" := Obj(WithoutPassword(edited.1))]))
  }

  /** A profile update cannot change one's role, password, purchases, phone or creation
      time. */
  lemma ProfileKeepsPrivileges(t: Table, phone: string, body: Record, now: Value)
    requires phone != "" && phone in t
    ensures var stored := UpdateProfile(t, phone, body, now).table[phone];
      && Get(stored, "role") == Get(t[phone], "role")
      && Get(stored, "password") == Get(t[phone], "password")
      && Get(stored, "purchases") == Get(t[phone], "purchases")
      && Get(stored, Dynamo.UserKey) == Get(t[phone], Dynamo.UserKey)
      && Get(stored, Dynamo.CreatedAt) == Get(t[phone], Dynamo.CreatedAt)
  {
    ProfileExcludesKeys();
    ProfileExcludesPrivileges();
  }
}

=== FILE: content_routes.dfy ===
/** The content routes: public and admin listings with search, statistics, reading an
    item (which counts a view), create, allow-listed update, the publish toggle and
    delete with storage cleanup. Only the public listing restricts what it shows; the
    routes labelled admin carry no token or role check. */
module ContentRoutes {
  import opened Wrappers
  import opened Text
  import opened Values
  import opened Store
  import opened Http
  import Listing
  import Dynamo
  import Storage

  // ---------------------------------------------------------------- listing

  const PublicFilterNames := {"classId", "board", "type", "subject"}
  const AdminFilterNames := {"classId", "board", "type", "subject", "status"}

  /** `{ classId, board, type, subject, status: 'published' }` taken from the query: the
      query cannot lift the published-only restriction. */
  function PublicFilters(query: Record): (f: Record)
    ensures Get(f, "status") == Some(Str("published"))
    ensures forall k :: k != "status" ==> Get(f, k) == if k in PublicFilterNames then Get(query, k) else None
  {
    Pick(query, PublicFilterNames)["status" := Str("published")]
  }

  /** A description matches when it is present and truthy and, lowercased, contains the
      query; a truthy non-string description throws. */
  function DescriptionHit(c: Record, q: string): Result<bool, Storage.Crash> {
    var d := Get(c, "description");
    if !IsTruthy(d) then Success(false)
    else if d.value.Str? then Success(Includes(Lower(d.value.s), q))
    else Failure(Storage.TypeError)
  }

  /** The search test on one item: the lowercased title contains the query, or else the
      description does. An item without a string title throws. */
  function SearchHit(c: Record, q: string): Result<bool, Storage.Crash> {
    match Get(c, "title")
    case Some(Str(title)) => if Includes(Lower(title), q) then Success(true) else DescriptionHit(c, q)
    case _ => Failure(Storage.TypeError)
  }

  function SearchTest(q: string): Record -> Result<bool, Storage.Crash> {
    c => SearchHit(c, q)
  }

  function Hits(q: string): Record -> bool {
    Listing.Passes(SearchTest(q))
  }

  /** `items.filter(c => ...)` with the search test: it throws as soon as one test throws,
      otherwise it keeps the hits in order. */
  function Search(s: seq<Record>, q: string): Result<seq<Record>, Storage.Crash> {
    Listing.TryFilter(s, SearchTest(q))
  }

  /** The search throws exactly when one item's test throws; otherwise it keeps exactly
      the hits, in order. */
  lemma SearchOutcome(s: seq<Record>, q: string)
    ensures Search(s, q).Success? <==> forall i :: 0 <= i < |s| ==> SearchHit(s[i], q).Success?
    ensures Search(s, q).Success? ==> Search(s, q).value == Listing.Where(s, Hits(q))
  {
    Listing.TryFilterThrows(s, SearchTest(q));
    if Search(s, q).Success? {
      Listing.TryFilterKeeps(s, SearchTest(q));
    }
  }

  /** The search string, when the query carries one. */
  predicate Searching(query: Record) {
    IsTruthy(Get(query, "search"))
  }

  /** An item passes the query's search, if there is one. */
  predicate SearchAccepts(x: Record, query: Record) {
    !Searching(query) || (Get(query, "search").value.Str? && Hits(Lower(Get(query, "search").value.s))(x))
  }

  lemma PublishedOnly(x: Record, query: Record)
    requires Listing.Matches(x, PublicFilters(query), Dynamo.ContentFilters)
    ensures Get(x, "status") == Some(Str("published"))
  {
    assert Dynamo.ContentFilters[3] == "status";
    assert Listing.Active(PublicFilters(query), "status");
    StrictEqString(Get(x, "status"), "published");
  }

  /** The items listed for the public are the published ones meeting its filters. */
  lemma PublicListing(scan: seq<Record>, query: Record, dateOf: Value -> int)
    ensures var listed := Dynamo.GetAllContent(scan, PublicFilters(query), dateOf);
      && (forall x :: x in listed <==> x in scan && Listing.Matches(x, PublicFilters(query), Dynamo.ContentFilters))
      && (forall x :: x in listed ==> Get(x, "status") == Some(Str("published")))
  {
    var m := Listing.Matcher(PublicFilters(query), Dynamo.ContentFilters);
    var listed := Dynamo.GetAllContent(scan, PublicFilters(query), dateOf);
    Listing.SameMembers(listed, Listing.Where(scan, m));
    forall x | x in listed ensures Get(x, "status") == Some(Str("published")) {
      PublishedOnly(x, query);
    }
  }

  /** The items the public listing shows: published ones meeting the query's filters
      and its search. */
  function Shown(query: Record): Record -> bool {
    x => Listing.Matches(x, PublicFilters(query), Dynamo.ContentFilters) && SearchAccepts(x, query)
  }

  /** The search of a query throws: its string is not text, or the search test throws on
      an item the filters list. */
  predicate SearchThrows(scan: seq<Record>, query: Record)
    requires Searching(query)
  {
    || !Get(query, "search").value.Str?
    || exists x :: x in scan && Listing.Matches(x, PublicFilters(query), Dynamo.ContentFilters)
                 && SearchHit(x, Lower(Get(query, "search").value.s)).Failure?
  }

  /** Without a search, the public listing shows exactly the items `Shown` accepts. */
  lemma UnsearchedListing(scan: seq<Record>, query: Record)
    requires !Searching(query)
    ensures Listing.Where(scan, Listing.Matcher(PublicFilters(query), Dynamo.ContentFilters)) == Listing.Where(scan, Shown(query))
  {
    Listing.WhereSame(scan, Listing.Matcher(PublicFilters(query), Dynamo.ContentFilters), Shown(query));
  }

  /** A search over the items the filters list throws exactly when the query's search
      throws. */
  lemma SearchFails(scan: seq<Record>, query: Record, q: string, listed: seq<Record>)
    requires Searching(query) && Get(query, "search").value == Str(q)
    requires forall x :: x in listed <==> x in scan && Listing.Matches(x, PublicFilters(query), Dynamo.ContentFilters)
    ensures Search(listed, Lower(q)).Failure? <==> SearchThrows(scan, query)
  {
    SearchOutcome(listed, Lower(q));
    if SearchThrows(scan, query) {
      var x :| x in scan && Listing.Matches(x, PublicFilters(query), Dynamo.ContentFilters) && SearchHit(x, Lower(q)).Failure?;
      var i :| 0 <= i < |listed| && listed[i] == x;
      assert SearchHit(listed[i], Lower(q)).Failure?;
    } else {
      forall i | 0 <= i < |listed| ensures SearchHit(listed[i], Lower(q)).Success? {
        assert listed[i] in listed;
      }
    }
  }

  /** A search that does not throw, over a permutation of the filtered scan kept newest
      first with ties in scan order, keeps a permutation of the scan's shown items, newest
      first, with ties in scan order. */
  lemma SearchKeeps(scan: seq<Record>, query: Record, q: string, listed: seq<Record>, key: Record -> int, found: seq<Record>)
    requires Searching(query) && Get(query, "search").value == Str(q)
    requires multiset(listed) == multiset(Listing.Where(scan, Listing.Matcher(PublicFilters(query), Dynamo.ContentFilters)))
    requires Listing.NewestFirst(listed, key)
    requires Listing.KeepsTies(listed, Listing.Where(scan, Listing.Matcher(PublicFilters(query), Dynamo.ContentFilters)), key)
    requires Search(listed, Lower(q)) == Success(found)
    ensures multiset(found) == multiset(Listing.Where(scan, Shown(query)))
    ensures Listing.NewestFirst(found, key)
    ensures Listing.KeepsTies(found, Listing.Where(scan, Shown(query)), key)
  {
    var m := Listing.Matcher(PublicFilters(query), Dynamo.ContentFilters);
    var h := Hits(Lower(q));
    SearchOutcome(listed, Lower(q));
    Listing.WhereNewestFirst(listed, h, key);
    Listing.WhereWhere(scan, m, h, Shown(query));
    Listing.WhereMultiset(listed, Listing.Where(scan, m), h);
    Listing.WhereKeepsTies(listed, Listing.Where(scan, m), key, h);
  }

  /** The public listing under a text search string: it throws exactly when the search
      throws on a listed item, and otherwise keeps the shown items in listing order. */
  function SearchPublic(scan: seq<Record>, query: Record, dateOf: Value -> int, q: string): (r: Result<seq<Record>, Storage.Crash>)
    requires Searching(query) && Get(query, "search").value == Str(q)
    ensures r.Failure? <==> SearchThrows(scan, query)
    ensures r.Success? ==> multiset(r.value) == multiset(Listing.Where(scan, Shown(query)))
    ensures r.Success? ==> Listing.NewestFirst(r.value, Listing.CreatedKey(dateOf))
    ensures r.Success? ==> Listing.KeepsTies(r.value, Listing.Where(scan, Shown(query)), Listing.CreatedKey(dateOf))
  {
    var listed := Dynamo.GetAllContent(scan, PublicFilters(query), dateOf);
    PublicListing(scan, query, dateOf);
    SearchFails(scan, query, q, listed);
    match Search(listed, Lower(q))
    case Failure(e) => Failure(e)
    case Success(found) =>
      SearchKeeps(scan, query, q, listed, Listing.CreatedKey(dateOf), found);
      Success(found)
  }

  /** The members of the shown items are the published items meeting the filters and
      the search. */
  lemma ShownMembers(scan: seq<Record>, query: Record, r: seq<Record>)
    requires multiset(r) == multiset(Listing.Where(scan, Shown(query)))
    ensures forall x :: x in r <==>
      x in scan && Listing.Matches(x, PublicFilters(query), Dynamo.ContentFilters) && SearchAccepts(x, query)
    ensures forall x :: x in r ==> Get(x, "status") == Some(Str("published"))
  {
    Listing.SameMembers(r, Listing.Where(scan, Shown(query)));
    forall x | x in r ensures Get(x, "status") == Some(Str("published")) {
      PublishedOnly(x, query);
    }
  }

  /** GET `/`: the published items that meet the query's filters and search, newest first,
      items of the same date in scan order. Only the search can throw: a search string
      that is not text, or a listed item whose search test throws. */
  function PublishedItems(scan: seq<Record>, query: Record, dateOf: Value -> int): (r: Result<seq<Record>, Storage.Crash>)
    ensures r.Failure? <==> Searching(query) && SearchThrows(scan, query)
    ensures r.Success? ==> forall x :: x in r.value <==>
      x in scan && Listing.Matches(x, PublicFilters(query), Dynamo.ContentFilters) && SearchAccepts(x, query)
    ensures r.Success? ==> multiset(r.value) == multiset(Listing.Where(scan, Shown(query)))
    ensures r.Success? ==> forall x :: x in r.value ==> Get(x, "status") == Some(Str("published"))
    ensures r.Success? ==> Listing.NewestFirst(r.value, Listing.CreatedKey(dateOf))
    ensures r.Success? ==> Listing.KeepsTies(r.value, Listing.Where(scan, Shown(query)), Listing.CreatedKey(dateOf))
  {
    var search := Get(query, "search");
    var r: Result<seq<Record>, Storage.Crash> :=
      if !IsTruthy(search) then
        UnsearchedListing(scan, query);
        Success(Dynamo.GetAllContent(scan, PublicFilters(query), dateOf))
      else if !search.value.Str? then Failure(Storage.TypeError)
      else SearchPublic(scan, query, dateOf, search.value.s);
    if r.Failure? then r
    else
      ShownMembers(scan, query, r.value);
      r
  }

  /** GET `/admin`: every item meeting the query's filters, status included, newest first,
      items of the same date in scan order. */
  function AdminItems(scan: seq<Record>, query: Record, dateOf: Value -> int): (r: seq<Record>)
    ensures forall x :: x in r <==> x in scan && Listing.Matches(x, Pick(query, AdminFilterNames), Dynamo.ContentFilters)
    ensures |r| == Listing.Count(scan, Listing.Matcher(Pick(query, AdminFilterNames), Dynamo.ContentFilters))
    ensures multiset(r) == multiset(Listing.Where(scan, Listing.Matcher(Pick(query, AdminFilterNames), Dynamo.ContentFilters)))
    ensures Listing.NewestFirst(r, Listing.CreatedKey(dateOf))
    ensures Listing.KeepsTies(r, Listing.Where(scan, Listing.Matcher(Pick(query, AdminFilterNames), Dynamo.ContentFilters)),
                              Listing.CreatedKey(dateOf))
  {
    var m := Listing.Matcher(Pick(query, AdminFilterNames), Dynamo.ContentFilters);
    var r := Dynamo.GetAllContent(scan, Pick(query, AdminFilterNames), dateOf);
    Listing.SameMembers(r, Listing.Where(scan, m));
    r
  }

  // ---------------------------------------------------------------- statistics

  datatype ContentStats = ContentStats(total: nat, pdfs: nat, videos: nat, published: nat, drafts: nat,
                                       views: Value, purchases: Value)

  /** GET `/stats`: counts over every item, and the `+` folds of views and purchases. */
  function Stats(scan: seq<Record>, dateOf: Value -> int): (s: ContentStats)
    ensures s.total == |scan|
    ensures s.pdfs == Listing.Count(scan, Listing.Equals("type", Str("pdf")))
    ensures s.videos == Listing.Count(scan, Listing.Equals("type", Str("video")))
    ensures s.published == Listing.Count(scan, Listing.Equals("status", Str("published")))
    ensures s.drafts == Listing.Count(scan, Listing.Equals("status", Str("draft")))
    ensures s.pdfs + s.videos <= s.total && s.published + s.drafts <= s.total
    ensures (forall x :: x in scan ==> Listing.Numeric(Get(x, "views"))) ==> s.views == Num(Listing.SumOf(scan, "views"))
    ensures (forall x :: x in scan ==> Listing.Numeric(Get(x, "purchases"))) ==> s.purchases == Num(Listing.SumOf(scan, "purchases"))
  {
    var all := Dynamo.GetAllContent(scan, map[], dateOf);
    Listing.WhereAll(scan, Listing.Matcher(map[], Dynamo.ContentFilters));
    assert |all| == |multiset(all)| == |multiset(scan)| == |scan|;
    Listing.CountPermutation(all, scan, Listing.Equals("type", Str("pdf")));
    Listing.CountPermutation(all, scan, Listing.Equals("type", Str("video")));
    Listing.CountPermutation(all, scan, Listing.Equals("status", Str("published")));
    Listing.CountPermutation(all, scan, Listing.Equals("status", Str("draft")));
    Listing.Exclusive(scan, "type", "pdf", "video");
    Listing.Exclusive(scan, "status", "published", "draft");
    Listing.TotalOfPermutation(scan, all, "views");
    Listing.TotalOfPermutation(scan, all, "purchases");
    ContentStats(|all|,
      Listing.Count(all, Listing.Equals("type", Str("pdf"))),
      Listing.Count(all, Listing.Equals("type", Str("video"))),
      Listing.Count(all, Listing.Equals("status", Str("published"))),
      Listing.Count(all, Listing.Equals("status", Str("draft"))),
      Listing.Total(all, "views"),
      Listing.Total(all, "purchases"))
  }

  // ---------------------------------------------------------------- single items

  /** The store adds `updatedAt` to every update. */
  const UpdatedAt := Dynamo.UpdatedAt

  /** GET `/:id`: replies with the item as it was before the read, and counts a view:
      `views` becomes `(views || 0) + 1`. */
  function Read(t: Table, id: string, now: Value): (h: Handled)
    ensures id == "" ==> h == Handled(t, Refuse(500, "Failed to get content"))
    ensures id != "" && id !in t ==> h == Handled(t, Refuse(404, "Content not found"))
    ensures id != "" && id in t ==> h.reply.status == 200 && "data" in h.reply.body && h.reply.body["data"] == Obj(t[id])
    ensures id != "" && id in t ==> id in h.table && h.table == t[id := h.table[id]]
    ensures id != "" && id in t && Listing.Numeric(Get(t[id], "views")) ==>
      Get(h.table[id], "views") == Some(Num(Listing.NumberOf(Get(t[id], "views")) + 1))
    ensures id != "" && id in t ==> forall k :: k != "views" && k != UpdatedAt ==> Get(h.table[id], k) == Get(t[id], k)
  {
    match GetItem(t, Some(Str(id)))
    case Failure(_) => Handled(t, Refuse(500, "Failed to get content"))
    case Success(None) => Handled(t, Refuse(404, "Content not found"))
    case Success(Some(c)) =>
      var viewed := CountView(t, id, now);
      Handled(viewed.0, Ok(200, map["data" := Obj(c)]))
  }

  /** `views` becomes `(views || 0) + 1`, `updatedAt` is stamped, nothing else changes. */
  function CountView(t: Table, id: string, now: Value): (r: (Table, Record))
    requires id != "" && id in t
    ensures r.0 == t[id := r.1]
    ensures Listing.Numeric(Get(t[id], "views")) ==> Get(r.1, "views") == Some(Num(Listing.NumberOf(Get(t[id], "views")) + 1))
    ensures forall k :: k != "views" && k != UpdatedAt ==> Get(r.1, k) == Get(t[id], k)
  {
    SetProperty(t, Dynamo.ContentKey, Dynamo.ContentIndexKeys, id, "views", Listing.PlusOne(Get(t[id], "views")), now)
  }

  /** The four properties a create cannot do without. */
  predicate HasRequired(body: Record) {
    IsTruthy(Get(body, "title")) && IsTruthy(Get(body, "type")) && IsTruthy(Get(body, "classId"))
      && IsTruthy(Get(body, "subject"))
  }

  /** The properties of a new item, before they are laid out as a record. */
  datatype NewContent = NewContent(
    chapters: Value, pages: Value, lessons: Value, previewPages: Value,
    description: Value, board: Value, fileUrl: Value, thumbnailUrl: Value, fileKey: Value,
    duration: Value, status: Value,
    title: Value, kind: Value, classId: Value, subject: Value)

  /** The properties of a new item taken from a create request, with the defaults filled in. */
  function NewContentOf(body: Record): NewContent
    requires HasRequired(body)
  {
    NewContent(
      Num(IntOr(Get(body, "chapters"), 0)),
      Num(IntOr(Get(body, "pages"), 0)),
      Num(IntOr(Get(body, "lessons"), 0)),
      Num(IntOr(Get(body, "previewPages"), 5)),
      Or(Get(body, "description"), Str("")),
      Or(Get(body, "board"), Null),
      Or(Get(body, "fileUrl"), Str("")),
      Or(Get(body, "thumbnailUrl"), Str("")),
      Or(Get(body, "fileKey"), Str("")),
      Or(Get(body, "duration"), Str("")),
      Or(Get(body, "status"), Str("draft")),
      body["title"], body["type"], body["classId"], body["subject"])
  }

  /** The record a new item is stored as. */
  function Stored(c: NewContent): Record {
    map[
      "chapters" := c.chapters,
      "pages" := c.pages,
      "lessons" := c.lessons,
      "previewPages" := c.previewPages,
      "description" := c.description,
      "board" := c.board,
      "fileUrl" := c.fileUrl,
      "thumbnailUrl" := c.thumbnailUrl,
      "fileKey" := c.fileKey,
      "duration" := c.duration,
      "status" := c.status,
      "title" := c.title,
      "type" := c.kind,
      "classId" := c.classId,
      "subject" := c.subject
    ]
  }

  /** The stored record has no id of its own: the create assigns one. */
  lemma StoredHasNoId(c: NewContent)
    ensures Dynamo.ContentKey !in Stored(c)
  {
  }

  /** The counts are stored under their names. */
  lemma StoredCounts(c: NewContent)
    ensures var d := Stored(c);
      && "chapters" in d && "pages" in d && "lessons" in d && "previewPages" in d
      && d["chapters"] == c.chapters && d["pages"] == c.pages
      && d["lessons"] == c.lessons && d["previewPages"] == c.previewPages
  {
  }

  /** The descriptive properties are stored under their names. */
  lemma StoredTexts(c: NewContent)
    ensures var d := Stored(c);
      && "description" in d && "board" in d && "status" in d
      && d["description"] == c.description && d["board"] == c.board && d["status"] == c.status
  {
  }

  /** The file locations and the duration are stored under their names. */
  lemma StoredFiles(c: NewContent)
    ensures var d := Stored(c);
      && "fileUrl" in d && "thumbnailUrl" in d && "fileKey" in d && "duration" in d
      && d["fileUrl"] == c.fileUrl && d["thumbnailUrl"] == c.thumbnailUrl
      && d["fileKey"] == c.fileKey && d["duration"] == c.duration
  {
  }

  /** The required properties are stored under their names. */
  lemma StoredRequired(c: NewContent)
    ensures var d := Stored(c);
      && "title" in d && "type" in d && "classId" in d && "subject" in d
      && d["title"] == c.title && d["type"] == c.kind && d["classId"] == c.classId && d["subject"] == c.subject
  {
  }

  /** The stored properties built from a create request. */
  function ContentData(body: Record): (d: Record)
    requires HasRequired(body)
    ensures Dynamo.ContentKey !in d
  {
    StoredHasNoId(NewContentOf(body));
    Stored(NewContentOf(body))
  }

  /** The four required properties are stored as sent. */
  lemma CreateCopiesRequired(body: Record)
    requires HasRequired(body)
    ensures var d := ContentData(body);
      && "title" in d && "type" in d && "classId" in d && "subject" in d
      && d["title"] == body["title"] && d["type"] == body["type"]
      && d["classId"] == body["classId"] && d["subject"] == body["subject"]
  {
    StoredRequired(NewContentOf(body));
  }

  /** A new item is a draft unless the request says otherwise, with no board and no
      description. */
  lemma CreateTextDefaults(body: Record)
    requires HasRequired(body)
    ensures var d := ContentData(body);
      && "status" in d && "board" in d && "description" in d
      && (!IsTruthy(Get(body, "status")) ==> d["status"] == Str("draft"))
      && (!IsTruthy(Get(body, "board")) ==> d["board"] == Null)
      && (!IsTruthy(Get(body, "description")) ==> d["description"] == Str(""))
  {
    StoredTexts(NewContentOf(body));
  }

  /** The file locations and the duration are empty text unless the request sets them. */
  lemma CreateBlankDefaults(body: Record)
    requires HasRequired(body)
    ensures var d := ContentData(body);
      && "fileUrl" in d && "thumbnailUrl" in d && "fileKey" in d && "duration" in d
      && (!IsTruthy(Get(body, "fileUrl")) ==> d["fileUrl"] == Str(""))
      && (!IsTruthy(Get(body, "thumbnailUrl")) ==> d["thumbnailUrl"] == Str(""))
      && (!IsTruthy(Get(body, "fileKey")) ==> d["fileKey"] == Str(""))
      && (!IsTruthy(Get(body, "duration")) ==> d["duration"] == Str(""))
  {
    StoredFiles(NewContentOf(body));
  }

  /** The page and chapter counts: a missing count is 0 and a missing preview length is 5. */
  lemma NumericDefaults(body: Record)
    requires HasRequired(body)
    ensures var d := ContentData(body);
      && "chapters" in d && "previewPages" in d
      && ("chapters" !in body ==> d["chapters"] == Num(0))
      && ("previewPages" !in body ==> d["previewPages"] == Num(5))
  {
    StoredCounts(NewContentOf(body));
  }

  /** A page count sent as a numeral is stored as its number, unless it is 0. */
  lemma NumeralPages(body: Record, n: int)
    requires HasRequired(body) && n != 0
    requires Get(body, "pages") == Some(Str(IntToString(n)))
    ensures "pages" in ContentData(body) && ContentData(body)["pages"] == Num(n)
  {
    StoredCounts(NewContentOf(body));
    IntOrKept(Get(body, "pages"), n, 0);
  }

  /** The class and the type of a create request are text: the content table's indexes
      take only text keys, and the create has already demanded both truthy, so neither is
      empty. */
  predicate IndexedText(body: Record)
    requires HasRequired(body)
  {
    body["classId"].Str? && body["type"].Str?
  }

  /** The store takes a new item exactly when its class and type are text. */
  lemma CreateIndexable(body: Record)
    requires HasRequired(body)
    ensures Store.IndexTyped(ContentData(body), Dynamo.ContentIndexKeys) <==> IndexedText(body)
  {
    CreateCopiesRequired(body);
    var d := ContentData(body);
    if IndexedText(body) {
      forall k | k in d && k in Dynamo.ContentIndexKeys ensures Store.IndexValue(d[k]) {
        assert k == "classId" || k == "type";
      }
    }
  }

  /** POST `/`: a create missing a required property writes nothing; a class or type that
      is not text is refused by the store's indexes, a 500 that writes nothing; otherwise
      the new item holds the request's data, no views or purchases, and both timestamps. */
  function Create(t: Table, body: Record, millis: nat, suffix: string, created: Value, updated: Value): (h: Handled)
    ensures h.reply.status == 400 <==> !HasRequired(body)
    ensures h.reply.status == 201 <==> HasRequired(body) && IndexedText(body)
    ensures !HasRequired(body) ==> h.table == t
    ensures HasRequired(body) && !IndexedText(body) ==> h == Handled(t, Refuse(500, "Failed to create content"))
    ensures HasRequired(body) && IndexedText(body) ==>
      var id := Dynamo.MakeId("content", millis, suffix);
      && id in h.table && h.table == t[id := h.table[id]]
      && {"views", "purchases", Dynamo.CreatedAt, UpdatedAt} <= h.table[id].Keys
      && h.table[id]["views"] == Num(0) && h.table[id]["purchases"] == Num(0)
      && h.table[id][Dynamo.CreatedAt] == created && h.table[id][UpdatedAt] == updated
      && (forall k :: (k in ContentData(body) && k != "views" && k != "purchases" && k != Dynamo.CreatedAt
            && k != UpdatedAt) ==> k in h.table[id] && h.table[id][k] == ContentData(body)[k])
      && "data" in h.reply.body && h.reply.body["data"] == Obj(h.table[id])
  {
    if !HasRequired(body) then Handled(t, Refuse(400, "Title, type, class and subject are required"))
    else
      CreateIndexable(body);
      match Dynamo.CreateContent(t, ContentData(body), millis, suffix, created, updated)
      case Failure(_) => Handled(t, Refuse(500, "Failed to create content"))
      case Success(created) =>
        Handled(created.0, Ok(201, map["message" := Str("Content created successfully"), "data" := Obj(created.1)]))
  }

  /** The properties an update may change. */
  const Editable := ["title", "description", "classId", "board", "subject", "fileUrl", "thumbnailUrl",
                     "fileKey", "chapters", "pages", "lessons", "duration", "previewPages", "status"]

  /** The key and the timestamps are not editable. */
  lemma EditableExcludesKeys()
    ensures Dynamo.ContentKey !in Editable && UpdatedAt !in Editable && Dynamo.CreatedAt !in Editable
  {
  }

  /** Neither are the type and the counters. */
  lemma EditableExcludesCounters()
    ensures "type" !in Editable && "views" !in Editable && "purchases" !in Editable
  {
  }

  /** The class an update sets, if any, is non-empty text, as the content table's
      `classId-index` demands; the type is not editable. */
  predicate ClassIndexable(body: Record) {
    "classId" in body ==> Store.IndexValue(body["classId"])
  }

  /** The store takes an update's edits exactly when the class it sets is indexable. */
  lemma EditsIndexableIff(body: Record)
    ensures EditsIndexable(body, Editable, Defined(), Dynamo.ContentIndexKeys) <==> ClassIndexable(body)
  {
    EditableExcludesCounters();
    assert Editable[2] == "classId";
  }

  /** PUT `/:id`: every allow-listed property the body defines, falsy ones included,
      replaces the stored one; nothing else changes but `updatedAt`, and the reply carries
      the updated item. A class that is not non-empty text is refused by the store, a 500
      that writes nothing. */
  function Update(t: Table, id: string, body: Record, now: Value): (h: Handled)
    ensures id == "" ==> h == Handled(t, Refuse(500, "Failed to update content"))
    ensures id != "" && id !in t ==> h == Handled(t, Refuse(404, "Content not found"))
    ensures id != "" && id in t ==> (h.reply.status == 200 <==> ClassIndexable(body))
    ensures id != "" && id in t && !ClassIndexable(body) ==> h == Handled(t, Refuse(500, "Failed to update content"))
    ensures id != "" && id in t && ClassIndexable(body) ==>
      && id in h.table && h.table == t[id := h.table[id]]
      && Get(h.table[id], UpdatedAt) == Some(now)
      && (forall k :: k != UpdatedAt ==>
            Get(h.table[id], k) == if k in Editable && k in body then Some(body[k]) else Get(t[id], k))
      && "data" in h.reply.body && h.reply.body["data"] == Obj(h.table[id])
  {
    match GetItem(t, Some(Str(id)))
    case Failure(_) => Handled(t, Refuse(500, "Failed to update content"))
    case Success(None) => Handled(t, Refuse(404, "Content not found"))
    case Success(Some(c)) =>
      EditableExcludesKeys();
      EditsIndexableIff(body);
      match ApplyEdits(t, Dynamo.ContentKey, Dynamo.ContentIndexKeys, id, body, Editable, Defined(), now)
      case Failure(_) => Handled(t, Refuse(500, "Failed to update content"))
      case Success(edited) => Saved(edited, "Content updated successfully")
  }

  /** An update never touches the type, the counters, the id or the creation time. */
  lemma UpdateKeepsFixed(t: Table, id: string, body: Record, now: Value)
    requires id != "" && id in t
    ensures var stored := Update(t, id, body, now).table[id];
      && Get(stored, "type") == Get(t[id], "type")
      && Get(stored, "views") == Get(t[id], "views") && Get(stored, "purchases") == Get(t[id], "purchases")
      && Get(stored, Dynamo.ContentKey) == Get(t[id], Dynamo.ContentKey)
      && Get(stored, Dynamo.CreatedAt) == Get(t[id], Dynamo.CreatedAt)
  {
    EditableExcludesKeys();
    EditableExcludesCounters();
  }

  /** The status a toggle moves to. */
  function NextStatus(status: Option<Value>): (s: string)
    ensures s == "draft" || s == "published"
    ensures s == "draft" <==> status == Some(Str("published"))
  {
    StrictEqString(status, "published");
    if StrictEq(status, Some(Str("published"))) then "draft" else "published"
  }

  /** PUT `/:id/status`: a published item becomes a draft, anything else is published. */
  function Toggle(t: Table, id: string, now: Value): (h: Handled)
    ensures id != "" && id !in t ==> h == Handled(t, Refuse(404, "Content not found"))
    ensures id != "" && id in t ==> h.reply.status == 200 && id in h.table && h.table == t[id := h.table[id]]
    ensures id != "" && id in t ==> Get(h.table[id], "status") == Some(Str(NextStatus(Get(t[id], "status"))))
    ensures id != "" && id in t ==> forall k :: k != "status" && k != UpdatedAt ==> Get(h.table[id], k) == Get(t[id], k)
    ensures id != "" && id in t ==>
      "message" in h.reply.body && h.reply.body["message"] == Str("Content " + NextStatus(Get(t[id], "status")))
    ensures id != "" && id in t ==> "data" in h.reply.body && h.reply.body["data"] == Obj(h.table[id])
  {
    match GetItem(t, Some(Str(id)))
    case Failure(_) => Handled(t, Refuse(500, "Failed to update status"))
    case Success(None) => Handled(t, Refuse(404, "Content not found"))
    case Success(Some(c)) =>
      var next := NextStatus(Get(c, "status"));
      assert "status" !in Dynamo.ContentIndexKeys && UpdatedAt !in Dynamo.ContentIndexKeys;
      var edited := SetProperty(t, Dynamo.ContentKey, Dynamo.ContentIndexKeys, id, "status", Str(next), now);
      Saved(edited, "Content " + next)
  }

  /** Toggling a draft or published item twice restores its status. */
  lemma ToggleTwice(t: Table, id: string, now1: Value, now2: Value)
    requires id != "" && id in t
    requires Get(t[id], "status") == Some(Str("draft")) || Get(t[id], "status") == Some(Str("published"))
    ensures id in Toggle(Toggle(t, id, now1).table, id, now2).table
    ensures Get(Toggle(Toggle(t, id, now1).table, id, now2).table[id], "status") == Get(t[id], "status")
  {
    var t1 := Toggle(t, id, now1).table;
    assert Get(t1[id], "status") == Some(Str(NextStatus(Get(t[id], "status"))));
  }

  // ---------------------------------------------------------------- delete

  /** What a delete leaves behind: the handler's outcome and the object keys it asked the
      bucket to delete, in order. A failed object delete is logged and ignored. */
  datatype Removal = Removal(handled: Handled, storageDeletes: seq<Value>)

  /** The thumbnail's object key, when the URL points into the bucket and the key is not
      empty. */
  function ThumbnailKey(key: Option<string>): seq<Value> {
    if key.Some? && key.value != "" then [Str(key.value)] else []
  }

  /** `v` names an object of the item: its truthy file key, or the non-empty key of a
      thumbnail in the bucket. */
  predicate DeletesOwnObject(c: Record, bucket: string, v: Value) {
    || (IsTruthy(Get(c, "fileKey")) && Get(c, "fileKey") == Some(v))
    || (v.Str? && v.s != "" && Get(c, "thumbnailUrl") == Some(Str(Storage.PublicUrl(bucket, v.s))))
  }

  /** DELETE `/:id`: the file and the thumbnail objects are deleted first, then the item.
      A thumbnail URL that is truthy but not text throws after the file delete, and the
      item stays. */
  function Delete(t: Table, id: string, bucket: string): (r: Removal)
    ensures id == "" ==> r == Removal(Handled(t, Refuse(500, "Failed to delete content")), [])
    ensures id != "" && id !in t ==> r == Removal(Handled(t, Refuse(404, "Content not found")), [])
    ensures r.handled.reply.status == 200 <==>
      id != "" && id in t && Storage.GetKeyFromUrl(bucket, Get(t[id], "thumbnailUrl")).Success?
    ensures r.handled.reply.status == 200 ==> r.handled.table == t - {id}
    ensures r.handled.reply.status != 200 ==> r.handled.table == t
    ensures |r.storageDeletes| <= 2
    ensures id != "" && id in t && IsTruthy(Get(t[id], "fileKey")) ==>
      |r.storageDeletes| > 0 && r.storageDeletes[0] == t[id]["fileKey"]
    ensures forall v :: v in r.storageDeletes ==> id in t && DeletesOwnObject(t[id], bucket, v)
  {
    match GetItem(t, Some(Str(id)))
    case Failure(_) => Removal(Handled(t, Refuse(500, "Failed to delete content")), [])
    case Success(None) => Removal(Handled(t, Refuse(404, "Content not found")), [])
    case Success(Some(c)) =>
      var fileDeletes := if IsTruthy(Get(c, "fileKey")) then [c["fileKey"]] else [];
      match Storage.GetKeyFromUrl(bucket, Get(c, "thumbnailUrl"))
      case Failure(_) => Removal(Handled(t, Refuse(500, "Failed to delete content")), fileDeletes)
      case Success(key) =>
        var deletes := fileDeletes + ThumbnailKey(key);
        assert forall v :: v in ThumbnailKey(key) ==> v.Str? && v.s != "" && Get(c, "thumbnailUrl") == Some(Str(Storage.PublicUrl(bucket, v.s)));
        var removed := DeleteItem(t, id).value;
        Removal(Handled(removed, Ok(200, map["message" := Str("Content deleted successfully")])), deletes)
  }

  /** The empty file key every create stores by default is never sent to storage. */
  lemma DeleteSkipsBlankKey(t: Table, id: string, bucket: string)
    ensures Str("") !in Delete(t, id, bucket).storageDeletes
  {
  }

  /** An item whose thumbnail was uploaded to the bucket has the thumbnail's object
      deleted along with it. */
  lemma DeleteRemovesThumbnail(t: Table, id: string, bucket: string, key: string)
    requires id != "" && id in t && key != ""
    requires Get(t[id], "thumbnailUrl") == Some(Str(Storage.PublicUrl(bucket, key)))
    ensures Delete(t, id, bucket).handled.reply.status == 200
    ensures Delete(t, id, bucket).handled.table == t - {id}
    ensures Str(key) in Delete(t, id, bucket).storageDeletes
  {
    Storage.KeyFromUrlRoundTrip(bucket, key);
  }
}

=== FILE: dynamodb.dfy ===
/** The data-access service: one create, get, update, delete and list per table, over
    the store model. The current time and the random id suffix are inputs. */
module Dynamo {
  import opened Wrappers
  import opened Text
  import opened Values
  import opened Store
  import UpdateExpression
  import Listing

  /** The key attribute of each table. */
  const UserKey := "phone"
  const ContentKey := "contentId"
  const PricingKey := "classId"
  const OrderKey := "orderId"
  const ReviewKey := "reviewId"

  const CreatedAt := "createdAt"
  const UpdatedAt := UpdateExpression.UpdatedAt

  /** The key attributes of each table's secondary indexes, all `S`-typed: the content
      table's `classId-index` and `type-index`, the orders table's `phone-index` (with
      `createdAt` as its sort key). The other tables have none. */
  const ContentIndexKeys := {"classId", "type"}
  const OrderIndexKeys := {"phone", CreatedAt}

  /** `${prefix}_${Date.now()}_${suffix}`, the suffix being the random base-36 digits. */
  function MakeId(prefix: string, millis: nat, suffix: string): string {
    prefix + "_" + NatToString(millis) + "_" + suffix
  }

  lemma SplitAtSeparator(a: string, x: string, b: string, y: string)
    requires '_' !in a && '_' !in b
    requires a + "_" + x == b + "_" + y
    ensures a == b && x == y
  {
    BeforeSeparator(a, '_', x);
    BeforeSeparator(b, '_', y);
    assert a + "_" + x == a + ['_'] + x && b + "_" + y == b + ['_'] + y;
    assert x == (a + "_" + x)[|a| + 1..];
    assert y == (b + "_" + y)[|b| + 1..];
  }

  /** Two ids with the same prefix are equal only when both the millisecond clock and the
      random suffix agree. */
  lemma IdInjective(prefix: string, m1: nat, s1: string, m2: nat, s2: string)
    requires MakeId(prefix, m1, s1) == MakeId(prefix, m2, s2)
    ensures m1 == m2 && s1 == s2
  {
    var n := |prefix| + 1;
    var x1 := NatToString(m1) + "_" + s1;
    var x2 := NatToString(m2) + "_" + s2;
    assert MakeId(prefix, m1, s1) == (prefix + "_") + x1;
    assert MakeId(prefix, m2, s2) == (prefix + "_") + x2;
    assert x1 == MakeId(prefix, m1, s1)[n..] == MakeId(prefix, m2, s2)[n..] == x2;
    SplitAtSeparator(NatToString(m1), s1, NatToString(m2), s2);
    NatToStringInjective(m1, m2);
  }

  /** `{ [keyField]: id, ...data, ...extra, createdAt, updatedAt }`. The two timestamps
      are two readings of the clock, which may differ. */
  function NewItem(keyField: string, id: string, data: Record, extra: Record, created: Value, updated: Value): Record {
    (map[keyField := Str(id)] + data + extra)[CreatedAt := created][UpdatedAt := updated]
  }

  /** When the key, the timestamps and the extra properties are no index keys, a new item
      is indexable exactly when its data is. */
  lemma NewItemIndexTyped(keyField: string, id: string, data: Record, extra: Record, created: Value, updated: Value,
                          indexKeys: set<string>)
    requires keyField !in indexKeys && CreatedAt !in indexKeys && UpdatedAt !in indexKeys
    requires forall k :: k in extra ==> k !in indexKeys
    ensures IndexTyped(NewItem(keyField, id, data, extra, created, updated), indexKeys) <==> IndexTyped(data, indexKeys)
  {
    var item := NewItem(keyField, id, data, extra, created, updated);
    forall k | k in indexKeys ensures Get(item, k) == Get(data, k) {
      assert k != keyField && k !in extra && k != CreatedAt && k != UpdatedAt;
    }
  }

  /** A create with a generated id: the item is stored under its id, the timestamps are
      the two clock readings, and every other property comes from `extra`, else from
      `data`. */
  function CreateRecord(t: Table, keyField: string, indexKeys: set<string>, prefix: string, data: Record, extra: Record,
                        millis: nat, suffix: string, created: Value, updated: Value): (r: Result<(Table, Record), Fault>)
    requires keyField != CreatedAt && keyField != UpdatedAt
    ensures r.Success? ==> r.value.1.Keys == {keyField, CreatedAt, UpdatedAt} + data.Keys + extra.Keys
    ensures r.Success? ==> IndexTyped(r.value.1, indexKeys)
    ensures keyField !in data && keyField !in extra ==>
      (r.Success? <==> IndexTyped(NewItem(keyField, MakeId(prefix, millis, suffix), data, extra, created, updated), indexKeys))
    ensures keyField !in data && keyField !in extra && r.Success? ==> r.value.1[keyField] == Str(MakeId(prefix, millis, suffix))
    ensures r.Success? ==> r.value.1[CreatedAt] == created && r.value.1[UpdatedAt] == updated
    ensures r.Success? ==> forall k :: k in extra && k != CreatedAt && k != UpdatedAt ==> r.value.1[k] == extra[k]
    ensures r.Success? ==> forall k :: k in data && k !in extra && k != CreatedAt && k != UpdatedAt ==> r.value.1[k] == data[k]
    ensures r.Success? ==> r.value.1[keyField].Str? && r.value.0 == t[r.value.1[keyField].s := r.value.1]
  {
    var item := NewItem(keyField, MakeId(prefix, millis, suffix), data, extra, created, updated);
    match PutItem(t, keyField, indexKeys, item)
    case Success(t') => Success((t', item))
    case Failure(f) => Failure(f)
  }

  /** Every created content item starts with no views and no purchases, whatever the data says. */
  function CreateContent(t: Table, data: Record, millis: nat, suffix: string, created: Value, updated: Value): (r: Result<(Table, Record), Fault>)
    ensures ContentKey !in data ==> (r.Success? <==> IndexTyped(data, ContentIndexKeys))
    ensures r.Success? ==> IndexTyped(r.value.1, ContentIndexKeys)
    ensures r.Success? ==> {ContentKey, "views", "purchases", CreatedAt, UpdatedAt} <= r.value.1.Keys
    ensures r.Success? ==> r.value.1["views"] == Num(0) && r.value.1["purchases"] == Num(0)
    ensures r.Success? ==> r.value.1[CreatedAt] == created && r.value.1[UpdatedAt] == updated
    ensures r.Success? && ContentKey !in data ==> r.value.1[ContentKey] == Str(MakeId("content", millis, suffix))
    ensures r.Success? ==> forall k :: (k in data && k != ContentKey && k != "views" && k != "purchases"
      && k != CreatedAt && k != UpdatedAt) ==> k in r.value.1 && r.value.1[k] == data[k]
    ensures r.Success? ==> r.value.1[ContentKey].Str? && r.value.0 == t[r.value.1[ContentKey].s := r.value.1]
  {
    var extra := map["views" := Num(0), "purchases" := Num(0)];
    NewItemIndexTyped(ContentKey, MakeId("content", millis, suffix), data, extra, created, updated, ContentIndexKeys);
    var r := CreateRecord(t, ContentKey, ContentIndexKeys, "content", data, extra, millis, suffix, created, updated);
    assert extra.Keys == {"views", "purchases"} && extra["views"] == Num(0) && extra["purchases"] == Num(0);
    r
  }

  /** `createUser`: a put conditioned on the phone being new. */
  datatype UserCreation = Created(table: Table, user: Record) | AlreadyExists

  function CreateUser(t: Table, userData: Record, created: Value, updated: Value): (r: Result<UserCreation, Fault>)
    ensures r.Failure? <==> KeyText(Get(userData, UserKey)).None?
    ensures r == Success(AlreadyExists) <==> KeyText(Get(userData, UserKey)).Some? && userData[UserKey].s in t
    ensures r.Success? && r.value.Created? ==>
      && userData[UserKey].s !in t
      && r.value.user == userData[CreatedAt := created][UpdatedAt := updated]
      && r.value.table == t[userData[UserKey].s := r.value.user]
  {
    var item := userData[CreatedAt := created][UpdatedAt := updated];
    assert Get(item, UserKey) == Get(userData, UserKey);
    match PutIfAbsent(t, UserKey, item)
    case Success(t') => Success(Created(t', item))
    case Failure(ConditionalCheckFailed) => Success(AlreadyExists)
    case Failure(f) => Failure(f)
  }

  /** The built expression sets index values exactly when the update's pairs and the
      stamp do. */
  lemma BuildIndexSets(u: Fields, now: Value, indexKeys: set<string>)
    ensures IndexSets(UpdateExpression.Build(u, now), indexKeys)
        <==> IndexWrites(u, indexKeys) && (UpdatedAt in indexKeys ==> IndexValue(now))
  {
    UpdateExpression.ResolveBuild(u, now);
    IndexWritesAppend(u, (UpdatedAt, now), indexKeys);
  }

  /** The shared body of `updateUser`, `updateContent`, `updateOrder` and `updateReview`:
      the store keeps the old item (or creates one from the key) with exactly the given
      properties replaced and `updatedAt` refreshed. */
  function UpdateRecord(t: Table, keyField: string, indexKeys: set<string>, key: string, u: Fields, now: Value)
    : (r: Result<(Table, Record), Fault>)
    requires DistinctNames(u)
    ensures r.Success? <==>
      && key != "" && keyField !in Names(u) && UpdatedAt !in Names(u) && keyField != UpdatedAt
      && IndexWrites(u, indexKeys) && (UpdatedAt in indexKeys ==> IndexValue(now))
    ensures r.Success? ==> r.value.0 == t[key := r.value.1]
    ensures r.Success? ==> r.value.1.Keys == Existing(t, keyField, key).Keys + Names(u) + {UpdatedAt}
    ensures r.Success? ==> forall i :: 0 <= i < |u| ==> r.value.1[u[i].0] == u[i].1
    ensures r.Success? ==> r.value.1[UpdatedAt] == now
    ensures r.Success? ==> forall k :: k in Existing(t, keyField, key) && k !in Names(u) && k != UpdatedAt
                                   ==> r.value.1[k] == Existing(t, keyField, key)[k]
  {
    var e := Existing(t, keyField, key);
    UpdateExpression.BuildThenEvaluate(u, now, e, keyField);
    BuildIndexSets(u, now, indexKeys);
    var r := UpdateItem(t, keyField, indexKeys, key, UpdateExpression.Build(u, now));
    if r.Failure? then r
    else
      var item := r.value.1;
      assert item == Override(e, u)[UpdatedAt := now];
      forall i | 0 <= i < |u| ensures item[u[i].0] == u[i].1 {
        assert u[i].0 in Names(u);
      }
      r
  }

  /** Updating with no properties only refreshes `updatedAt`. */
  lemma EmptyUpdateStamps(t: Table, keyField: string, indexKeys: set<string>, key: string, now: Value)
    requires key in t && key != "" && keyField != UpdatedAt
    requires UpdatedAt in indexKeys ==> IndexValue(now)
    ensures UpdateRecord(t, keyField, indexKeys, key, [], now).Success?
        && UpdateRecord(t, keyField, indexKeys, key, [], now).value.1 == t[key][UpdatedAt := now]
  {
    assert Names([]) == {} && IndexWrites([], indexKeys);
    var r := UpdateRecord(t, keyField, indexKeys, key, [], now);
    assert r.Success?;
    var item := r.value.1;
    assert Existing(t, keyField, key) == t[key];
    assert item.Keys == t[key].Keys + {UpdatedAt};
    forall k | k in item ensures item[k] == t[key][UpdatedAt := now][k] {
      if k != UpdatedAt {
        assert k in t[key] && k !in Names([]);
      }
    }
  }

  const UserFilters := ["classId", "board"]
  const ContentFilters := ["classId", "board", "type", "status", "subject"]
  const OrderFilters := ["phone", "orderType", "orderStatus"]

  /** `getAllUsers`: the scanned users meeting every truthy filter, in scan order. */
  function GetAllUsers(scan: seq<Record>, filters: Record): (r: seq<Record>)
    ensures r == Listing.Where(scan, Listing.Matcher(filters, UserFilters))
  {
    Listing.ApplyFiltersIsWhere(scan, filters, UserFilters);
    Listing.ApplyFilters(scan, filters, UserFilters)
  }

  /** `getAllContent`: the scanned items meeting every truthy filter, newest first, items
      with the same date in scan order. */
  function GetAllContent(scan: seq<Record>, filters: Record, dateOf: Value -> int): (r: seq<Record>)
    ensures multiset(r) == multiset(Listing.Where(scan, Listing.Matcher(filters, ContentFilters)))
    ensures Listing.NewestFirst(r, Listing.CreatedKey(dateOf))
    ensures Listing.KeepsTies(r, Listing.Where(scan, Listing.Matcher(filters, ContentFilters)), Listing.CreatedKey(dateOf))
  {
    Listing.ApplyFiltersIsWhere(scan, filters, ContentFilters);
    Listing.SortNewestFirst(Listing.ApplyFilters(scan, filters, ContentFilters), Listing.CreatedKey(dateOf))
  }

  /** `getAllOrders`: the scanned orders meeting every truthy filter, newest first, orders
      with the same date in scan order. */
  function GetAllOrders(scan: seq<Record>, filters: Record, dateOf: Value -> int): (r: seq<Record>)
    ensures multiset(r) == multiset(Listing.Where(scan, Listing.Matcher(filters, OrderFilters)))
    ensures Listing.NewestFirst(r, Listing.CreatedKey(dateOf))
    ensures Listing.KeepsTies(r, Listing.Where(scan, Listing.Matcher(filters, OrderFilters)), Listing.CreatedKey(dateOf))
  {
    Listing.ApplyFiltersIsWhere(scan, filters, OrderFilters);
    Listing.SortNewestFirst(Listing.ApplyFilters(scan, filters, OrderFilters), Listing.CreatedKey(dateOf))
  }

  /** `getAllReviews`: every scanned review, newest first, reviews with the same date in
      scan order; it takes no filters. */
  function GetAllReviews(scan: seq<Record>, dateOf: Value -> int): (r: seq<Record>)
    ensures multiset(r) == multiset(scan)
    ensures Listing.NewestFirst(r, Listing.CreatedKey(dateOf))
    ensures Listing.KeepsTies(r, scan, Listing.CreatedKey(dateOf))
  {
    Listing.SortNewestFirst(scan, Listing.CreatedKey(dateOf))
  }

  function HasPhone(phone: string): Record -> bool {
    x => Get(x, UserKey) == Some(Str(phone))
  }

  /** `getOrdersByPhone`: a query on the phone index, read backwards. `index` is the
      index's content in ascending sort-key order. */
  function GetOrdersByPhone(index: seq<Record>, phone: Option<Value>): (r: Result<seq<Record>, Fault>)
    ensures r.Success? <==> KeyText(phone).Some?
    ensures r.Success? ==> forall x :: x in r.value <==> x in index && Get(x, UserKey) == phone
    ensures r.Success? ==> |r.value| == Listing.Count(index, HasPhone(KeyText(phone).value))
  {
    match KeyText(phone)
    case None => Failure(ValidationException)
    case Some(p) => Success(Listing.Reverse(Listing.Where(index, HasPhone(p))))
  }

  /** With the index ordered oldest first by `key`, the query answers newest first. */
  lemma OrdersByPhoneNewestFirst(index: seq<Record>, phone: Option<Value>, key: Record -> int)
    requires Listing.NewestFirst(index, Listing.Negated(key))
    requires KeyText(phone).Some?
    ensures Listing.NewestFirst(GetOrdersByPhone(index, phone).value, key)
  {
    var w := Listing.Where(index, HasPhone(KeyText(phone).value));
    Listing.WhereNewestFirst(index, HasPhone(KeyText(phone).value), Listing.Negated(key));
    Listing.ReverseOldestFirst(w, key);
    assert GetOrdersByPhone(index, phone).value == Listing.Reverse(w);
  }

  /** `upsertPricing`: `{ classId, ...pricingData, updatedAt }` replaces whatever was stored. */
  function UpsertPricing(t: Table, classId: string, data: Record, now: Value): (r: Result<(Table, Record), Fault>)
    ensures r.Success? ==> r.value.1.Keys == data.Keys + {PricingKey, UpdatedAt}
    ensures classId != "" && (PricingKey in data ==> data[PricingKey] == Str(classId)) ==>
      r.Success? && r.value.1[PricingKey] == Str(classId) && r.value.0 == t[classId := r.value.1]
    ensures r.Success? ==> r.value.1[UpdatedAt] == now
    ensures r.Success? ==> forall k :: k in data && k != UpdatedAt ==> r.value.1[k] == data[k]
    ensures r.Success? ==> r.value.1[PricingKey].Str? && r.value.0 == t[r.value.1[PricingKey].s := r.value.1]
  {
    var item := (map[PricingKey := Str(classId)] + data)[UpdatedAt := now];
    match PutItem(t, PricingKey, {}, item)
    case Success(t') => Success((t', item))
    case Failure(f) => Failure(f)
  }

  /** Whatever was stored under the class before, an upsert leaves nothing of it. */
  lemma UpsertForgetsOld(t: Table, classId: string, data: Record, now: Value)
    requires classId != "" && PricingKey !in data
    ensures UpsertPricing(t, classId, data, now).Success?
    ensures UpsertPricing(t, classId, data, now).value.0[classId] == UpsertPricing(map[], classId, data, now).value.0[classId]
  {
  }
}

=== FILE: http.dfy ===
/** The JSON replies the route handlers send, and the shaping of request bodies into
    update payloads and of stored records into responses. */
module Http {
  import opened Wrappers
  import opened Values
  import Store
  import Dynamo

  /** A status code and a JSON object body. */
  datatype Reply = Reply(status: nat, body: Record)

  /** What a handler leaves behind: the table it acted on and its reply. */
  datatype Handled = Handled(table: Store.Table, reply: Reply)

  /** `res.status(status).json({ success: true, ...fields })`. */
  function Ok(status: nat, fields: Record): (r: Reply)
    ensures r.status == status && "success" in r.body && r.body["success"] == Bool(true)
    ensures forall k :: k in fields && k != "success" ==> k in r.body && r.body[k] == fields[k]
  {
    Reply(status, fields["success" := Bool(true)])
  }

  /** `res.status(status).json({ success: false, message })`. The 500 replies also carry
      the thrown error's text, which is not modelled. */
  function Refuse(status: nat, message: string): (r: Reply)
    ensures r.status == status && r.body.Keys == {"success", "message"}
    ensures r.body["success"] == Bool(false) && r.body["message"] == Str(message)
  {
    Reply(status, map["success" := Bool(false), "message" := Str(message)])
  }

  /** A list of records as a JSON array. */
  function List(items: seq<Record>): (v: Value)
    ensures v.Arr? && |v.items| == |items|
    ensures forall i :: 0 <= i < |items| ==> v.items[i] == Obj(items[i])
  {
    Arr(seq(|items|, i requires 0 <= i < |items| => Obj(items[i])))
  }

  /** The array lists exactly the given records. */
  lemma ListMembers(items: seq<Record>)
    ensures forall v :: v in List(items).items ==> v.Obj? && v.fields in items
    ensures forall x :: x in items ==> Obj(x) in List(items).items
  {
    var l := List(items).items;
    forall x | x in items ensures Obj(x) in l {
      var i :| 0 <= i < |items| && items[i] == x;
      assert l[i] == Obj(x);
    }
  }

  /** `{ success: true, count: items.length, data: items }`. */
  function Listed(items: seq<Record>): (r: Reply)
    ensures r.status == 200 && "count" in r.body && "data" in r.body
    ensures r.body["count"] == Num(|items|) && r.body["data"] == List(items)
  {
    Ok(200, map["count" := Num(|items|), "data" := List(items)])
  }

  /** The records a JSON array lists, in order; an entry that is not an object reads as
      the empty record. */
  function Entries(v: Value): (rs: seq<Record>)
    ensures v.Arr? ==> |rs| == |v.items|
    ensures v.Arr? ==> forall i :: 0 <= i < |rs| && v.items[i].Obj? ==> rs[i] == v.items[i].fields
  {
    if v.Arr? then seq(|v.items|, i requires 0 <= i < |v.items| => if v.items[i].Obj? then v.items[i].fields else map[])
    else []
  }

  /** Reading a listed sequence back gives the sequence. */
  lemma ListEntries(items: seq<Record>)
    ensures Entries(List(items)) == items
  {
  }

  /** `res.json({ success: true, message, data })` after a write: the written table and item. */
  function Saved(edited: (Store.Table, Record), message: string): (h: Handled)
    ensures h.table == edited.0 && h.reply.status == 200
    ensures "message" in h.reply.body && h.reply.body["message"] == Str(message)
    ensures "data" in h.reply.body && h.reply.body["data"] == Obj(edited.1)
  {
    Handled(edited.0, Ok(200, map["message" := Str(message), "data" := Obj(edited.1)]))
  }

  /** The named properties of a body or query, as destructuring then re-assembling them
      gives: a missing one stays `undefined`. */
  function Pick(r: Record, names: set<string>): (p: Record)
    ensures forall k :: Get(p, k) == if k in names then Get(r, k) else None
  {
    map k | k in r && k in names :: r[k]
  }

  /** `const { password, ...rest } = record`. */
  function WithoutPassword(r: Record): (s: Record)
    ensures "password" !in s
    ensures forall k :: k != "password" ==> Get(s, k) == Get(r, k)
  {
    r - {"password"}
  }

  /** The allow-listed properties of a body that pass `keep`:
      `fields.forEach(f => { if (keep(body[f])) updates[f] = body[f] })`. A field listed
      twice is assigned twice with the same value, so only its last listing is kept. */
  function Project(body: Record, fields: seq<string>, keep: Value -> bool): (u: Fields)
    ensures forall k :: k in Names(u) <==> k in fields && k in body && keep(body[k])
    ensures forall i :: 0 <= i < |u| ==> u[i].0 in body && u[i].1 == body[u[i].0]
    ensures DistinctNames(u)
  {
    if fields == [] then []
    else
      var rest := Project(body, fields[1..], keep);
      var f := fields[0];
      var v := if f in body then body[f] else Null;
      var u := if f in body && keep(v) && f !in fields[1..] then [(f, v)] + rest else rest;
      NamesCons((f, v), rest);
      u
  }

  lemma NamesCons(x: (string, Value), rest: Fields)
    ensures Names([x] + rest) == {x.0} + Names(rest)
  {
    var u := [x] + rest;
    assert u[0] == x;
    forall k | k in Names(rest) ensures k in Names(u) {
      var i :| 0 <= i < |rest| && rest[i].0 == k;
      assert u[i + 1] == rest[i];
    }
    forall k | k in Names(u) && k != x.0 ensures k in Names(rest) {
      var i :| 0 <= i < |u| && u[i].0 == k;
      assert rest[i - 1] == u[i];
    }
  }

  /** `body[f] !== undefined`: the property is present. */
  function Defined(): Value -> bool {
    v => true
  }

  /** `if (body[f])`: the property is truthy. */
  function Truthful(): Value -> bool {
    v => Truthy(v)
  }

  /** Applying a projected body to a record changes exactly the allow-listed properties
      the body carries and `keep` accepts; every other property keeps its value. */
  lemma OverrideProjection(base: Record, body: Record, fields: seq<string>, keep: Value -> bool)
    ensures forall k :: Get(Override(base, Project(body, fields, keep)), k) == (if k in fields && k in body && keep(body[k]) then Some(body[k]) else Get(base, k))
  {
    var u := Project(body, fields, keep);
    var r := Override(base, u);
    forall k ensures Get(r, k) == (if k in fields && k in body && keep(body[k]) then Some(body[k]) else Get(base, k)) {
      if k in Names(u) {
        var i :| 0 <= i < |u| && u[i].0 == k;
        assert r[u[i].0] == u[i].1;
      }
    }
  }

  /** The allow-listed properties the body carries and `keep` accepts give every index key
      attribute among them an index value. */
  predicate EditsIndexable(body: Record, fields: seq<string>, keep: Value -> bool, indexKeys: set<string>) {
    forall k :: k in fields && k in indexKeys && k in body && keep(body[k]) ==> Store.IndexValue(body[k])
  }

  /** The projected update sets index values exactly when the body's edits are indexable. */
  lemma ProjectIndexWrites(body: Record, fields: seq<string>, keep: Value -> bool, indexKeys: set<string>)
    ensures Store.IndexWrites(Project(body, fields, keep), indexKeys) <==> EditsIndexable(body, fields, keep, indexKeys)
  {
    var u := Project(body, fields, keep);
    if Store.IndexWrites(u, indexKeys) {
      forall k | k in fields && k in indexKeys && k in body && keep(body[k]) ensures Store.IndexValue(body[k]) {
        assert k in Names(u);
        var i :| 0 <= i < |u| && u[i].0 == k;
      }
    }
    if EditsIndexable(body, fields, keep, indexKeys) {
      forall i | 0 <= i < |u| && u[i].0 in indexKeys ensures Store.IndexValue(u[i].1) {
        assert u[i].0 in Names(u);
      }
    }
  }

  /** A route's allow-listed update: the projected body goes to the store's update, so
      the record keeps every property the body does not set, takes every one it does,
      and is stamped; a missing record is created. The store refuses an edit that gives
      an index key attribute anything but non-empty text. */
  function ApplyEdits(t: Store.Table, keyField: string, indexKeys: set<string>, key: string, body: Record,
                      fields: seq<string>, keep: Value -> bool, now: Value): (r: Result<(Store.Table, Record), Store.Fault>)
    requires keyField != Dynamo.UpdatedAt && keyField !in fields && Dynamo.UpdatedAt !in fields
    ensures r.Success? <==>
      key != "" && EditsIndexable(body, fields, keep, indexKeys) && (Dynamo.UpdatedAt in indexKeys ==> Store.IndexValue(now))
    ensures r.Success? ==> r.value.0 == t[key := r.value.1]
    ensures r.Success? ==> Get(r.value.1, Dynamo.UpdatedAt) == Some(now)
    ensures r.Success? ==> forall k :: k != Dynamo.UpdatedAt ==>
      Get(r.value.1, k) == if k in fields && k in body && keep(body[k]) then Some(body[k]) else Get(Store.Existing(t, keyField, key), k)
  {
    var u := Project(body, fields, keep);
    ProjectIndexWrites(body, fields, keep, indexKeys);
    var r := Dynamo.UpdateRecord(t, keyField, indexKeys, key, u, now);
    if r.Success? then EditsLand(t, keyField, indexKeys, key, body, fields, keep, now); r else r
  }

  lemma EditsLand(t: Store.Table, keyField: string, indexKeys: set<string>, key: string, body: Record, fields: seq<string>,
                  keep: Value -> bool, now: Value)
    requires keyField != Dynamo.UpdatedAt && keyField !in fields && Dynamo.UpdatedAt !in fields && key != ""
    requires Store.IndexWrites(Project(body, fields, keep), indexKeys) && (Dynamo.UpdatedAt in indexKeys ==> Store.IndexValue(now))
    ensures var r := Dynamo.UpdateRecord(t, keyField, indexKeys, key, Project(body, fields, keep), now);
      && r.Success?
      && forall k :: k != Dynamo.UpdatedAt ==>
        Get(r.value.1, k) == if k in fields && k in body && keep(body[k]) then Some(body[k]) else Get(Store.Existing(t, keyField, key), k)
  {
    var u := Project(body, fields, keep);
    var e := Store.Existing(t, keyField, key);
    var r := Dynamo.UpdateRecord(t, keyField, indexKeys, key, u, now);
    assert r.Success?;
    var item := r.value.1;
    forall k | k != Dynamo.UpdatedAt
      ensures Get(item, k) == if k in Names(u) then Some(body[k]) else Get(e, k)
    {
      if k in Names(u) {
        var i :| 0 <= i < |u| && u[i].0 == k;
        assert item[u[i].0] == u[i].1;
      } else if k in e {
        assert item[k] == e[k];
      } else {
        assert k !in item;
      }
    }
  }

  /** An allow-listed update that takes only the truthy properties of the body. */
  function TruthyEdits(t: Store.Table, keyField: string, indexKeys: set<string>, key: string, body: Record,
                       fields: seq<string>, now: Value): (r: (Store.Table, Record))
    requires key != "" && keyField != Dynamo.UpdatedAt && keyField !in fields && Dynamo.UpdatedAt !in fields
    requires EditsIndexable(body, fields, Truthful(), indexKeys) && (Dynamo.UpdatedAt in indexKeys ==> Store.IndexValue(now))
    ensures r.0 == t[key := r.1]
    ensures Get(r.1, Dynamo.UpdatedAt) == Some(now)
    ensures forall k :: k != Dynamo.UpdatedAt ==>
      Get(r.1, k) == if k in fields && IsTruthy(Get(body, k)) then Get(body, k) else Get(Store.Existing(t, keyField, key), k)
  {
    var r := ApplyEdits(t, keyField, indexKeys, key, body, fields, Truthful(), now).value;
    forall k | k != Dynamo.UpdatedAt
      ensures Get(r.1, k) == if k in fields && IsTruthy(Get(body, k)) then Get(body, k) else Get(Store.Existing(t, keyField, key), k)
    {
      assert k in body ==> (Truthful()(body[k]) <==> IsTruthy(Get(body, k)));
    }
    r
  }

  /** An update of a single property of an existing record: `name` takes `v`, `updatedAt`
      is stamped, and nothing else changes. */
  function SetProperty(t: Store.Table, keyField: string, indexKeys: set<string>, key: string, name: string, v: Value, now: Value)
    : (r: (Store.Table, Record))
    requires key != "" && key in t && keyField != Dynamo.UpdatedAt && name != keyField && name != Dynamo.UpdatedAt
    requires (name in indexKeys ==> Store.IndexValue(v)) && (Dynamo.UpdatedAt in indexKeys ==> Store.IndexValue(now))
    ensures r.0 == t[key := r.1]
    ensures Get(r.1, name) == Some(v) && Get(r.1, Dynamo.UpdatedAt) == Some(now)
    ensures forall k :: k != name && k != Dynamo.UpdatedAt ==> Get(r.1, k) == Get(t[key], k)
  {
    ApplyEdits(t, keyField, indexKeys, key, map[name := v], [name], Defined(), now).value
  }
}

=== FILE: listing.dfy ===
/** The in-memory filter/sort engine applied to full-table scans: equality filters that
    only apply when their value is truthy, and newest-first ordering by `createdAt`. */
module Listing {
  import opened Wrappers
  import opened Values

  /** `s.filter(p)`. */
  function Where(s: seq<Record>, p: Record -> bool): (r: seq<Record>)
    ensures |r| <= |s|
    ensures forall x :: x in r <==> x in s && p(x)
    ensures forall x :: multiset(r)[x] == if p(x) then multiset(s)[x] else 0
  {
    if s == [] then []
    else
      assert s == [s[0]] + s[1..];
      (if p(s[0]) then [s[0]] else []) + Where(s[1..], p)
  }

  lemma {:induction false} WhereSame(s: seq<Record>, p: Record -> bool, q: Record -> bool)
    requires forall x :: p(x) == q(x)
    ensures Where(s, p) == Where(s, q)
  {
    if s != [] {
      WhereSame(s[1..], p, q);
    }
  }

  /** Filtering twice is filtering once by the conjunction. */
  lemma {:induction false} WhereWhere(s: seq<Record>, p: Record -> bool, q: Record -> bool, pq: Record -> bool)
    requires forall x :: pq(x) == (p(x) && q(x))
    ensures Where(Where(s, p), q) == Where(s, pq)
  {
    if s != [] {
      WhereWhere(s[1..], p, q, pq);
      var w := Where(s[1..], p);
      if p(s[0]) {
        assert Where(s, p) == [s[0]] + w;
        assert ([s[0]] + w)[1..] == w;
      } else {
        assert Where(s, p) == w;
      }
    }
  }

  /** Filtering by a predicate every element meets keeps the sequence. */
  lemma {:induction false} WhereAll(s: seq<Record>, p: Record -> bool)
    requires forall x :: x in s ==> p(x)
    ensures Where(s, p) == s
  {
    if s != [] {
      WhereAll(s[1..], p);
    }
  }

  /** `filters[f]` is present and truthy, so `if (filters.f)` applies the filter. */
  predicate Active(filters: Record, f: string) {
    f in filters && Truthy(filters[f])
  }

  /** `x => x.f === v`. */
  function Equals(f: string, v: Value): Record -> bool {
    x => StrictEq(Get(x, f), Some(v))
  }

  /** The records a test that may throw accepts. */
  function Passes<E>(test: Record -> Result<bool, E>): Record -> bool {
    x => test(x) == Success(true)
  }

  /** `s.filter(test)` with a test that may throw: the first throw ends the filter. */
  function TryFilter<E>(s: seq<Record>, test: Record -> Result<bool, E>): Result<seq<Record>, E> {
    if s == [] then Success([])
    else
      match test(s[0])
      case Failure(e) => Failure(e)
      case Success(hit) =>
        match TryFilter(s[1..], test)
        case Failure(e) => Failure(e)
        case Success(rest) => Success(if hit then [s[0]] + rest else rest)
  }

  /** The filter throws exactly when the test throws on some record. */
  lemma {:induction false} TryFilterThrows<E>(s: seq<Record>, test: Record -> Result<bool, E>)
    ensures TryFilter(s, test).Success? <==> forall i :: 0 <= i < |s| ==> test(s[i]).Success?
  {
    if s != [] {
      var rest := s[1..];
      TryFilterThrows(rest, test);
      assert TryFilter(s, test).Success? <==> test(s[0]).Success? && TryFilter(rest, test).Success?;
      assert forall i :: 1 <= i < |s| ==> s[i] == rest[i - 1];
    }
  }

  /** When it does not throw, the filter keeps exactly the accepted records, in order. */
  lemma {:induction false} TryFilterKeeps<E>(s: seq<Record>, test: Record -> Result<bool, E>)
    requires TryFilter(s, test).Success?
    ensures TryFilter(s, test).value == Where(s, Passes(test))
  {
    if s != [] {
      var rest := s[1..];
      assert TryFilter(rest, test).Success?;
      TryFilterKeeps(rest, test);
      var keep := if Passes(test)(s[0]) then [s[0]] else [];
      assert Where(s, Passes(test)) == keep + Where(rest, Passes(test));
    }
  }

  /** Two sequences holding the same multiset have the same members. */
  lemma SameMembers(a: seq<Record>, b: seq<Record>)
    requires multiset(a) == multiset(b)
    ensures forall x :: x in a <==> x in b
    ensures |a| == |b|
  {
    assert |a| == |multiset(a)| == |multiset(b)| == |b|;
    forall x ensures x in a <==> x in b {
      assert x in a <==> x in multiset(a);
      assert x in b <==> x in multiset(b);
    }
  }

  /** A record meets every active filter among `fields`. */
  predicate Matches(x: Record, filters: Record, fields: seq<string>) {
    forall i :: 0 <= i < |fields| && Active(filters, fields[i]) ==> StrictEq(Get(x, fields[i]), Some(filters[fields[i]]))
  }

  function Matcher(filters: Record, fields: seq<string>): Record -> bool {
    x => Matches(x, filters, fields)
  }

  /** One `if (filters.f) s = s.filter(x => x.f === filters.f)` step. */
  function FilterStep(s: seq<Record>, filters: Record, f: string): seq<Record> {
    if Active(filters, f) then Where(s, Equals(f, filters[f])) else s
  }

  /** The filter steps for `fields`, in order. */
  function ApplyFilters(s: seq<Record>, filters: Record, fields: seq<string>): seq<Record>
    decreases |fields|
  {
    if fields == [] then s else ApplyFilters(FilterStep(s, filters, fields[0]), filters, fields[1..])
  }

  lemma MatchesCons(x: Record, filters: Record, fields: seq<string>)
    requires fields != []
    ensures Matches(x, filters, fields)
        == ((Active(filters, fields[0]) ==> Equals(fields[0], filters[fields[0]])(x)) && Matches(x, filters, fields[1..]))
  {
    var rest := fields[1..];
    if Matches(x, filters, rest) && (Active(filters, fields[0]) ==> Equals(fields[0], filters[fields[0]])(x)) {
      forall i | 0 <= i < |fields| && Active(filters, fields[i])
        ensures StrictEq(Get(x, fields[i]), Some(filters[fields[i]]))
      {
        if i > 0 {
          assert fields[i] == rest[i - 1];
        }
      }
    }
    if Matches(x, filters, fields) {
      forall i | 0 <= i < |rest| && Active(filters, rest[i])
        ensures StrictEq(Get(x, rest[i]), Some(filters[rest[i]]))
      {
        assert rest[i] == fields[i + 1];
      }
    }
  }

  /** The sequence of filter steps keeps exactly the records that meet every active
      filter, in scan order: inactive (absent or falsy) filters impose nothing. */
  lemma {:induction false} ApplyFiltersIsWhere(s: seq<Record>, filters: Record, fields: seq<string>)
    ensures ApplyFilters(s, filters, fields) == Where(s, Matcher(filters, fields))
    decreases |fields|
  {
    if fields == [] {
      WhereAll(s, Matcher(filters, fields));
    } else {
      var f := fields[0];
      var rest := fields[1..];
      var s1 := FilterStep(s, filters, f);
      ApplyFiltersIsWhere(s1, filters, rest);
      forall x ensures Matcher(filters, fields)(x) == ((Active(filters, f) ==> Equals(f, filters[f])(x)) && Matcher(filters, rest)(x)) {
        MatchesCons(x, filters, fields);
      }
      if Active(filters, f) {
        WhereWhere(s, Equals(f, filters[f]), Matcher(filters, rest), Matcher(filters, fields));
      } else {
        WhereSame(s, Matcher(filters, rest), Matcher(filters, fields));
      }
    }
  }

  /** `new Date(x.createdAt)` as a number, through the given date parser. */
  function CreatedKey(dateOf: Value -> int): Record -> int {
    x => if "createdAt" in x then dateOf(x["createdAt"]) else 0
  }

  /** Non-increasing by the key: newest first. */
  predicate NewestFirst(s: seq<Record>, key: Record -> int) {
    forall i, j :: 0 <= i < j < |s| ==> key(s[i]) >= key(s[j])
  }

  /** A record not older than everything after it can head a sorted sequence. */
  lemma PrependNewest(a: Record, s: seq<Record>, key: Record -> int)
    requires NewestFirst(s, key)
    requires forall y :: y in s ==> key(a) >= key(y)
    ensures NewestFirst([a] + s, key)
  {
    forall i, j | 0 <= i < j < |[a] + s| ensures key(([a] + s)[i]) >= key(([a] + s)[j]) {
      assert ([a] + s)[j] == s[j - 1];
      if i > 0 {
        assert ([a] + s)[i] == s[i - 1];
      }
    }
  }

  /** Insert `x` before the first record that is not newer than it. */
  function Insert(x: Record, s: seq<Record>, key: Record -> int): (r: seq<Record>)
    ensures multiset(r) == multiset(s) + multiset{x}
  {
    if s == [] || key(s[0]) <= key(x) then [x] + s
    else
      assert s == [s[0]] + s[1..];
      [s[0]] + Insert(x, s[1..], key)
  }

  lemma {:induction false} InsertSorted(x: Record, s: seq<Record>, key: Record -> int)
    requires NewestFirst(s, key)
    ensures NewestFirst(Insert(x, s, key), key)
  {
    if s == [] || key(s[0]) <= key(x) {
      PrependNewest(x, s, key);
    } else {
      var rest := Insert(x, s[1..], key);
      InsertSorted(x, s[1..], key);
      forall y | y in rest ensures key(s[0]) >= key(y) {
        assert y in multiset(rest);
        if y != x {
          assert y in multiset(s[1..]);
          var k :| 0 <= k < |s[1..]| && s[1..][k] == y;
          assert s[k + 1] == y;
        }
      }
      PrependNewest(s[0], rest, key);
    }
  }

  /** The records whose key is `d`. */
  function KeyIs(key: Record -> int, d: int): Record -> bool {
    x => key(x) == d
  }

  /** `r` lists the records of each key in the order `s` lists them: ties keep their
      relative order. */
  ghost predicate KeepsTies(r: seq<Record>, s: seq<Record>, key: Record -> int) {
    forall d :: Where(r, KeyIs(key, d)) == Where(s, KeyIs(key, d))
  }

  lemma WhereCons(x: Record, t: seq<Record>, p: Record -> bool)
    ensures Where([x] + t, p) == (if p(x) then [x] else []) + Where(t, p)
  {
    assert ([x] + t)[0] == x && ([x] + t)[1..] == t;
  }

  lemma WhereHead(s: seq<Record>, p: Record -> bool)
    requires s != []
    ensures Where(s, p) == (if p(s[0]) then [s[0]] else []) + Where(s[1..], p)
  {
  }

  /** Inserting a record leaves the records of every other key in place. */
  lemma {:induction false} InsertOtherKey(x: Record, s: seq<Record>, key: Record -> int, d: int)
    requires key(x) != d
    ensures Where(Insert(x, s, key), KeyIs(key, d)) == Where(s, KeyIs(key, d))
  {
    var p := KeyIs(key, d);
    if s == [] || key(s[0]) <= key(x) {
      assert Insert(x, s, key) == [x] + s;
      WhereCons(x, s, p);
    } else {
      var t := Insert(x, s[1..], key);
      assert Insert(x, s, key) == [s[0]] + t;
      InsertOtherKey(x, s[1..], key, d);
      WhereCons(s[0], t, p);
      WhereHead(s, p);
    }
  }

  /** An inserted record goes before the records of its own key. */
  lemma {:induction false} InsertSameKey(x: Record, s: seq<Record>, key: Record -> int)
    ensures Where(Insert(x, s, key), KeyIs(key, key(x))) == [x] + Where(s, KeyIs(key, key(x)))
  {
    var p := KeyIs(key, key(x));
    if s == [] || key(s[0]) <= key(x) {
      assert Insert(x, s, key) == [x] + s;
      WhereCons(x, s, p);
    } else {
      var t := Insert(x, s[1..], key);
      assert Insert(x, s, key) == [s[0]] + t;
      InsertSameKey(x, s[1..], key);
      assert !p(s[0]);
      WhereCons(s[0], t, p);
      assert Where(Insert(x, s, key), p) == Where(t, p);
      WhereHead(s, p);
      assert Where(s, p) == [] + Where(s[1..], p);
      assert Where(s, p) == Where(s[1..], p);
      assert Where(t, p) == [x] + Where(s[1..], p);
    }
  }

  /** Filtering two permutations of each other gives two permutations of each other. */
  lemma WhereMultiset(r: seq<Record>, s: seq<Record>, p: Record -> bool)
    requires multiset(r) == multiset(s)
    ensures multiset(Where(r, p)) == multiset(Where(s, p))
  {
    forall x ensures multiset(Where(r, p))[x] == multiset(Where(s, p))[x] {
    }
  }

  /** The order of two filters does not matter. */
  lemma WhereCommute(s: seq<Record>, p: Record -> bool, q: Record -> bool)
    ensures Where(Where(s, p), q) == Where(Where(s, q), p)
  {
    var pq := x => p(x) && q(x);
    WhereWhere(s, p, q, pq);
    WhereWhere(s, q, p, pq);
  }

  /** Filtering a sequence and a reordering of it that keeps ties in place gives two
      sequences that still keep ties in place. */
  lemma WhereKeepsTies(r: seq<Record>, s: seq<Record>, key: Record -> int, p: Record -> bool)
    requires KeepsTies(r, s, key)
    ensures KeepsTies(Where(r, p), Where(s, p), key)
  {
    forall d ensures Where(Where(r, p), KeyIs(key, d)) == Where(Where(s, p), KeyIs(key, d)) {
      WhereCommute(r, p, KeyIs(key, d));
      WhereCommute(s, p, KeyIs(key, d));
      assert Where(r, KeyIs(key, d)) == Where(s, KeyIs(key, d));
    }
  }

  /** `s.sort((a, b) => key(b) - key(a))`: a permutation of `s`, newest first, and stable
      as the engine's sort is. */
  function SortNewestFirst(s: seq<Record>, key: Record -> int): (r: seq<Record>)
    ensures multiset(r) == multiset(s)
    ensures NewestFirst(r, key)
    ensures KeepsTies(r, s, key)
  {
    if s == [] then []
    else
      assert s == [s[0]] + s[1..];
      var rest := SortNewestFirst(s[1..], key);
      InsertSorted(s[0], rest, key);
      InsertKeepsTies(s, rest, key);
      Insert(s[0], rest, key)
  }

  lemma InsertKeepsTies(s: seq<Record>, rest: seq<Record>, key: Record -> int)
    requires s != [] && KeepsTies(rest, s[1..], key)
    ensures KeepsTies(Insert(s[0], rest, key), s, key)
  {
    forall d ensures Where(Insert(s[0], rest, key), KeyIs(key, d)) == Where(s, KeyIs(key, d)) {
      assert Where(rest, KeyIs(key, d)) == Where(s[1..], KeyIs(key, d));
      if key(s[0]) == d {
        InsertSameKey(s[0], rest, key);
      } else {
        InsertOtherKey(s[0], rest, key, d);
      }
    }
  }

  /** Filtering keeps a newest-first sequence newest first. */
  lemma {:induction false} WhereNewestFirst(s: seq<Record>, p: Record -> bool, key: Record -> int)
    requires NewestFirst(s, key)
    ensures NewestFirst(Where(s, p), key)
  {
    if s != [] {
      var rest := Where(s[1..], p);
      WhereNewestFirst(s[1..], p, key);
      if p(s[0]) {
        forall y | y in rest ensures key(s[0]) >= key(y) {
          var k :| 0 <= k < |s[1..]| && s[1..][k] == y;
          assert s[k + 1] == y;
        }
        PrependNewest(s[0], rest, key);
      }
    }
  }

  /** The opposite order of a sort key. */
  function Negated(key: Record -> int): Record -> int {
    x => -key(x)
  }

  function Reverse(s: seq<Record>): (r: seq<Record>)
    ensures |r| == |s|
    ensures forall i :: 0 <= i < |s| ==> r[i] == s[|s| - 1 - i]
    ensures forall x :: x in r <==> x in s
  {
    if s == [] then [] else Reverse(s[1..]) + [s[0]]
  }

  /** Reading an oldest-first sequence backwards gives it newest first. */
  lemma ReverseOldestFirst(s: seq<Record>, key: Record -> int)
    requires NewestFirst(s, Negated(key))
    ensures NewestFirst(Reverse(s), key)
  {
    var r := Reverse(s);
    forall i, j | 0 <= i < j < |r| ensures key(r[i]) >= key(r[j]) {
      assert Negated(key)(s[|s| - 1 - j]) >= Negated(key)(s[|s| - 1 - i]);
    }
  }

  /** `s.filter(p).length`. */
  function Count(s: seq<Record>, p: Record -> bool): (n: nat)
    ensures n <= |s|
  {
    |Where(s, p)|
  }

  /** Two predicates no record meets together count at most the whole sequence, and
      exactly as many records as their disjunction. */
  lemma {:induction false} CountDisjoint(s: seq<Record>, p: Record -> bool, q: Record -> bool, pq: Record -> bool)
    requires forall x :: !(p(x) && q(x))
    requires forall x :: pq(x) == (p(x) || q(x))
    ensures Count(s, p) + Count(s, q) == Count(s, pq)
    ensures Count(s, p) + Count(s, q) <= |s|
  {
    if s != [] {
      CountDisjoint(s[1..], p, q, pq);
    }
  }

  /** `s.reduce((sum, x) => sum + (x.f || 0), 0)`, with JavaScript's `+`: the last
      element is added to the total of the ones before it. */
  function Total(s: seq<Record>, f: string): Value
    decreases |s|
  {
    if s == [] then Num(0) else Plus(Total(s[..|s| - 1], f), Or(Get(s[|s| - 1], f), Num(0)))
  }

  /** The property is a number, `null` or missing: the cases where `+` adds. */
  predicate Numeric(o: Option<Value>) {
    o.None? || o.value.Null? || o.value.Num?
  }

  /** A numeric property's contribution to a sum. */
  function NumberOf(o: Option<Value>): int {
    if o.Some? && o.value.Num? then o.value.n else 0
  }

  /** Adding `x.f || 0` to a numeric total is arithmetic when `x.f` is numeric. */
  lemma AddNumeric(a: int, o: Option<Value>)
    requires Numeric(o)
    ensures Plus(Num(a), Or(o, Num(0))) == Num(a + NumberOf(o))
  {
    assert Or(o, Num(0)) == Num(NumberOf(o));
  }

  /** `(x.f || 0) + 1` is one more than a numeric property. */
  function PlusOne(o: Option<Value>): (r: Value)
    ensures Numeric(o) ==> r == Num(NumberOf(o) + 1)
  {
    var base := Or(o, Num(0));
    assert Numeric(o) ==> base == Num(NumberOf(o));
    Plus(base, Num(1))
  }

  /** The arithmetic sum of the numeric values of property `f`. */
  function SumOf(s: seq<Record>, f: string): int
    decreases |s|
  {
    if s == [] then 0 else SumOf(s[..|s| - 1], f) + NumberOf(Get(s[|s| - 1], f))
  }

  /** When every value is a number or absent, the `+` fold is the arithmetic sum. */
  lemma {:induction false} TotalOfNumbers(s: seq<Record>, f: string)
    requires forall i :: 0 <= i < |s| ==> Numeric(Get(s[i], f))
    ensures Total(s, f) == Num(SumOf(s, f))
    decreases |s|
  {
    if s != [] {
      var front := s[..|s| - 1];
      var o := Get(s[|s| - 1], f);
      assert Numeric(o);
      assert forall i :: 0 <= i < |front| ==> Numeric(Get(front[i], f));
      TotalOfNumbers(front, f);
      AddNumeric(SumOf(front, f), o);
      assert Total(s, f) == Plus(Num(SumOf(front, f)), Or(o, Num(0)));
    }
  }

  lemma {:induction false} CountPermutation(s1: seq<Record>, s2: seq<Record>, p: Record -> bool)
    requires multiset(s1) == multiset(s2)
    ensures Count(s1, p) == Count(s2, p)
  {
    var w1 := Where(s1, p);
    var w2 := Where(s2, p);
    assert multiset(w1) == multiset(w2) by {
      forall x ensures multiset(w1)[x] == multiset(w2)[x] { }
    }
    assert |w1| == |multiset(w1)| && |w2| == |multiset(w2)|;
  }

  /** A property that is equal to one string is not equal to another. */
  lemma Exclusive(s: seq<Record>, f: string, a: string, b: string)
    requires a != b
    ensures Count(s, Equals(f, Str(a))) + Count(s, Equals(f, Str(b))) <= |s|
  {
    var p := Equals(f, Str(a));
    var q := Equals(f, Str(b));
    forall x ensures !(p(x) && q(x)) {
      StrictEqString(Get(x, f), a);
      StrictEqString(Get(x, f), b);
    }
    CountDisjoint(s, p, q, x => p(x) || q(x));
  }

  lemma NumericMembers(scan: seq<Record>, all: seq<Record>, f: string)
    requires multiset(all) == multiset(scan)
    requires forall x :: x in scan ==> Numeric(Get(x, f))
    ensures forall i :: 0 <= i < |all| ==> Numeric(Get(all[i], f))
  {
    forall i | 0 <= i < |all| ensures Numeric(Get(all[i], f)) {
      var x := all[i];
      assert x in multiset(all);
      assert x in multiset(scan);
    }
  }

  lemma {:induction false} SumOfAppend(u: seq<Record>, v: seq<Record>, f: string)
    ensures SumOf(u + v, f) == SumOf(u, f) + SumOf(v, f)
    decreases |v|
  {
    if v == [] {
      assert u + v == u;
    } else {
      var front := v[..|v| - 1];
      assert (u + v)[..|u + v| - 1] == u + front;
      assert (u + v)[|u + v| - 1] == v[|v| - 1];
      SumOfAppend(u, front, f);
    }
  }

  /** Taking one record out of a sequence takes its value out of the sum. */
  lemma SumOfRemove(b: seq<Record>, k: nat, f: string)
    requires k < |b|
    ensures SumOf(b, f) == SumOf(b[..k] + b[k + 1..], f) + NumberOf(Get(b[k], f))
  {
    assert b == (b[..k] + [b[k]]) + b[k + 1..];
    SumOfAppend(b[..k] + [b[k]], b[k + 1..], f);
    SumOfAppend(b[..k], [b[k]], f);
    SumOfAppend(b[..k], b[k + 1..], f);
    assert [b[k]][..0] == [];
  }

  lemma RemoveLast(a: seq<Record>, b: seq<Record>, k: nat)
    requires multiset(a) == multiset(b) && a != [] && k < |b| && b[k] == a[|a| - 1]
    ensures multiset(a[..|a| - 1]) == multiset(b[..k] + b[k + 1..])
  {
    var x, front, l, r := b[k], a[..|a| - 1], b[..k], b[k + 1..];
    assert a == front + [x];
    assert b == l + [x] + r;
    calc {
      multiset(front);
      multiset(a) - multiset{x};
      multiset(b) - multiset{x};
      multiset(l + r);
    }
  }

  /** The arithmetic sum does not depend on the order of the records. */
  lemma {:induction false} SumOfPermutation(a: seq<Record>, b: seq<Record>, f: string)
    requires multiset(a) == multiset(b)
    ensures SumOf(a, f) == SumOf(b, f)
    decreases |a|
  {
    if a != [] {
      var x := a[|a| - 1];
      assert x in multiset(b);
      var k :| 0 <= k < |b| && b[k] == x;
      RemoveLast(a, b, k);
      SumOfPermutation(a[..|a| - 1], b[..k] + b[k + 1..], f);
      SumOfRemove(b, k, f);
    }
  }

  /** For numeric values, the `+` fold over a permutation is the sum over the original. */
  lemma TotalOfPermutation(scan: seq<Record>, all: seq<Record>, f: string)
    requires multiset(all) == multiset(scan)
    ensures (forall x :: x in scan ==> Numeric(Get(x, f)))
      ==> Total(all, f) == Num(SumOf(scan, f))
  {
    if forall x :: x in scan ==> Numeric(Get(x, f)) {
      NumericMembers(scan, all, f);
      TotalOfNumbers(all, f);
      SumOfPermutation(all, scan, f);
    }
  }
}

=== FILE: order_routes.dfy ===
/** The order routes: a signed-in user places and reads their own orders; the routes
    labelled admin list, count and move orders along, with no token or role check. */
module OrderRoutes {
  import opened Wrappers
  import opened Values
  import opened Store
  import opened Http
  import Listing
  import Dynamo

  const UpdatedAt := Dynamo.UpdatedAt

  // ---------------------------------------------------------------- placing an order

  /** The two properties an order cannot do without. */
  predicate HasRequired(body: Record) {
    IsTruthy(Get(body, "orderType")) && IsTruthy(Get(body, "amount"))
  }

  /** The stored properties of a new order, with the defaults filled in. The phone is the
      signed-in user's, and is left out when their token carries none. */
  function OrderData(body: Record, user: Record, amount: int): (d: Record)
    requires HasRequired(body)
    ensures Dynamo.OrderKey !in d && Dynamo.CreatedAt !in d && UpdatedAt !in d
    ensures Get(d, "phone") == Get(user, "phone")
  {
    var fields := map[
      "orderType" := body["orderType"],
      "items" := Or(Get(body, "items"), Arr([])),
      "classId" := Or(Get(body, "classId"), Str("")),
      "packageType" := Or(Get(body, "packageType"), Str("")),
      "amount" := Num(amount),
      "paymentMethod" := Or(Get(body, "paymentMethod"), Str("online")),
      "paymentStatus" := Or(Get(body, "paymentStatus"), Str("pending")),
      "orderStatus" := Or(Get(body, "orderStatus"), Str("pending")),
      "deliveryAddress" := Or(Get(body, "deliveryAddress"), Null),
      "trackingId" := Null
    ];
    if "phone" in user then fields["phone" := user["phone"]] else fields
  }

  /** The type is stored as sent, the amount as parsed, and no order starts with a tracking id. */
  lemma OrderCopies(body: Record, user: Record, amount: int)
    requires HasRequired(body)
    ensures var d := OrderData(body, user, amount);
      && Get(d, "orderType") == Get(body, "orderType")
      && Get(d, "amount") == Some(Num(amount))
      && Get(d, "trackingId") == Some(Null)
  {
  }

  /** An order is paid online, pending payment and pending delivery unless the request
      says otherwise. */
  lemma OrderStatusDefaults(body: Record, user: Record, amount: int)
    requires HasRequired(body)
    ensures var d := OrderData(body, user, amount);
      && "paymentMethod" in d && "paymentStatus" in d && "orderStatus" in d
      && d["paymentMethod"] == Or(Get(body, "paymentMethod"), Str("online"))
      && (!IsTruthy(Get(body, "paymentStatus")) ==> d["paymentStatus"] == Str("pending"))
      && (!IsTruthy(Get(body, "orderStatus")) ==> d["orderStatus"] == Str("pending"))
  {
  }

  /** No items, class or package is an empty list or empty text, and no address is `null`. */
  lemma OrderBlankDefaults(body: Record, user: Record, amount: int)
    requires HasRequired(body)
    ensures var d := OrderData(body, user, amount);
      && "items" in d && "classId" in d && "packageType" in d && "deliveryAddress" in d
      && (!IsTruthy(Get(body, "items")) ==> d["items"] == Arr([]))
      && (!IsTruthy(Get(body, "classId")) ==> d["classId"] == Str(""))
      && (!IsTruthy(Get(body, "packageType")) ==> d["packageType"] == Str(""))
      && (!IsTruthy(Get(body, "deliveryAddress")) ==> d["deliveryAddress"] == Null)
  {
  }

  /** The phone index's keys of a new order are text: the signed-in user's phone, when the
      token carries one (an order without it stays out of the index), and the creation time. */
  predicate Indexable(user: Record, created: Value) {
    ("phone" in user ==> Store.IndexValue(user["phone"])) && Store.IndexValue(created)
  }

  /** The store takes a new order exactly when its phone index keys are text. */
  lemma OrderIndexable(body: Record, user: Record, amount: int, id: string, created: Value, updated: Value)
    requires HasRequired(body)
    ensures var item := Dynamo.NewItem(Dynamo.OrderKey, id, OrderData(body, user, amount), map[], created, updated);
      Store.IndexTyped(item, Dynamo.OrderIndexKeys) <==> Indexable(user, created)
  {
    var d := OrderData(body, user, amount);
    var item := Dynamo.NewItem(Dynamo.OrderKey, id, d, map[], created, updated);
    assert Get(item, Dynamo.CreatedAt) == Some(created);
    assert Get(item, "phone") == Get(user, "phone");
  }

  /** POST `/`: an order without a type or an amount is refused; an amount that does not
      parse as a number, or a phone or creation time the phone index cannot key, cannot be
      stored; otherwise the order is stored under a fresh id. `parseFloat` is a parameter:
      `None` stands for `NaN`, which the store rejects. */
  function Create(t: Table, body: Record, user: Record, parseFloat: Value -> Option<int>,
                  millis: nat, suffix: string, created: Value, updated: Value): (h: Handled)
    ensures !HasRequired(body) ==> h == Handled(t, Refuse(400, "Order type and amount are required"))
    ensures HasRequired(body) && (parseFloat(body["amount"]).None? || !Indexable(user, created)) ==>
      h == Handled(t, Refuse(500, "Failed to create order"))
    ensures HasRequired(body) && parseFloat(body["amount"]).Some? && Indexable(user, created) ==>
      var id := Dynamo.MakeId("order", millis, suffix);
      var d := OrderData(body, user, parseFloat(body["amount"]).value);
      && h.reply.status == 201
      && id in h.table && h.table == t[id := h.table[id]]
      && h.table[id].Keys == d.Keys + {Dynamo.OrderKey, Dynamo.CreatedAt, UpdatedAt}
      && h.table[id][Dynamo.OrderKey] == Str(id)
      && h.table[id][Dynamo.CreatedAt] == created && h.table[id][UpdatedAt] == updated
      && (forall k :: k in d ==> h.table[id][k] == d[k])
      && "data" in h.reply.body && h.reply.body["data"] == Obj(h.table[id])
  {
    if !HasRequired(body) then Handled(t, Refuse(400, "Order type and amount are required"))
    else match parseFloat(body["amount"])
      case None => Handled(t, Refuse(500, "Failed to create order"))
      case Some(amount) =>
        var d := OrderData(body, user, amount);
        OrderIndexable(body, user, amount, Dynamo.MakeId("order", millis, suffix), created, updated);
        match Dynamo.CreateRecord(t, Dynamo.OrderKey, Dynamo.OrderIndexKeys, "order", d, map[], millis, suffix, created, updated)
        case Failure(_) => Handled(t, Refuse(500, "Failed to create order"))
        case Success(created) =>
          Handled(created.0, Ok(201, map["message" := Str("Order created successfully"), "data" := Obj(created.1)]))
  }

  // ---------------------------------------------------------------- listing orders

  /** GET `/`: the signed-in user's orders, read from the phone index (`index`, in the
      index's ascending order). A token without a phone makes the query fail. */
  function Mine(index: seq<Record>, user: Record): (r: Reply)
    ensures r.status == 200 <==> KeyText(Get(user, "phone")).Some?
    ensures r.status != 200 ==> r == Refuse(500, "Failed to get orders")
    ensures r.status == 200 ==>
      && "count" in r.body && "data" in r.body && r.body["data"].Arr?
      && r.body["count"] == Num(Listing.Count(index, Dynamo.HasPhone(KeyText(Get(user, "phone")).value)))
      && (forall v :: v in r.body["data"].items ==> v.Obj? && v.fields in index && Get(v.fields, "phone") == Get(user, "phone"))
      && (forall x :: x in index && Get(x, "phone") == Get(user, "phone") ==> Obj(x) in r.body["data"].items)
      && r.body["data"] == List(Entries(r.body["data"]))
      && Entries(r.body["data"]) == Listing.Reverse(Listing.Where(index, Dynamo.HasPhone(KeyText(Get(user, "phone")).value)))
  {
    match Dynamo.GetOrdersByPhone(index, Get(user, "phone"))
    case Failure(_) => Refuse(500, "Failed to get orders")
    case Success(orders) =>
      ListMembers(orders);
      ListEntries(orders);
      Listed(orders)
  }

  /** With the phone index in ascending creation order, the user's orders come back newest
      first. */
  lemma MineNewestFirst(index: seq<Record>, user: Record, key: Record -> int)
    requires Listing.NewestFirst(index, Listing.Negated(key))
    requires KeyText(Get(user, "phone")).Some?
    ensures Mine(index, user).status == 200
    ensures Listing.NewestFirst(Entries(Mine(index, user).body["data"]), key)
  {
    Dynamo.OrdersByPhoneNewestFirst(index, Get(user, "phone"), key);
    ListEntries(Dynamo.GetOrdersByPhone(index, Get(user, "phone")).value);
  }

  /** The filters the `/admin` listing takes: type and status. */
  const AdminFilterNames := {"orderType", "orderStatus"}

  /** An order meets the truthy ones among the query's type and status. */
  predicate Selected(x: Record, query: Record) {
    && (IsTruthy(Get(query, "orderType")) ==> StrictEq(Get(x, "orderType"), Get(query, "orderType")))
    && (IsTruthy(Get(query, "orderStatus")) ==> StrictEq(Get(x, "orderStatus"), Get(query, "orderStatus")))
  }

  /** Passing only the type and status to `getAllOrders` leaves its phone filter idle. */
  lemma SelectedMatches(x: Record, query: Record)
    ensures Listing.Matches(x, Pick(query, AdminFilterNames), Dynamo.OrderFilters) <==> Selected(x, query)
  {
    var f := Pick(query, AdminFilterNames);
    assert Dynamo.OrderFilters[0] == "phone" && Dynamo.OrderFilters[1] == "orderType"
      && Dynamo.OrderFilters[2] == "orderStatus";
    assert !Listing.Active(f, "phone");
    if Selected(x, query) {
      forall i | 0 <= i < 3 && Listing.Active(f, Dynamo.OrderFilters[i])
        ensures StrictEq(Get(x, Dynamo.OrderFilters[i]), Some(f[Dynamo.OrderFilters[i]]))
      {
      }
    }
    if Listing.Matches(x, f, Dynamo.OrderFilters) {
      assert Listing.Active(f, "orderType") ==> StrictEq(Get(x, Dynamo.OrderFilters[1]), Some(f[Dynamo.OrderFilters[1]]));
      assert Listing.Active(f, "orderStatus") ==> StrictEq(Get(x, Dynamo.OrderFilters[2]), Some(f[Dynamo.OrderFilters[2]]));
    }
  }

  function Chosen(query: Record): Record -> bool {
    x => Selected(x, query)
  }

  /** GET `/admin`: every order of the chosen type and status, newest first, orders of
      the same date in scan order; a phone in the query filters nothing. */
  function AdminOrders(scan: seq<Record>, query: Record, dateOf: Value -> int): (r: seq<Record>)
    ensures forall x :: x in r <==> x in scan && Selected(x, query)
    ensures |r| == Listing.Count(scan, Listing.Matcher(Pick(query, AdminFilterNames), Dynamo.OrderFilters))
    ensures multiset(r) == multiset(Listing.Where(scan, Chosen(query)))
    ensures Listing.NewestFirst(r, Listing.CreatedKey(dateOf))
    ensures Listing.KeepsTies(r, Listing.Where(scan, Chosen(query)), Listing.CreatedKey(dateOf))
  {
    var m := Listing.Matcher(Pick(query, AdminFilterNames), Dynamo.OrderFilters);
    var r := Dynamo.GetAllOrders(scan, Pick(query, AdminFilterNames), dateOf);
    Listing.SameMembers(r, Listing.Where(scan, m));
    forall x ensures m(x) == Chosen(query)(x) {
      SelectedMatches(x, query);
    }
    Listing.WhereSame(scan, m, Chosen(query));
    r
  }

  // ---------------------------------------------------------------- statistics

  datatype OrderStats = OrderStats(total: nat, digital: nat, hardcopy: nat, pending: nat, completed: nat,
                                   revenue: Value)

  function Status(s: string): Record -> bool {
    Listing.Equals("orderStatus", Str(s))
  }

  /** `o.orderStatus === 'completed' || o.orderStatus === 'delivered'`. */
  function Finished(): Record -> bool {
    x => Status("completed")(x) || Status("delivered")(x)
  }

  /** A completed order is counted once whether it was completed or delivered, and never
      also as pending. */
  lemma FinishedCounts(s: seq<Record>)
    ensures Listing.Count(s, Finished()) == Listing.Count(s, Status("completed")) + Listing.Count(s, Status("delivered"))
    ensures Listing.Count(s, Status("pending")) + Listing.Count(s, Finished()) <= |s|
  {
    forall x ensures !(Status("completed")(x) && Status("delivered")(x)) && !(Status("pending")(x) && Finished()(x)) {
      StrictEqString(Get(x, "orderStatus"), "completed");
      StrictEqString(Get(x, "orderStatus"), "delivered");
      StrictEqString(Get(x, "orderStatus"), "pending");
    }
    Listing.CountDisjoint(s, Status("completed"), Status("delivered"), Finished());
    Listing.CountDisjoint(s, Status("pending"), Finished(), x => Status("pending")(x) || Finished()(x));
  }

  /** GET `/stats`: counts by type and status over every order, and the `+` fold of the
      amounts. */
  function Stats(scan: seq<Record>, dateOf: Value -> int): (s: OrderStats)
    ensures s.total == |scan|
    ensures s.digital == Listing.Count(scan, Listing.Equals("orderType", Str("digital")))
    ensures s.hardcopy == Listing.Count(scan, Listing.Equals("orderType", Str("hardcopy")))
    ensures s.pending == Listing.Count(scan, Status("pending"))
    ensures s.completed == Listing.Count(scan, Status("completed")) + Listing.Count(scan, Status("delivered"))
    ensures s.digital + s.hardcopy <= s.total && s.pending + s.completed <= s.total
    ensures (forall x :: x in scan ==> Listing.Numeric(Get(x, "amount")))
      ==> s.revenue == Num(Listing.SumOf(scan, "amount"))
  {
    var all := Dynamo.GetAllOrders(scan, map[], dateOf);
    Listing.WhereAll(scan, Listing.Matcher(map[], Dynamo.OrderFilters));
    assert |all| == |multiset(all)| == |multiset(scan)| == |scan|;
    Listing.CountPermutation(all, scan, Listing.Equals("orderType", Str("digital")));
    Listing.CountPermutation(all, scan, Listing.Equals("orderType", Str("hardcopy")));
    Listing.CountPermutation(all, scan, Status("pending"));
    Listing.CountPermutation(all, scan, Finished());
    Listing.Exclusive(scan, "orderType", "digital", "hardcopy");
    FinishedCounts(scan);
    Listing.TotalOfPermutation(scan, all, "amount");
    OrderStats(|all|,
      Listing.Count(all, Listing.Equals("orderType", Str("digital"))),
      Listing.Count(all, Listing.Equals("orderType", Str("hardcopy"))),
      Listing.Count(all, Status("pending")),
      Listing.Count(all, Finished()),
      Listing.Total(all, "amount"))
  }

  // ---------------------------------------------------------------- single orders

  /** The owner of an order, and any administrator, may see it. */
  predicate MayView(order: Record, user: Record) {
    StrictEq(Get(order, "phone"), Get(user, "phone")) || StrictEq(Get(user, "role"), Some(Str("admin")))
  }

  /** GET `/:id`: the order, to its owner or an administrator. */
  function View(t: Table, id: string, user: Record): (r: Reply)
    ensures id == "" ==> r == Refuse(500, "Failed to get order")
    ensures id != "" && id !in t ==> r == Refuse(404, "Order not found")
    ensures id != "" && id in t && !MayView(t[id], user) ==> r == Refuse(403, "Not authorized to view this order")
    ensures r.status == 200 <==> id != "" && id in t && MayView(t[id], user)
    ensures r.status == 200 ==> "data" in r.body && r.body["data"] == Obj(t[id])
  {
    match GetItem(t, Some(Str(id)))
    case Failure(_) => Refuse(500, "Failed to get order")
    case Success(None) => Refuse(404, "Order not found")
    case Success(Some(order)) =>
      if !MayView(order, user) then Refuse(403, "Not authorized to view this order")
      else Ok(200, map["data" := Obj(order)])
  }

  /** An order placed with a phone is visible to that phone and hidden from every other
      phone that is not an administrator's. */
  lemma ViewByPhone(t: Table, id: string, user: Record, phone: string)
    requires id != "" && id in t && Get(t[id], "phone") == Some(Str(phone))
    requires Get(user, "role") != Some(Str("admin"))
    ensures View(t, id, user).status == 200 <==> Get(user, "phone") == Some(Str(phone))
  {
    StrictEqString(Get(user, "phone"), phone);
    StrictEqString(Get(user, "role"), "admin");
    match Get(user, "phone")
    case Some(Str(q)) => StrictEqString(Get(t[id], "phone"), q);
    case _ =>
  }

  /** The properties an order update may move along. */
  const Progress := ["orderStatus", "paymentStatus", "trackingId"]

  /** The key and the timestamps cannot be moved along. */
  lemma ProgressExcludesKeys()
    ensures Dynamo.OrderKey !in Progress && UpdatedAt !in Progress && Dynamo.CreatedAt !in Progress
  {
  }

  /** PUT `/:id`: the truthy ones among the body's status and tracking id replace the
      stored ones; nothing else changes but `updatedAt`. */
  function Update(t: Table, id: string, body: Record, now: Value): (h: Handled)
    ensures id == "" ==> h == Handled(t, Refuse(500, "Failed to update order"))
    ensures id != "" && id !in t ==> h == Handled(t, Refuse(404, "Order not found"))
    ensures id != "" && id in t ==> h.reply.status == 200 && id in h.table && h.table == t[id := h.table[id]]
    ensures id != "" && id in t ==> Get(h.table[id], UpdatedAt) == Some(now)
    ensures id != "" && id in t ==> forall k :: k != UpdatedAt ==>
      Get(h.table[id], k) == if k in Progress && IsTruthy(Get(body, k)) then Get(body, k) else Get(t[id], k)
    ensures id != "" && id in t ==> "data" in h.reply.body && h.reply.body["data"] == Obj(h.table[id])
  {
    match GetItem(t, Some(Str(id)))
    case Failure(_) => Handled(t, Refuse(500, "Failed to update order"))
    case Success(None) => Handled(t, Refuse(404, "Order not found"))
    case Success(Some(_)) =>
      ProgressExcludesKeys();
      var edited := TruthyEdits(t, Dynamo.OrderKey, Dynamo.OrderIndexKeys, id, body, Progress, now);
      Handled(edited.0, Ok(200, map["message" := Str("Order updated successfully"), "data" := Obj(edited.1)]))
  }
}

=== FILE: pricing_routes.dfy ===
/** The pricing routes: the price list of each class, read and set with no token or
    role check, plus the seeding of the default price list. */
module PricingRoutes {
  import opened Wrappers
  import opened Values
  import opened Store
  import opened Http
  import Dynamo

  const UpdatedAt := Dynamo.UpdatedAt

  /** GET `/`: every price list, in scan order. */
  function All(scan: seq<Record>): (r: Reply)
    ensures r.status == 200 && "data" in r.body && r.body["data"].Arr? && |r.body["data"].items| == |scan|
    ensures forall v :: v in r.body["data"].items ==> v.Obj? && v.fields in scan
    ensures forall x :: x in scan ==> Obj(x) in r.body["data"].items
  {
    ListMembers(scan);
    Ok(200, map["data" := List(scan)])
  }

  /** GET `/:classId`: one class's price list. */
  function ForClass(t: Table, classId: string): (r: Reply)
    ensures classId == "" ==> r == Refuse(500, "Failed to get pricing")
    ensures classId != "" && classId !in t ==> r == Refuse(404, "Pricing not found for this class")
    ensures r.status == 200 <==> classId != "" && classId in t
    ensures r.status == 200 ==> "data" in r.body && r.body["data"] == Obj(t[classId])
  {
    match GetItem(t, Some(Str(classId)))
    case Failure(_) => Refuse(500, "Failed to get pricing")
    case Success(None) => Refuse(404, "Pricing not found for this class")
    case Success(Some(p)) => Ok(200, map["data" := Obj(p)])
  }

  // ---------------------------------------------------------------- setting prices

  /** `parseFloat(x) || 0`, with `parseFloat` a parameter (`None` for `NaN`); an absent
      property reads as the text "undefined", which is `NaN`. */
  function PriceOr(parseFloat: Value -> Option<int>, o: Option<Value>): (n: int)
    ensures o.None? ==> n == 0
    ensures o.Some? && parseFloat(o.value).Some? ==> n == parseFloat(o.value).value
    ensures o.Some? && parseFloat(o.value).None? ==> n == 0
  {
    if o.None? then 0
    else match parseFloat(o.value)
      case Some(n) => n
      case None => 0
  }

  const Prices := ["pdfPrice", "videoPrice", "bundlePrice", "hardCopyPrice"]

  /** The six properties of a price list, before they are laid out as a record. */
  datatype PriceList = PriceList(className: Value, description: Value, pdf: int, video: int, bundle: int, hardCopy: int)

  /** A price list as a record. */
  function Laid(p: PriceList): (d: Record)
    ensures d.Keys == {"className", "description", "pdfPrice", "videoPrice", "bundlePrice", "hardCopyPrice"}
    ensures d["className"] == p.className && d["description"] == p.description
    ensures d["pdfPrice"] == Num(p.pdf) && d["videoPrice"] == Num(p.video)
    ensures d["bundlePrice"] == Num(p.bundle) && d["hardCopyPrice"] == Num(p.hardCopy)
  {
    map[
      "className" := p.className,
      "description" := p.description,
      "pdfPrice" := Num(p.pdf),
      "videoPrice" := Num(p.video),
      "bundlePrice" := Num(p.bundle),
      "hardCopyPrice" := Num(p.hardCopy)
    ]
  }

  /** The price list a PUT stores for a class: its name defaults to the class id, and a
      price that does not parse is 0. */
  function PricingData(classId: string, body: Record, parseFloat: Value -> Option<int>): (d: Record)
    ensures d.Keys == {"className", "description", "pdfPrice", "videoPrice", "bundlePrice", "hardCopyPrice"}
    ensures d["className"] == Or(Get(body, "className"), Str(classId))
    ensures d["description"] == Or(Get(body, "description"), Str(""))
    ensures forall i :: 0 <= i < |Prices| ==> d[Prices[i]] == Num(PriceOr(parseFloat, Get(body, Prices[i])))
  {
    var d := Laid(PriceList(
      Or(Get(body, "className"), Str(classId)),
      Or(Get(body, "description"), Str("")),
      PriceOr(parseFloat, Get(body, "pdfPrice")),
      PriceOr(parseFloat, Get(body, "videoPrice")),
      PriceOr(parseFloat, Get(body, "bundlePrice")),
      PriceOr(parseFloat, Get(body, "hardCopyPrice"))));
    forall i | 0 <= i < |Prices| ensures d[Prices[i]] == Num(PriceOr(parseFloat, Get(body, Prices[i]))) {
      assert i == 0 || i == 1 || i == 2 || i == 3;
    }
    d
  }

  /** PUT `/:classId`: the class's price list is replaced by the one built from the body. */
  function Put(t: Table, classId: string, body: Record, parseFloat: Value -> Option<int>, now: Value): (h: Handled)
    ensures classId == "" ==> h == Handled(t, Refuse(500, "Failed to update pricing"))
    ensures classId != "" ==>
      var d := PricingData(classId, body, parseFloat);
      && h.reply.status == 200 && classId in h.table
      && h.table == t[classId := h.table[classId]]
      && h.table[classId].Keys == d.Keys + {Dynamo.PricingKey, UpdatedAt}
      && h.table[classId][Dynamo.PricingKey] == Str(classId)
      && h.table[classId][UpdatedAt] == now
      && (forall k :: k in d ==> h.table[classId][k] == d[k])
      && "data" in h.reply.body && h.reply.body["data"] == Obj(h.table[classId])
  {
    if classId == "" then Handled(t, Refuse(500, "Failed to update pricing"))
    else
      var d := PricingData(classId, body, parseFloat);
      assert Dynamo.PricingKey !in d && UpdatedAt !in d;
      var put := Dynamo.UpsertPricing(t, classId, d, now).value;
      Handled(put.0, Ok(200, map["message" := Str("Pricing updated successfully"), "data" := Obj(put.1)]))
  }

  /** The stored price list is the class, the built prices and the time, and nothing of
      what was stored before. */
  lemma PutStores(t: Table, classId: string, body: Record, parseFloat: Value -> Option<int>, now: Value)
    requires classId != ""
    ensures Put(t, classId, body, parseFloat, now).table
         == t[classId := PricingData(classId, body, parseFloat)[Dynamo.PricingKey := Str(classId)][UpdatedAt := now]]
  {
    var d := PricingData(classId, body, parseFloat);
    var want := d[Dynamo.PricingKey := Str(classId)][UpdatedAt := now];
    var got := Put(t, classId, body, parseFloat, now).table[classId];
    assert got.Keys == want.Keys;
    forall k | k in got ensures got[k] == want[k] {
      if k != Dynamo.PricingKey && k != UpdatedAt {
        assert k in d && got[k] == d[k];
      }
    }
    assert got == want;
  }

  /** Setting the same prices twice is setting them once, at the later time. */
  lemma PutTwice(t: Table, classId: string, body: Record, parseFloat: Value -> Option<int>, now1: Value, now2: Value)
    requires classId != ""
    ensures Put(Put(t, classId, body, parseFloat, now1).table, classId, body, parseFloat, now2).table
         == Put(t, classId, body, parseFloat, now2).table
  {
    PutStores(t, classId, body, parseFloat, now1);
    PutStores(Put(t, classId, body, parseFloat, now1).table, classId, body, parseFloat, now2);
    PutStores(t, classId, body, parseFloat, now2);
  }

  // ---------------------------------------------------------------- seeding

  /** One default price list. */
  function Plan(classId: string, className: string, description: string,
                pdf: int, video: int, bundle: int, hardCopy: int): Record {
    map["classId" := Str(classId), "className" := Str(className), "description" := Str(description),
        "pdfPrice" := Num(pdf), "videoPrice" := Num(video), "bundlePrice" := Num(bundle),
        "hardCopyPrice" := Num(hardCopy)]
  }

  /** The default price lists, in the order they are written. */
  const Defaults := [
    Plan("class10", "Class 10", "Complete study materials for Class 10", 499, 799, 999, 1499),
    Plan("class11", "Class 11", "Complete study materials for Class 11", 599, 899, 1199, 1699),
    Plan("class12", "Class 12", "Complete study materials for Class 12", 699, 999, 1399, 1899),
    Plan("neet", "NEET", "Complete NEET preparation materials", 999, 1499, 1999, 2499)
  ]

  /** The classes the defaults are for, in the same order. */
  const DefaultClasses := ["class10", "class11", "class12", "neet"]

  /** A price list that names its own class. */
  predicate Keyed(p: Record) {
    KeyText(Get(p, Dynamo.PricingKey)).Some?
  }

  function IdOf(p: Record): string
    requires Keyed(p)
  {
    KeyText(Get(p, Dynamo.PricingKey)).value
  }

  /** What writing `plans` in order leaves under each of their classes: the last write to
      a class wins. */
  function Written(plans: seq<Record>, now: Value): map<string, Record>
    requires forall i :: 0 <= i < |plans| ==> Keyed(plans[i])
    decreases |plans|
  {
    if plans == [] then map[]
    else
      var last := plans[|plans| - 1];
      Written(plans[..|plans| - 1], now)[IdOf(last) := last[UpdatedAt := now]]
  }

  lemma MergeUpdate(t: Table, w: map<string, Record>, k: string, v: Record)
    ensures (t + w)[k := v] == t + w[k := v]
  {
  }

  /** Upserting a price list under the class it names stores it as it stands, stamped. */
  lemma UpsertKeyed(t: Table, p: Record, now: Value)
    requires Keyed(p)
    ensures Dynamo.UpsertPricing(t, IdOf(p), p, now).Success?
    ensures Dynamo.UpsertPricing(t, IdOf(p), p, now).value.0 == t[IdOf(p) := p[UpdatedAt := now]]
  {
    var id := IdOf(p);
    assert Get(p, Dynamo.PricingKey) == Some(Str(id));
    assert (map[Dynamo.PricingKey := Str(id)] + p)[UpdatedAt := now] == p[UpdatedAt := now];
  }

  /** `for (const pricing of plans) await upsertPricing(pricing.classId, pricing)`. */
  function SeedAll(t: Table, plans: seq<Record>, now: Value): (r: Table)
    requires forall i :: 0 <= i < |plans| ==> Keyed(plans[i])
    ensures r == t + Written(plans, now)
    decreases |plans|
  {
    if plans == [] then t
    else
      var last := plans[|plans| - 1];
      var before := SeedAll(t, plans[..|plans| - 1], now);
      UpsertKeyed(before, last, now);
      MergeUpdate(t, Written(plans[..|plans| - 1], now), IdOf(last), last[UpdatedAt := now]);
      Dynamo.UpsertPricing(before, IdOf(last), last, now).value.0
  }

  /** The classes a sequence of price lists names. */
  function Ids(plans: seq<Record>): set<string>
    requires forall i :: 0 <= i < |plans| ==> Keyed(plans[i])
    decreases |plans|
  {
    if plans == [] then {} else Ids(plans[..|plans| - 1]) + {IdOf(plans[|plans| - 1])}
  }

  /** A class is among those named exactly when some price list names it. */
  lemma {:induction false} IdsNamed(plans: seq<Record>, c: string)
    requires forall i :: 0 <= i < |plans| ==> Keyed(plans[i])
    ensures c in Ids(plans) <==> exists i :: 0 <= i < |plans| && IdOf(plans[i]) == c
    decreases |plans|
  {
    if plans != [] {
      var init := plans[..|plans| - 1];
      IdsNamed(init, c);
      if c in Ids(init) {
        var i :| 0 <= i < |init| && IdOf(init[i]) == c;
        assert plans[i] == init[i];
      }
      if exists i :: 0 <= i < |plans| && IdOf(plans[i]) == c {
        var i :| 0 <= i < |plans| && IdOf(plans[i]) == c;
        if i < |init| {
          assert init[i] == plans[i];
        }
      }
    }
  }

  /** Price lists naming `names`, in order, name exactly the classes in `names`. */
  lemma IdsOf(plans: seq<Record>, names: seq<string>)
    requires forall i :: 0 <= i < |plans| ==> Keyed(plans[i])
    requires |names| == |plans| && forall i :: 0 <= i < |plans| ==> IdOf(plans[i]) == names[i]
    ensures forall c :: c in Ids(plans) <==> c in names
  {
    forall c ensures c in Ids(plans) <==> c in names {
      IdsNamed(plans, c);
      if c in names {
        var i :| 0 <= i < |names| && names[i] == c;
        assert IdOf(plans[i]) == c;
      }
    }
  }

  /** Writing the price lists touches exactly the classes they name. */
  lemma {:induction false} WrittenKeys(plans: seq<Record>, now: Value)
    requires forall i :: 0 <= i < |plans| ==> Keyed(plans[i])
    ensures Written(plans, now).Keys == Ids(plans)
    decreases |plans|
  {
    if plans != [] {
      WrittenKeys(plans[..|plans| - 1], now);
    }
  }

  /** A class holds the last price list written to it. */
  lemma {:induction false} WrittenLatest(plans: seq<Record>, now: Value, i: nat)
    requires forall j :: 0 <= j < |plans| ==> Keyed(plans[j])
    requires i < |plans|
    requires forall j :: i < j < |plans| ==> IdOf(plans[j]) != IdOf(plans[i])
    ensures IdOf(plans[i]) in Written(plans, now)
    ensures Written(plans, now)[IdOf(plans[i])] == plans[i][UpdatedAt := now]
    decreases |plans|
  {
    var init := plans[..|plans| - 1];
    if i < |plans| - 1 {
      assert init[i] == plans[i];
      assert forall j :: i < j < |init| ==> init[j] == plans[j];
      WrittenLatest(init, now, i);
    }
  }

  /** POST `/seed` with the given price lists: each is written in order, and the reply
      shows them as given, without their `updatedAt`. */
  function SeedWith(t: Table, plans: seq<Record>, now: Value): (h: Handled)
    requires forall i :: 0 <= i < |plans| ==> Keyed(plans[i])
    ensures h.reply.status == 200 && "data" in h.reply.body && h.reply.body["data"] == List(plans)
    ensures h.table.Keys == t.Keys + Ids(plans)
    ensures forall k :: k in t && k !in Ids(plans) ==> h.table[k] == t[k]
    ensures forall i :: 0 <= i < |plans| && (forall j :: i < j < |plans| ==> IdOf(plans[j]) != IdOf(plans[i])) ==>
      IdOf(plans[i]) in h.table && h.table[IdOf(plans[i])] == plans[i][UpdatedAt := now]
  {
    WrittenKeys(plans, now);
    forall i | 0 <= i < |plans| && (forall j :: i < j < |plans| ==> IdOf(plans[j]) != IdOf(plans[i]))
      ensures IdOf(plans[i]) in Written(plans, now) && Written(plans, now)[IdOf(plans[i])] == plans[i][UpdatedAt := now]
    {
      WrittenLatest(plans, now, i);
    }
    Handled(SeedAll(t, plans, now), Ok(200, map["message" := Str("Pricing seeded successfully"), "data" := List(plans)]))
  }

  /** Seeding the same price lists twice is seeding them once, at the later time. */
  lemma SeedTwice(t: Table, plans: seq<Record>, now1: Value, now2: Value)
    requires forall i :: 0 <= i < |plans| ==> Keyed(plans[i])
    ensures SeedWith(SeedWith(t, plans, now1).table, plans, now2).table == SeedWith(t, plans, now2).table
  {
    WrittenKeys(plans, now1);
    WrittenKeys(plans, now2);
    var w1 := Written(plans, now1);
    var w2 := Written(plans, now2);
    assert (t + w1) + w2 == t + w2;
  }

  /** Each default names its class. */
  lemma DefaultIds()
    ensures |Defaults| == |DefaultClasses|
    ensures forall i :: 0 <= i < |Defaults| ==> Keyed(Defaults[i]) && IdOf(Defaults[i]) == DefaultClasses[i]
  {
    forall i | 0 <= i < |Defaults| ensures Keyed(Defaults[i]) && IdOf(Defaults[i]) == DefaultClasses[i] {
      assert i == 0 || i == 1 || i == 2 || i == 3;
    }
  }

  /** POST `/seed`: writes the default price lists. */
  function Seed(t: Table, now: Value): Handled {
    DefaultIds();
    SeedWith(t, Defaults, now)
  }

  /** Seeding adds the four default classes to the table. */
  lemma SeedAddsDefaults(t: Table, now: Value)
    ensures forall c :: c in Seed(t, now).table <==> c in t || c in DefaultClasses
  {
    DefaultIds();
    assert Seed(t, now).table.Keys == t.Keys + Ids(Defaults);
    IdsOf(Defaults, DefaultClasses);
  }

  /** The defaults name four different classes, so seeding writes each as it stands,
      replacing whatever the class had. */
  lemma SeedWritesDefaults(t: Table, now: Value, i: nat)
    requires i < |Defaults|
    ensures var s := Seed(t, now).table;
      DefaultClasses[i] in s && s[DefaultClasses[i]] == Defaults[i][UpdatedAt := now]
  {
    DefaultIds();
    var d := Defaults;
    assert forall j :: i < j < |d| ==> IdOf(d[j]) != IdOf(d[i]);
    assert IdOf(d[i]) == DefaultClasses[i];
  }
}

=== FILE: review_routes.dfy ===
/** The review routes: list, add, edit and remove reviews, none of them behind a token
    or role check. The server does not mount this router. */
module ReviewRoutes {
  import opened Wrappers
  import opened Text
  import opened Values
  import opened Store
  import opened Http
  import Listing
  import Dynamo

  const UpdatedAt := Dynamo.UpdatedAt

  /** GET `/`: every review, newest first. */
  function All(scan: seq<Record>, dateOf: Value -> int): (r: Reply)
    ensures r.status == 200 && "count" in r.body && "data" in r.body && r.body["data"].Arr?
    ensures r.body["count"] == Num(|scan|)
    ensures forall v :: v in r.body["data"].items ==> v.Obj? && v.fields in scan
    ensures forall x :: x in scan ==> Obj(x) in r.body["data"].items
    ensures r.body["data"] == List(Entries(r.body["data"]))
    ensures multiset(Entries(r.body["data"])) == multiset(scan)
    ensures Listing.NewestFirst(Entries(r.body["data"]), Listing.CreatedKey(dateOf))
    ensures Listing.KeepsTies(Entries(r.body["data"]), scan, Listing.CreatedKey(dateOf))
  {
    var reviews := Dynamo.GetAllReviews(scan, dateOf);
    Listing.SameMembers(reviews, scan);
    ListMembers(reviews);
    ListEntries(reviews);
    Listed(reviews)
  }

  /** The three properties a review cannot do without. */
  predicate HasRequired(body: Record) {
    IsTruthy(Get(body, "userName")) && IsTruthy(Get(body, "rating")) && IsTruthy(Get(body, "comment"))
  }

  /** The stored properties of a new review. */
  function ReviewData(body: Record): (d: Record)
    requires HasRequired(body)
    ensures Dynamo.ReviewKey !in d && Dynamo.CreatedAt !in d && UpdatedAt !in d
  {
    var name, comment := Get(body, "userName").value, Get(body, "comment").value;
    map[
      "userName" := name,
      "studentClass" := Or(Get(body, "studentClass"), Str("")),
      "rating" := Num(IntOr(Get(body, "rating"), 5)),
      "comment" := comment,
      "status" := Str("active")
    ]
  }

  /** A new review is active, keeps the name and comment as sent, has an empty class
      unless one is sent, and a rating that is never 0: what does not parse, or parses to
      0, becomes 5. */
  lemma ReviewDefaults(body: Record)
    requires HasRequired(body)
    ensures var d := ReviewData(body);
      && d.Keys == {"userName", "studentClass", "rating", "comment", "status"}
      && d["status"] == Str("active")
      && d["userName"] == body["userName"] && d["comment"] == body["comment"]
      && (!IsTruthy(Get(body, "studentClass")) ==> d["studentClass"] == Str(""))
      && d["rating"].Num? && d["rating"].n != 0
      && (ParseInt(Get(body, "rating")).None? ==> d["rating"] == Num(5))
  {
    var d := ReviewData(body);
    assert d.Keys == {"userName", "studentClass", "rating", "comment", "status"};
  }

  /** A rating sent as a non-zero number, or as its numeral, is stored as that number. */
  lemma RatingKept(body: Record, n: int)
    requires HasRequired(body) && n != 0
    requires Get(body, "rating") == Some(Num(n)) || Get(body, "rating") == Some(Str(IntToString(n)))
    ensures ReviewData(body)["rating"] == Num(n)
  {
    ParseIntOfNumber(n);
  }

  /** POST `/`: a review without a name, rating or comment is refused; otherwise it is
      stored under a fresh id. */
  function Create(t: Table, body: Record, millis: nat, suffix: string, created: Value, updated: Value): (h: Handled)
    ensures !HasRequired(body) ==> h == Handled(t, Refuse(400, "User name, rating and comment are required"))
    ensures HasRequired(body) ==>
      var id := Dynamo.MakeId("review", millis, suffix);
      var d := ReviewData(body);
      && h.reply.status == 201
      && id in h.table && h.table == t[id := h.table[id]]
      && h.table[id].Keys == d.Keys + {Dynamo.ReviewKey, Dynamo.CreatedAt, UpdatedAt}
      && h.table[id][Dynamo.ReviewKey] == Str(id)
      && h.table[id][Dynamo.CreatedAt] == created && h.table[id][UpdatedAt] == updated
      && (forall k :: k in d ==> h.table[id][k] == d[k])
      && "data" in h.reply.body && h.reply.body["data"] == Obj(h.table[id])
  {
    if !HasRequired(body) then Handled(t, Refuse(400, "User name, rating and comment are required"))
    else
      var d := ReviewData(body);
      var created := Dynamo.CreateRecord(t, Dynamo.ReviewKey, {}, "review", d, map[], millis, suffix, created, updated).value;
      assert created.1[Dynamo.ReviewKey] == Str(Dynamo.MakeId("review", millis, suffix));
      Handled(created.0, Ok(201, map["message" := Str("Review added successfully"), "data" := Obj(created.1)]))
  }

  /** The properties an update may change. */
  const Editable := ["userName", "studentClass", "rating", "comment", "status"]

  /** The key and the timestamps are not editable. */
  lemma EditableExcludesKeys()
    ensures Dynamo.ReviewKey !in Editable && UpdatedAt !in Editable && Dynamo.CreatedAt !in Editable
  {
  }

  /** PUT `/:id`: every allow-listed property the body defines replaces the stored one.
      Nothing looks the review up first, so an unknown id creates a review. */
  function Update(t: Table, id: string, body: Record, now: Value): (h: Handled)
    ensures id == "" ==> h == Handled(t, Refuse(500, "Failed to update review"))
    ensures id != "" ==> h.reply.status == 200 && id in h.table && h.table == t[id := h.table[id]]
    ensures id != "" ==> Get(h.table[id], UpdatedAt) == Some(now)
    ensures id != "" ==> forall k :: k != UpdatedAt ==>
      Get(h.table[id], k) == if k in Editable && k in body then Some(body[k])
                             else Get(Existing(t, Dynamo.ReviewKey, id), k)
    ensures id != "" ==> "data" in h.reply.body && h.reply.body["data"] == Obj(h.table[id])
  {
    EditableExcludesKeys();
    match ApplyEdits(t, Dynamo.ReviewKey, {}, id, body, Editable, Defined(), now)
    case Failure(_) => Handled(t, Refuse(500, "Failed to update review"))
    case Success(edited) =>
      Handled(edited.0, Ok(200, map["message" := Str("Review updated successfully"), "data" := Obj(edited.1)]))
  }

  /** An update to an id with no review stores a review holding only the id, the edited
      properties and `updatedAt`: it has no `createdAt`. */
  lemma UpdateCreatesMissing(t: Table, id: string, body: Record, now: Value)
    requires id != "" && id !in t
    ensures var h := Update(t, id, body, now);
      && id in h.table
      && Get(h.table[id], Dynamo.ReviewKey) == Some(Str(id))
      && Get(h.table[id], Dynamo.CreatedAt) == None
      && (forall k :: k in h.table[id] ==> k in Editable || k == Dynamo.ReviewKey || k == UpdatedAt)
  {
    EditableExcludesKeys();
    var stored := Update(t, id, body, now).table[id];
    forall k | k in stored ensures k in Editable || k == Dynamo.ReviewKey || k == UpdatedAt {
      if k != UpdatedAt && k !in Editable {
        assert Get(stored, k) == Get(map[Dynamo.ReviewKey := Str(id)], k);
      }
    }
  }

  /** DELETE `/:id`: removes the review; an unknown id is not an error. */
  function Delete(t: Table, id: string): (h: Handled)
    ensures id == "" ==> h == Handled(t, Refuse(500, "Failed to delete review"))
    ensures id != "" ==> h.reply.status == 200 && h.table == t - {id}
  {
    match DeleteItem(t, id)
    case Failure(_) => Handled(t, Refuse(500, "Failed to delete review"))
    case Success(t') => Handled(t', Ok(200, map["message" := Str("Review deleted successfully")]))
  }

  /** Deleting twice is deleting once. */
  lemma DeleteTwice(t: Table, id: string)
    requires id != ""
    ensures Delete(Delete(t, id).table, id).table == Delete(t, id).table
    ensures Delete(Delete(t, id).table, id).reply == Delete(t, id).reply
  {
    assert t - {id} - {id} == t - {id};
  }
}

=== FILE: s3.dfy ===
/** Storage object keys and their public URLs. */
module Storage {
  import opened Wrappers
  import opened Text
  import opened Values

  /** The virtual-hosted URL prefix of the bucket in the ap-south-1 region. */
  function BucketUrl(bucket: string): string {
    "https://" + bucket + ".s3.ap-south-1.amazonaws.com/"
  }

  /** The public URL of an object. */
  function PublicUrl(bucket: string, key: string): string {
    BucketUrl(bucket) + key
  }

  /** `s.replace(pattern, replacement)` with a string pattern: only the first occurrence
      is replaced. */
  function ReplaceFirst(s: string, pattern: string, replacement: string): string {
    if StartsWith(s, pattern) then replacement + s[|pattern|..]
    else if s == [] then s
    else [s[0]] + ReplaceFirst(s[1..], pattern, replacement)
  }

  /** A JavaScript exception: a method called on a value that does not have it. */
  datatype Crash = TypeError

  /** `getKeyFromUrl`: the object key of a public URL, `null` for anything else. A truthy
      non-string has no `startsWith` and throws. */
  function GetKeyFromUrl(bucket: string, url: Option<Value>): (r: Result<Option<string>, Crash>)
    ensures !IsTruthy(url) ==> r == Success(None)
    ensures r.Failure? <==> IsTruthy(url) && !url.value.Str?
    ensures (r.Success? && r.value.Some?) <==> url.Some? && url.value.Str? && StartsWith(url.value.s, BucketUrl(bucket))
    ensures r.Success? && r.value.Some? ==> url.value.s == BucketUrl(bucket) + r.value.value
  {
    if !IsTruthy(url) then Success(None)
    else if !url.value.Str? then Failure(TypeError)
    else if StartsWith(url.value.s, BucketUrl(bucket)) then
      assert url.value.s == BucketUrl(bucket) + url.value.s[|BucketUrl(bucket)|..];
      Success(Some(ReplaceFirst(url.value.s, BucketUrl(bucket), "")))
    else Success(None)
  }

  /** Every object's public URL gives back its key. */
  lemma KeyFromUrlRoundTrip(bucket: string, key: string)
    ensures GetKeyFromUrl(bucket, Some(Str(PublicUrl(bucket, key)))) == Success(Some(key))
  {
    var u := PublicUrl(bucket, key);
    assert StartsWith(u, BucketUrl(bucket));
    assert u[|BucketUrl(bucket)|..] == key;
  }

  /** The path without trailing slashes. */
  function TrimSlashes(p: string): (t: string)
    ensures StartsWith(p, t)
    ensures t == [] || t[|t| - 1] != '/'
  {
    if p != [] && p[|p| - 1] == '/' then TrimSlashes(p[..|p| - 1]) else p
  }

  /** The text after the last `c`, or all of `p` when there is none. */
  function AfterLast(p: string, c: char): (t: string)
    ensures c !in t
    ensures |t| <= |p| && t == p[|p| - |t|..]
  {
    if p == [] || p[|p| - 1] == c then []
    else AfterLast(p[..|p| - 1], c) + [p[|p| - 1]]
  }

  /** The suffix of `b` from its last dot on, if it has one. */
  function DotSuffix(b: string): (e: Option<string>)
    ensures e.None? <==> '.' !in b
    ensures e.Some? ==> 1 <= |e.value| <= |b| && e.value == b[|b| - |e.value|..]
    ensures e.Some? ==> e.value[0] == '.' && '.' !in e.value[1..]
  {
    if b == [] then None
    else if b[|b| - 1] == '.' then Some(".")
    else
      match DotSuffix(b[..|b| - 1])
      case None => None
      case Some(e) => Some(e + [b[|b| - 1]])
  }

  /** A character missing from a string is missing from its suffixes. */
  lemma SuffixAvoids(b: string, n: nat, c: char)
    requires n <= |b| && c !in b
    ensures c !in b[n..]
  {
    forall i | 0 <= i < |b[n..]| ensures b[n..][i] != c {
      assert b[n..][i] == b[n + i];
    }
  }

  /** The extension of one path segment: from its last dot, unless it has no dot, its
      only dot-started suffix is the whole segment, or the segment is `..`. */
  function SegmentExt(b: string): (e: string)
    ensures e == [] || (e[0] == '.' && '.' !in e[1..] && EndsWith(b, e))
  {
    match DotSuffix(b)
    case None => ""
    case Some(e) => if |e| == |b| || b == ".." then "" else e
  }

  /** POSIX `path.extname`: the extension of the last segment, trailing slashes ignored. */
  function Extname(p: string): (e: string)
    ensures e == [] || (e[0] == '.' && '.' !in e[1..] && '/' !in e)
  {
    var b := AfterLast(TrimSlashes(p), '/');
    var e := SegmentExt(b);
    SuffixAvoids(b, |b| - |e|, '/');
    e
  }

  /** `${folder}/${Date.now()}_${suffix}${extname(fileName)}`. */
  function MakeKey(folder: string, millis: nat, suffix: string, fileName: string): (k: string)
    ensures StartsWith(k, folder + "/")
    ensures EndsWith(k, Extname(fileName))
  {
    var dir := folder + "/";
    var stem := NatToString(millis) + "_" + suffix;
    var e := Extname(fileName);
    StartsWithAppend(dir, stem + e);
    EndsWithAppendRight(dir, stem, e);
    dir + (stem + e)
  }

  lemma {:induction false} AfterLastAppend(p: string, c: char, x: string)
    requires c !in x
    ensures AfterLast(p + [c] + x, c) == x
  {
    if x != [] {
      var q := p + [c] + x;
      assert q[..|q| - 1] == p + [c] + x[..|x| - 1];
      AfterLastAppend(p, c, x[..|x| - 1]);
      assert x == x[..|x| - 1] + [x[|x| - 1]];
    }
  }

  lemma {:induction false} DotSuffixAppend(a: string, e: string)
    requires e != [] && e[0] == '.' && '.' !in e[1..]
    ensures DotSuffix(a + e) == Some(e)
  {
    if |e| > 1 {
      var f := e[..|e| - 1];
      assert f[1..] == e[1..|e| - 1];
      assert (a + e)[..|a + e| - 1] == a + f;
      DotSuffixAppend(a, f);
      assert e[|e| - 1] in e[1..];
      assert e == f + [e[|e| - 1]];
    } else {
      assert e == ".";
    }
  }

  /** A segment made of a dot-free stem containing `_` and an extension has that extension. */
  lemma SegmentExtAppend(stem: string, e: string)
    requires stem != [] && '.' !in stem && '_' in stem
    requires e == [] || (e[0] == '.' && '.' !in e[1..])
    ensures SegmentExt(stem + e) == e
  {
    assert '_' in stem + e;
    assert '_' !in "..";
    if e == [] {
      assert stem + e == stem;
    } else {
      DotSuffixAppend(stem, e);
    }
  }

  lemma StemShape(millis: nat, suffix: string)
    requires '.' !in suffix && '/' !in suffix
    ensures var stem := NatToString(millis) + "_" + suffix;
      stem != [] && '.' !in stem && '/' !in stem && '_' in stem
  {
    var d := NatToString(millis);
    assert forall i :: 0 <= i < |d| ==> IsDigit(d[i]);
    assert (d + "_" + suffix)[|d|] == '_';
  }

  /** A generated key keeps the extension of the file name it was made from. */
  lemma KeyKeepsExtension(folder: string, millis: nat, suffix: string, fileName: string)
    requires '.' !in suffix && '/' !in suffix
    ensures Extname(MakeKey(folder, millis, suffix, fileName)) == Extname(fileName)
  {
    var e := Extname(fileName);
    var stem := NatToString(millis) + "_" + suffix;
    StemShape(millis, suffix);
    var base := stem + e;
    var k := MakeKey(folder, millis, suffix, fileName);
    assert k == folder + ['/'] + base;
    KeepsTrailing(k, base);
    AfterLastAppend(folder, '/', base);
    SegmentExtAppend(stem, e);
    assert Extname(k) == SegmentExt(AfterLast(TrimSlashes(k), '/'));
  }

  /** A path ending in a non-empty segment has no trailing slash to trim. */
  lemma KeepsTrailing(k: string, base: string)
    requires base != [] && '/' !in base && EndsWith(k, base)
    ensures TrimSlashes(k) == k
  {
    assert k[|k| - 1] == base[|base| - 1];
  }
}

=== FILE: store.dfy ===
/** The key-value store behind every table: get, put, conditional put, delete and
    update by expression. A table maps the string value of its key attribute to the item. */
module Store {
  import opened Wrappers
  import opened Values
  import UpdateExpression

  type Table = map<string, Record>

  /** The store's refusals: a failed `ConditionExpression`, or a malformed request (a bad
      key, a bad update expression, or an index key attribute that is not non-empty text). */
  datatype Fault = ConditionalCheckFailed | ValidationException

  /** The key of a key value: only a non-empty string is a valid key. */
  function KeyText(key: Option<Value>): Option<string> {
    match key
    case Some(Str(s)) => if s != "" then Some(s) else None
    case _ => None
  }

  /** `GetCommand`: the item under the key, if any. */
  function GetItem(t: Table, key: Option<Value>): (r: Result<Option<Record>, Fault>)
    ensures r.Success? <==> KeyText(key).Some?
    ensures r.Success? ==> (r.value.Some? <==> KeyText(key).value in t)
    ensures r.Success? && r.value.Some? ==> r.value.value == t[KeyText(key).value]
  {
    match KeyText(key)
    case None => Failure(ValidationException)
    case Some(k) => Success(if k in t then Some(t[k]) else None)
  }

  /** A value a secondary index can hold as its `S`-typed key: non-empty text. `''` is
      written as `NULL` by the document client, so it is refused like `null`, numbers and
      booleans. */
  predicate IndexValue(v: Value) {
    v.Str? && v.s != ""
  }

  /** Every index key attribute the item carries has an index value; an item without the
      attribute stays out of that index. */
  predicate IndexTyped(item: Record, indexKeys: set<string>) {
    forall k :: k in item && k in indexKeys ==> IndexValue(item[k])
  }

  /** Every pair an update sets on an index key attribute carries an index value. */
  predicate IndexWrites(u: Fields, indexKeys: set<string>) {
    forall i :: 0 <= i < |u| && u[i].0 in indexKeys ==> IndexValue(u[i].1)
  }

  /** An update that appends one pair sets index values exactly when the rest does and
      the pair does. */
  lemma IndexWritesAppend(u: Fields, p: (string, Value), indexKeys: set<string>)
    ensures IndexWrites(u + [p], indexKeys) <==> IndexWrites(u, indexKeys) && (p.0 in indexKeys ==> IndexValue(p.1))
  {
    var v := u + [p];
    assert v[|u|] == p;
    if IndexWrites(u, indexKeys) && (p.0 in indexKeys ==> IndexValue(p.1)) {
      forall i | 0 <= i < |v| && v[i].0 in indexKeys ensures IndexValue(v[i].1) {
        if i < |u| { assert v[i] == u[i]; }
      }
    }
    if IndexWrites(v, indexKeys) {
      forall i | 0 <= i < |u| && u[i].0 in indexKeys ensures IndexValue(u[i].1) {
        assert v[i] == u[i];
      }
    }
  }

  /** `PutCommand`: store the item under its own key, replacing any item there. A table
      with secondary indexes (`indexKeys`, their key attributes) refuses an item that gives
      one of them anything but non-empty text. */
  function PutItem(t: Table, keyField: string, indexKeys: set<string>, item: Record): (r: Result<Table, Fault>)
    ensures r.Success? <==> KeyText(Get(item, keyField)).Some? && IndexTyped(item, indexKeys)
    ensures r.Success? ==> r.value == t[KeyText(Get(item, keyField)).value := item]
  {
    match KeyText(Get(item, keyField))
    case None => Failure(ValidationException)
    case Some(k) => if IndexTyped(item, indexKeys) then Success(t[k := item]) else Failure(ValidationException)
  }

  /** `PutCommand` with `attribute_not_exists(<key>)`: refused when the key is taken. */
  function PutIfAbsent(t: Table, keyField: string, item: Record): (r: Result<Table, Fault>)
    ensures r == Failure(ConditionalCheckFailed)
        <==> KeyText(Get(item, keyField)).Some? && KeyText(Get(item, keyField)).value in t
    ensures r.Success? <==> KeyText(Get(item, keyField)).Some? && KeyText(Get(item, keyField)).value !in t
    ensures r.Success? ==> r.value == t[KeyText(Get(item, keyField)).value := item]
  {
    match KeyText(Get(item, keyField))
    case None => Failure(ValidationException)
    case Some(k) => if k in t then Failure(ConditionalCheckFailed) else Success(t[k := item])
  }

  /** `DeleteCommand`: removing an absent key is not an error. */
  function DeleteItem(t: Table, key: string): (r: Result<Table, Fault>)
    ensures r.Success? <==> key != ""
    ensures r.Success? ==> key !in r.value && forall k :: k != key ==> (k in r.value <==> k in t) && (k in t ==> r.value[k] == t[k])
  {
    if key == "" then Failure(ValidationException) else Success(t - {key})
  }

  /** The item an update starts from: the stored one, or just the key when there is none
      (an update to a missing key creates the item). */
  function Existing(t: Table, keyField: string, key: string): Record {
    if key in t then t[key] else map[keyField := Str(key)]
  }

  /** The pairs an expression sets give every index key attribute an index value. */
  predicate IndexSets(e: UpdateExpression.Expression, indexKeys: set<string>) {
    UpdateExpression.Resolvable(e) ==> IndexWrites(UpdateExpression.Resolve(e), indexKeys)
  }

  /** `UpdateCommand` with `ReturnValues: 'ALL_NEW'`: the new table and the new item. The
      update is refused when it sets an index key attribute to anything but non-empty text. */
  function UpdateItem(t: Table, keyField: string, indexKeys: set<string>, key: string, e: UpdateExpression.Expression)
    : (r: Result<(Table, Record), Fault>)
    ensures r.Success? <==>
      key != "" && UpdateExpression.Evaluate(e, Existing(t, keyField, key), keyField).Success? && IndexSets(e, indexKeys)
    ensures r.Success? ==> r.value.1 == UpdateExpression.Evaluate(e, Existing(t, keyField, key), keyField).value
    ensures r.Success? ==> r.value.0 == t[key := r.value.1]
  {
    if key == "" then Failure(ValidationException)
    else
      match UpdateExpression.Evaluate(e, Existing(t, keyField, key), keyField)
      case Failure(_) => Failure(ValidationException)
      case Success(item) => if IndexSets(e, indexKeys) then Success((t[key := item], item)) else Failure(ValidationException)
  }
}

=== FILE: text.dfy ===
/** String helpers: decimal numerals, prefixes, substrings, ASCII case folding
    and JavaScript's `parseInt`. Strings are sequences of characters. */
module Text {
  import opened Wrappers

  predicate IsDigit(c: char) {
    '0' <= c <= '9'
  }

  predicate AllDigits(s: string) {
    forall i :: 0 <= i < |s| ==> IsDigit(s[i])
  }

  function DigitChar(d: nat): (c: char)
    requires d < 10
    ensures IsDigit(c)
  {
    (('0' as int) + d) as char
  }

  /** The decimal numeral of `n`: digits only, most significant first, no leading zero. */
  function NatToString(n: nat): (s: string)
    ensures 1 <= |s|
    ensures AllDigits(s)
    ensures 1 < |s| ==> s[0] != '0'
    decreases n
  {
    if n < 10 then [DigitChar(n)] else NatToString(n / 10) + [DigitChar(n % 10)]
  }

  /** JavaScript `String(n)` for an integer (exponent notation above 10^21 is not modelled). */
  function IntToString(n: int): string {
    if n < 0 then "-" + NatToString(-n) else NatToString(n)
  }

  /** The value of a digit in the given radix, or `radix` itself when `c` is not such a digit. */
  function DigitValue(c: char, radix: nat): (d: nat)
    requires radix == 10 || radix == 16
    ensures d <= radix
  {
    var v :=
      if '0' <= c <= '9' then (c as int) - ('0' as int)
      else if 'a' <= c <= 'f' then (c as int) - ('a' as int) + 10
      else if 'A' <= c <= 'F' then (c as int) - ('A' as int) + 10
      else radix;
    if v < radix then v else radix
  }

  predicate IsRadixDigit(c: char, radix: nat)
    requires radix == 10 || radix == 16
  {
    DigitValue(c, radix) < radix
  }

  /** The value of a run of radix digits, most significant first. */
  function RadixValue(s: string, radix: nat): nat
    requires radix == 10 || radix == 16
    requires forall i :: 0 <= i < |s| ==> IsRadixDigit(s[i], radix)
  {
    if s == [] then 0 else RadixValue(s[..|s| - 1], radix) * radix + DigitValue(s[|s| - 1], radix)
  }

  /** The length of the longest prefix of `s` made of radix digits. */
  function DigitRun(s: string, radix: nat): (n: nat)
    requires radix == 10 || radix == 16
    ensures n <= |s|
    ensures forall i :: 0 <= i < n ==> IsRadixDigit(s[i], radix)
    ensures n < |s| ==> !IsRadixDigit(s[n], radix)
  {
    if s == [] || !IsRadixDigit(s[0], radix) then 0 else 1 + DigitRun(s[1..], radix)
  }

  /** The white space and line terminators `parseInt` skips: tab, line feed, vertical tab,
      form feed, carriage return, the byte order mark, the line and paragraph separators,
      and every space separator of Unicode (category Zs). */
  predicate IsSpace(c: char) {
    || '\t' <= c <= '\r'
    || c == ' ' || c == '\U{00A0}' || c == '\U{1680}'
    || '\U{2000}' <= c <= '\U{200A}'
    || c == '\U{2028}' || c == '\U{2029}' || c == '\U{202F}' || c == '\U{205F}'
    || c == '\U{3000}' || c == '\U{FEFF}'
  }

  function TrimStart(s: string): (t: string)
    ensures |t| <= |s| && t == s[|s| - |t|..]
    ensures t != [] ==> !IsSpace(t[0])
  {
    if s != [] && IsSpace(s[0]) then TrimStart(s[1..]) else s
  }

  /** The text after an optional leading sign character. */
  function Unsigned(t: string): (u: string)
    ensures u == t || (t != [] && u == t[1..])
  {
    if t != [] && (t[0] == '-' || t[0] == '+') then t[1..] else t
  }

  predicate HasHexPrefix(u: string) {
    2 <= |u| && u[0] == '0' && (u[1] == 'x' || u[1] == 'X')
  }

  /** The leading run of radix digits of `digits` read as a number, `None` when it is empty. */
  function LeadingNumber(digits: string, radix: nat): Option<nat>
    requires radix == 10 || radix == 16
  {
    var n := DigitRun(digits, radix);
    if n == 0 then None else Some(RadixValue(digits[..n], radix))
  }

  /** JavaScript `parseInt(s)` with no radix: leading white space, an optional sign, an
      optional `0x`/`0X` prefix selecting radix 16, then the longest run of digits.
      `None` stands for `NaN`. */
  function ParseIntString(s: string): Option<int> {
    var t := TrimStart(s);
    var negative := t != [] && t[0] == '-';
    var u := Unsigned(t);
    var magnitude := if HasHexPrefix(u) then LeadingNumber(u[2..], 16) else LeadingNumber(u, 10);
    match magnitude
    case None => None
    case Some(m) =>
      var v: int := if negative then -(m as int) else m;
      Some(v)
  }

  lemma {:induction false} DecimalValue(n: nat)
    ensures forall i :: 0 <= i < |NatToString(n)| ==> IsRadixDigit(NatToString(n)[i], 10)
    ensures RadixValue(NatToString(n), 10) == n
    decreases n
  {
    var s := NatToString(n);
    if n < 10 {
    } else {
      DecimalValue(n / 10);
      var p := NatToString(n / 10);
      assert s[..|s| - 1] == p;
    }
  }

  lemma {:induction false} DigitRunOfDigits(s: string)
    requires AllDigits(s)
    ensures DigitRun(s, 10) == |s|
  {
    if s != [] {
      DigitRunOfDigits(s[1..]);
    }
  }

  /** The digits of a numeral are read back in full, as a decimal number. */
  lemma NumeralDigits(m: nat)
    ensures LeadingNumber(NatToString(m), 10) == Some(m)
    ensures !HasHexPrefix(NatToString(m))
  {
    var d := NatToString(m);
    DecimalValue(m);
    DigitRunOfDigits(d);
    assert d[..|d|] == d;
    if 2 <= |d| {
      assert IsDigit(d[1]);
    }
  }

  lemma ParseNegativeNumeral(m: nat)
    requires 0 < m
    ensures ParseIntString("-" + NatToString(m)) == Some(-(m as int))
  {
    var d := NatToString(m);
    NumeralDigits(m);
    var s := "-" + d;
    assert TrimStart(s) == s;
    assert Unsigned(s) == d by {
      assert s[1..] == d;
    }
  }

  /** Parsing a string that starts with a digit skips neither space nor sign. */
  lemma ParseDigitLed(d: string)
    requires d != [] && IsDigit(d[0])
    ensures ParseIntString(d) == (if HasHexPrefix(d) then LeadingNumber(d[2..], 16) else LeadingNumber(d, 10))
  {
    assert TrimStart(d) == d;
    assert Unsigned(d) == d;
  }

  lemma ParseNaturalNumeral(m: nat)
    ensures ParseIntString(NatToString(m)) == Some(m)
  {
    NumeralDigits(m);
    ParseDigitLed(NatToString(m));
  }

  /** `parseInt(String(n)) == n`: the numeral of an integer reads back as that integer. */
  lemma ParseIntRoundTrip(n: int)
    ensures ParseIntString(IntToString(n)) == Some(n)
  {
    if n < 0 {
      ParseNegativeNumeral(-n);
    } else {
      ParseNaturalNumeral(n);
    }
  }

  /** Different numbers have different numerals. */
  lemma NatToStringInjective(a: nat, b: nat)
    requires NatToString(a) == NatToString(b)
    ensures a == b
  {
    DecimalValue(a);
    DecimalValue(b);
  }

  /** `s.startsWith(prefix)`. */
  predicate StartsWith(s: string, prefix: string) {
    |prefix| <= |s| && s[..|prefix|] == prefix
  }

  /** `s.endsWith(suffix)`. */
  predicate EndsWith(s: string, suffix: string) {
    |suffix| <= |s| && s[|s| - |suffix|..] == suffix
  }

  lemma StartsWithAppend(s: string, t: string)
    ensures StartsWith(s + t, s)
  {
    assert (s + t)[..|s|] == s;
  }

  lemma EndsWithAppend(s: string, t: string)
    ensures EndsWith(s + t, t)
  {
    assert (s + t)[|s + t| - |t|..] == t;
  }

  lemma EndsWithAppendRight(s: string, t: string, u: string)
    ensures EndsWith(s + (t + u), u)
  {
    assert (s + (t + u))[|s + (t + u)| - |u|..] == u;
  }

  /** `s.includes(sub)`, computed by scanning start positions. */
  predicate Includes(s: string, sub: string)
    decreases |s|
  {
    StartsWith(s, sub) || (s != [] && Includes(s[1..], sub))
  }

  /** `sub` occurs in `s` at position `i`. */
  predicate OccursAt(s: string, sub: string, i: int) {
    0 <= i && i + |sub| <= |s| && s[i..i + |sub|] == sub
  }

  /** The scan agrees with the definition of a substring: some position holds `sub`. */
  lemma {:induction false} IncludesIffOccurs(s: string, sub: string)
    ensures Includes(s, sub) <==> exists i :: OccursAt(s, sub, i)
    decreases |s|
  {
    if StartsWith(s, sub) {
      assert OccursAt(s, sub, 0);
    } else if s != [] {
      IncludesIffOccurs(s[1..], sub);
      if exists i :: OccursAt(s[1..], sub, i) {
        var i :| OccursAt(s[1..], sub, i);
        assert s[1..][i..i + |sub|] == s[i + 1..i + 1 + |sub|];
        assert OccursAt(s, sub, i + 1);
      }
      forall i | OccursAt(s, sub, i)
        ensures OccursAt(s[1..], sub, i - 1)
      {
        assert i != 0;
        assert s[1..][i - 1..i - 1 + |sub|] == s[i..i + |sub|];
      }
    }
  }

  function LowerChar(c: char): char {
    if 'A' <= c <= 'Z' then ((c as int) + 32) as char else c
  }

  /** `s.toLowerCase()` restricted to ASCII letters. */
  function Lower(s: string): (t: string)
    ensures |t| == |s|
    ensures forall i :: 0 <= i < |s| ==> t[i] == LowerChar(s[i])
  {
    seq(|s|, i requires 0 <= i < |s| => LowerChar(s[i]))
  }

  /** `parts.join(sep)`. */
  function Join(parts: seq<string>, sep: string): string {
    if parts == [] then ""
    else if |parts| == 1 then parts[0]
    else parts[0] + sep + Join(parts[1..], sep)
  }

  /** The text before the first occurrence of `c`, as `s.split(c)[0]`. */
  function Before(s: string, c: char): (t: string)
    ensures StartsWith(s, t)
    ensures c !in t
    ensures |t| < |s| ==> s[|t|] == c
  {
    if s == [] || s[0] == c then "" else [s[0]] + Before(s[1..], c)
  }

  /** Text before the first separator is everything up to a separator-free prefix. */
  lemma {:induction false} BeforeSeparator(a: string, c: char, x: string)
    requires c !in a
    ensures Before(a + [c] + x, c) == a
  {
    if a != [] {
      assert (a + [c] + x)[1..] == a[1..] + [c] + x;
      BeforeSeparator(a[1..], c, x);
    }
  }
}

=== FILE: update_expression.dfy ===
/** The partial-update builder shared by `updateUser`, `updateContent`, `updateOrder` and
    `updateReview`, and the way the store evaluates the expression it builds. Field names
    and values only ever travel through placeholder tables; the expression text itself is
    made of placeholders. */
module UpdateExpression {
  import opened Wrappers
  import opened Text
  import opened Values

  /** The placeholders the builder uses: `#field<i>`, `:value<i>`, `#updatedAt`, `:updatedAt`. */
  datatype Placeholder = FieldName(i: nat) | FieldValue(i: nat) | StampName | StampValue

  /** One `path = operand` clause of a `SET` action. */
  datatype Assignment = Assignment(path: Placeholder, operand: Placeholder)

  /** The update parameters: the `SET` clauses, `ExpressionAttributeNames` and
      `ExpressionAttributeValues`, keyed by placeholder. */
  datatype Expression = Expression(clauses: seq<Assignment>, names: map<Placeholder, string>, values: map<Placeholder, Value>)

  /** Why the store refuses an update expression (a `ValidationException`). */
  datatype Rejection = MissingPlaceholder | UnusedPlaceholder | OverlappingPaths | KeyAttribute(name: string)

  const UpdatedAt := "updatedAt"

  /** The text of a placeholder, as it appears in the expression and as a table key. */
  function PlaceholderText(p: Placeholder): string {
    match p
    case FieldName(i) => "#field" + NatToString(i)
    case FieldValue(i) => ":value" + NatToString(i)
    case StampName => "#updatedAt"
    case StampValue => ":updatedAt"
  }

  /** Different placeholders have different texts, so keying the tables by placeholder
      rather than by text loses nothing. */
  lemma PlaceholderTextInjective(p: Placeholder, q: Placeholder)
    requires PlaceholderText(p) == PlaceholderText(q)
    ensures p == q
  {
    var s := PlaceholderText(p);
    assert s == PlaceholderText(q);
    match p
    case FieldName(i) =>
      assert s[0] == '#' && s[1] == 'f';
      assert s[6..] == NatToString(i);
      if q.FieldName? {
        assert s[6..] == NatToString(q.i);
        NatToStringInjective(i, q.i);
      }
    case FieldValue(i) =>
      assert s[0] == ':' && s[1] == 'v';
      assert s[6..] == NatToString(i);
      if q.FieldValue? {
        assert s[6..] == NatToString(q.i);
        NatToStringInjective(i, q.i);
      }
    case StampName =>
      assert s[0] == '#' && s[1] == 'u';
    case StampValue =>
      assert s[0] == ':' && s[1] == 'u';
  }

  /** The clauses for `n` update keys: `#field_i = :value_i` for each index `i < n`. */
  function FieldClauses(n: nat): (c: seq<Assignment>)
    ensures |c| == n
    ensures forall i :: 0 <= i < n ==> c[i] == Assignment(FieldName(i), FieldValue(i))
    ensures forall a :: a in c ==> a.path.FieldName? && a.path.i < n && a.operand == FieldValue(a.path.i)
  {
    if n == 0 then [] else FieldClauses(n - 1) + [Assignment(FieldName(n - 1), FieldValue(n - 1))]
  }

  /** The clauses of a whole update over `n` keys: the field clauses, then the timestamp. */
  function Clauses(n: nat): seq<Assignment> {
    FieldClauses(n) + [Assignment(StampName, StampValue)]
  }

  /** `ExpressionAttributeNames` of the `forEach` over the update keys: `#field_i` names key `i`. */
  function BindNames(u: Fields): (m: map<Placeholder, string>)
    ensures forall p :: p in m <==> p.FieldName? && p.i < |u|
    ensures forall i :: 0 <= i < |u| ==> m[FieldName(i)] == u[i].0
  {
    if u == [] then map[]
    else
      var i := |u| - 1;
      var front := u[..i];
      var m := BindNames(front)[FieldName(i) := u[i].0];
      forall j | 0 <= j < i ensures m[FieldName(j)] == u[j].0 {
        assert front[j] == u[j];
      }
      m
  }

  /** `ExpressionAttributeValues` of the same loop: `:value_i` holds the value of key `i`. */
  function BindValues(u: Fields): (m: map<Placeholder, Value>)
    ensures forall p :: p in m <==> p.FieldValue? && p.i < |u|
    ensures forall i :: 0 <= i < |u| ==> m[FieldValue(i)] == u[i].1
  {
    if u == [] then map[]
    else
      var i := |u| - 1;
      var front := u[..i];
      var m := BindValues(front)[FieldValue(i) := u[i].1];
      forall j | 0 <= j < i ensures m[FieldValue(j)] == u[j].1 {
        assert front[j] == u[j];
      }
      m
  }

  /** The `forEach` over the update keys: key `i` becomes clause `#field_i = :value_i`,
      with `#field_i` naming the key and `:value_i` holding its value. */
  function Bind(u: Fields): (e: Expression)
    ensures e.clauses == FieldClauses(|u|)
    ensures forall p :: p in e.names <==> p.FieldName? && p.i < |u|
    ensures forall p :: p in e.values <==> p.FieldValue? && p.i < |u|
    ensures forall i :: 0 <= i < |u| ==> e.names[FieldName(i)] == u[i].0
    ensures forall i :: 0 <= i < |u| ==> e.values[FieldValue(i)] == u[i].1
  {
    Expression(FieldClauses(|u|), BindNames(u), BindValues(u))
  }

  /** The whole expression: the bound update keys, then `#updatedAt = :updatedAt`. */
  function Build(u: Fields, now: Value): (e: Expression)
    ensures e.clauses == Clauses(|u|)
    ensures forall p :: p in e.names <==> p == StampName || (p.FieldName? && p.i < |u|)
    ensures forall p :: p in e.values <==> p == StampValue || (p.FieldValue? && p.i < |u|)
    ensures forall i :: 0 <= i < |u| ==> e.names[FieldName(i)] == u[i].0 && e.values[FieldValue(i)] == u[i].1
    ensures e.names[StampName] == UpdatedAt && e.values[StampValue] == now
  {
    var b := Bind(u);
    Expression(
      b.clauses + [Assignment(StampName, StampValue)],
      b.names[StampName := UpdatedAt],
      b.values[StampValue := now])
  }

  function ClauseText(a: Assignment): string {
    PlaceholderText(a.path) + " = " + PlaceholderText(a.operand)
  }

  function ClauseTexts(clauses: seq<Assignment>): (t: seq<string>)
    ensures |t| == |clauses|
  {
    if clauses == [] then [] else [ClauseText(clauses[0])] + ClauseTexts(clauses[1..])
  }

  /** `SET ${updateExpressions.join(', ')}`. */
  function Render(e: Expression): string {
    "SET " + Join(ClauseTexts(e.clauses), ", ")
  }

  lemma {:induction false} SameClausesSameText(e1: Expression, e2: Expression)
    requires e1.clauses == e2.clauses
    ensures Render(e1) == Render(e2)
  {
  }

  /** The expression text is a function of the number of update keys alone: no field name
      and no value ever reaches it. */
  lemma {:induction false} RenderIgnoresNames(u1: Fields, t1: Value, u2: Fields, t2: Value)
    requires |u1| == |u2|
    ensures Render(Build(u1, t1)) == Render(Build(u2, t2))
  {
    SameClausesSameText(Build(u1, t1), Build(u2, t2));
  }

  /** An empty update still sets the timestamp. */
  lemma {:induction false} EmptyUpdate(now: Value)
    ensures Render(Build([], now)) == "SET #updatedAt = :updatedAt"
    ensures Build([], now).names == map[StampName := UpdatedAt]
    ensures Build([], now).values == map[StampValue := now]
  {
    var e := Build([], now);
    assert Bind([]) == Expression([], map[], map[]);
    assert e.clauses == [Assignment(StampName, StampValue)];
    var text := "#updatedAt = :updatedAt";
    assert ClauseText(e.clauses[0]) == text;
    assert ClauseTexts(e.clauses) == [text];
    assert Join([text], ", ") == text;
  }

  predicate Resolvable(e: Expression) {
    forall c :: c in e.clauses ==> c.path in e.names && c.operand in e.values
  }

  /** The name placeholders the clauses use. */
  function Paths(c: seq<Assignment>): set<Placeholder> {
    if c == [] then {} else Paths(c[..|c| - 1]) + {c[|c| - 1].path}
  }

  /** The value placeholders the clauses use. */
  function Operands(c: seq<Assignment>): set<Placeholder> {
    if c == [] then {} else Operands(c[..|c| - 1]) + {c[|c| - 1].operand}
  }

  /** Every placeholder in the two tables appears in some clause. */
  predicate AllUsed(e: Expression) {
    e.names.Keys <= Paths(e.clauses) && e.values.Keys <= Operands(e.clauses)
  }

  /** The attribute/value pairs the clauses denote once placeholders are substituted. */
  function Resolve(e: Expression): (u: Fields)
    requires Resolvable(e)
    ensures |u| == |e.clauses|
    ensures forall i :: 0 <= i < |u| ==> u[i] == (e.names[e.clauses[i].path], e.values[e.clauses[i].operand])
  {
    seq(|e.clauses|, i requires 0 <= i < |e.clauses| => (e.names[e.clauses[i].path], e.values[e.clauses[i].operand]))
  }

  /** How the store applies a `SET` expression to the item stored under the key (or to the
      bare key when there is none): every placeholder must be defined and used, no two
      clauses may target one attribute, and the key attribute cannot be set. */
  function Evaluate(e: Expression, base: Record, keyField: string): Result<Record, Rejection> {
    if !Resolvable(e) then Failure(MissingPlaceholder)
    else if !AllUsed(e) then Failure(UnusedPlaceholder)
    else SetAll(Resolve(e), base, keyField)
  }

  /** Setting resolved attribute/value pairs on an item. */
  function SetAll(u: Fields, base: Record, keyField: string): Result<Record, Rejection> {
    if !DistinctNames(u) then Failure(OverlappingPaths)
    else if keyField in Names(u) then Failure(KeyAttribute(keyField))
    else Success(Override(base, u))
  }

  lemma {:induction false} BuildResolvable(u: Fields, now: Value)
    ensures Resolvable(Build(u, now))
  {
  }

  lemma {:induction false} FieldClausesUsed(n: nat)
    ensures forall i :: 0 <= i < n ==> FieldName(i) in Paths(FieldClauses(n)) && FieldValue(i) in Operands(FieldClauses(n))
  {
    if n > 0 {
      FieldClausesUsed(n - 1);
      assert FieldClauses(n)[..n - 1] == FieldClauses(n - 1);
    }
  }

  lemma {:induction false} BuildAllUsed(u: Fields, now: Value)
    ensures AllUsed(Build(u, now))
  {
    var n := |u|;
    FieldClausesUsed(n);
    assert Clauses(n)[..n] == FieldClauses(n);
    assert Paths(Clauses(n)) == Paths(FieldClauses(n)) + {StampName};
    assert Operands(Clauses(n)) == Operands(FieldClauses(n)) + {StampValue};
  }

  lemma {:induction false} ResolveBuildAt(u: Fields, now: Value, i: nat)
    requires i <= |u|
    ensures Resolvable(Build(u, now))
    ensures i < |Resolve(Build(u, now))|
    ensures Resolve(Build(u, now))[i] == if i < |u| then u[i] else (UpdatedAt, now)
  {
    BuildResolvable(u, now);
    var e := Build(u, now);
    if i < |u| {
      assert e.clauses[i] == Assignment(FieldName(i), FieldValue(i));
    } else {
      assert e.clauses[i] == Assignment(StampName, StampValue);
    }
  }

  /** The built expression denotes exactly the update keys followed by the timestamp. */
  lemma {:induction false} ResolveBuild(u: Fields, now: Value)
    ensures Resolvable(Build(u, now))
    ensures Resolve(Build(u, now)) == u + [(UpdatedAt, now)]
  {
    BuildResolvable(u, now);
    var r := Resolve(Build(u, now));
    var v := u + [(UpdatedAt, now)];
    forall i | 0 <= i < |r| ensures r[i] == v[i] {
      ResolveBuildAt(u, now, i);
    }
  }

  lemma {:induction false} NamesAppend(u: Fields, x: (string, Value))
    ensures Names(u + [x]) == Names(u) + {x.0}
    ensures DistinctNames(u) ==> (DistinctNames(u + [x]) <==> x.0 !in Names(u))
  {
    var v := u + [x];
    assert forall i :: 0 <= i < |u| ==> v[i] == u[i];
    assert v[|u|] == x;
  }

  lemma {:induction false} EvaluateBuild(u: Fields, now: Value, base: Record, keyField: string)
    ensures Evaluate(Build(u, now), base, keyField) == SetAll(u + [(UpdatedAt, now)], base, keyField)
  {
    ResolveBuild(u, now);
    BuildAllUsed(u, now);
  }

  lemma {:induction false} SetAllStamped(u: Fields, now: Value, base: Record, keyField: string)
    requires DistinctNames(u)
    ensures SetAll(u + [(UpdatedAt, now)], base, keyField).Success?
        <==> UpdatedAt !in Names(u) && keyField !in Names(u) && keyField != UpdatedAt
    ensures SetAll(u + [(UpdatedAt, now)], base, keyField).Success?
        ==> SetAll(u + [(UpdatedAt, now)], base, keyField).value == Override(base, u)[UpdatedAt := now]
  {
    var x := (UpdatedAt, now);
    NamesAppend(u, x);
    var v := u + [x];
    if DistinctNames(v) {
      assert v[..|v| - 1] == u;
    }
  }

  /** What the store does with the built expression: it succeeds exactly when neither the
      timestamp nor the key attribute is among the update keys, and the new item is the
      old one with the given fields replaced and `updatedAt` refreshed. */
  lemma {:induction false} BuildThenEvaluate(u: Fields, now: Value, base: Record, keyField: string)
    requires DistinctNames(u)
    ensures Evaluate(Build(u, now), base, keyField).Success?
        <==> UpdatedAt !in Names(u) && keyField !in Names(u) && keyField != UpdatedAt
    ensures Evaluate(Build(u, now), base, keyField).Success?
        ==> Evaluate(Build(u, now), base, keyField).value == Override(base, u)[UpdatedAt := now]
  {
    EvaluateBuild(u, now, base, keyField);
    SetAllStamped(u, now, base, keyField);
  }
}

=== FILE: upload_routes.dfy ===
/** The upload routes: presigned upload URLs, direct uploads of PDFs, videos and
    thumbnails, and deleting a stored object. The object store itself is not modelled:
    an upload or delete reports the key it writes or removes, and the signing of an
    upload URL is a parameter. */
module UploadRoutes {
  import opened Wrappers
  import opened Text
  import opened Values
  import opened Http
  import Storage

  /** `v.k` on a truthy value: only an object has properties. */
  function Property(v: Value, k: string): Option<Value> {
    if v.Obj? then Get(v.fields, k) else None
  }

  // ---------------------------------------------------------------- presigned URLs

  const Folders := ["pdfs", "videos", "thumbnails"]

  /** `allowedFolders.includes(folder)`. */
  predicate AllowedFolder(folder: Value) {
    folder.Str? && folder.s in Folders
  }

  /** POST `/presigned`: a key in the chosen folder that keeps the file's extension, the
      URL to upload it to, and its public URL. `presign` stands for the signing of a put
      of that key with that content type, valid for 900 seconds. */
  function Presigned(body: Record, bucket: string, millis: nat, suffix: string,
                     presign: (string, Value) -> Value): (r: Reply)
    ensures !(IsTruthy(Get(body, "fileName")) && IsTruthy(Get(body, "fileType")) && IsTruthy(Get(body, "folder"))) ==>
      r == Refuse(400, "fileName, fileType, and folder are required")
    ensures r.status == 200 <==>
      && IsTruthy(Get(body, "fileName")) && IsTruthy(Get(body, "fileType")) && IsTruthy(Get(body, "folder"))
      && AllowedFolder(body["folder"]) && body["fileName"].Str?
    ensures r.status == 200 ==>
      var key := Storage.MakeKey(body["folder"].s, millis, suffix, body["fileName"].s);
      && "data" in r.body && r.body["data"].Obj?
      && r.body["data"].fields == map[
           "uploadUrl" := presign(key, body["fileType"]),
           "publicUrl" := Str(Storage.PublicUrl(bucket, key)),
           "key" := Str(key),
           "bucket" := Str(bucket)]
  {
    if !(IsTruthy(Get(body, "fileName")) && IsTruthy(Get(body, "fileType")) && IsTruthy(Get(body, "folder"))) then
      Refuse(400, "fileName, fileType, and folder are required")
    else if !AllowedFolder(body["folder"]) then
      Refuse(400, "Invalid folder. Must be pdfs, videos, or thumbnails")
    else if !body["fileName"].Str? then
      Refuse(500, "Failed to generate presigned URL")
    else
      var key := Storage.MakeKey(body["folder"].s, millis, suffix, body["fileName"].s);
      Ok(200, map[
        "message" := Str("Presigned URL generated"),
        "data" := Obj(map[
          "uploadUrl" := presign(key, body["fileType"]),
          "publicUrl" := Str(Storage.PublicUrl(bucket, key)),
          "key" := Str(key),
          "bucket" := Str(bucket)])])
  }

  /** A presigned key lies in an allowed folder, keeps the file's extension, and is what
      its public URL gives back. */
  lemma PresignedKey(body: Record, bucket: string, millis: nat, suffix: string, presign: (string, Value) -> Value)
    requires '.' !in suffix && '/' !in suffix
    requires Presigned(body, bucket, millis, suffix, presign).status == 200
    ensures var data := Presigned(body, bucket, millis, suffix, presign).body["data"].fields;
      && data["key"].Str?
      && (exists f :: f in Folders && StartsWith(data["key"].s, f + "/"))
      && Storage.Extname(data["key"].s) == Storage.Extname(body["fileName"].s)
      && Storage.GetKeyFromUrl(bucket, Some(data["publicUrl"])) == Success(Some(data["key"].s))
  {
    var f := body["folder"].s;
    var key := Storage.MakeKey(f, millis, suffix, body["fileName"].s);
    var data := Presigned(body, bucket, millis, suffix, presign).body["data"].fields;
    assert data["key"] == Str(key) && data["publicUrl"] == Str(Storage.PublicUrl(bucket, key));
    assert f in Folders && StartsWith(key, f + "/");
    Storage.KeyKeepsExtension(f, millis, suffix, body["fileName"].s);
    Storage.KeyFromUrlRoundTrip(bucket, key);
  }

  // ---------------------------------------------------------------- direct uploads

  /** What distinguishes the three direct-upload routes. */
  datatype Kind = Kind(folder: string, types: seq<string>, wrongType: string, done: string, failed: string,
                       reportsSize: bool)

  const Pdf := Kind("pdfs", ["application/pdf"], "Only PDF files are allowed",
                    "PDF uploaded successfully", "PDF upload failed", true)
  const Video := Kind("videos", ["video/mp4", "video/webm", "video/quicktime", "video/x-msvideo"],
                      "Only video files (MP4, WebM, MOV, AVI) are allowed",
                      "Video uploaded successfully", "Video upload failed", true)
  const Thumbnail := Kind("thumbnails", ["image/jpeg", "image/png", "image/webp", "image/jpg"],
                          "Only image files (JPEG, PNG, WebP) are allowed",
                          "Thumbnail uploaded successfully", "Thumbnail upload failed", false)

  /** The reply, and the key of the object written, if any. */
  datatype Upload = Upload(reply: Reply, written: Option<string>)

  /** The uploaded file's MIME type is one the route accepts. */
  predicate Accepted(kind: Kind, file: Value) {
    var m := Property(file, "mimetype");
    m.Some? && m.value.Str? && m.value.s in kind.types
  }

  /** `{ url, key, size }` of an upload; an undefined size is left out. */
  function Uploaded(url: string, key: string, size: Option<Value>): (d: Record)
    ensures Get(d, "url") == Some(Str(url)) && Get(d, "key") == Some(Str(key))
    ensures Get(d, "size") == size
  {
    var shown := map["url" := Str(url), "key" := Str(key)];
    if size.Some? then shown["size" := size.value] else shown
  }

  /** POST `/pdf`, `/video`, `/thumbnail`: the file under `file` in the multipart upload
      (`files` is `req.files`) is written under a fresh key in the route's folder,
      provided its MIME type is one the route accepts. A file name that is not text
      makes `path.extname` throw. */
  function UploadFile(kind: Kind, files: Option<Record>, bucket: string, millis: nat, suffix: string): (u: Upload)
    ensures files.None? || !IsTruthy(Get(files.value, "file")) ==>
      u == Upload(Refuse(400, "No file uploaded"), None)
    ensures files.Some? && IsTruthy(Get(files.value, "file")) && !Accepted(kind, files.value["file"]) ==>
      u == Upload(Refuse(400, kind.wrongType), None)
    ensures u.written.Some? <==> u.reply.status == 200
    ensures u.reply.status == 200 <==>
      files.Some? && IsTruthy(Get(files.value, "file")) && Accepted(kind, files.value["file"])
      && Property(files.value["file"], "name").Some? && Property(files.value["file"], "name").value.Str?
    ensures u.written.Some? ==>
      var name := Property(files.value["file"], "name").value.s;
      && u.written.value == Storage.MakeKey(kind.folder, millis, suffix, name)
      && "data" in u.reply.body && u.reply.body["data"].Obj?
      && Get(u.reply.body["data"].fields, "url") == Some(Str(Storage.PublicUrl(bucket, u.written.value)))
      && Get(u.reply.body["data"].fields, "key") == Some(Str(u.written.value))
  {
    if files.None? || !IsTruthy(Get(files.value, "file")) then Upload(Refuse(400, "No file uploaded"), None)
    else
      var file := files.value["file"];
      if !Accepted(kind, file) then Upload(Refuse(400, kind.wrongType), None)
      else match Property(file, "name")
        case Some(Str(name)) =>
          var key := Storage.MakeKey(kind.folder, millis, suffix, name);
          var size := if kind.reportsSize then Property(file, "size") else None;
          var data := Uploaded(Storage.PublicUrl(bucket, key), key, size);
          Upload(Ok(200, map["message" := Str(kind.done), "data" := Obj(data)]), Some(key))
        case _ => Upload(Refuse(500, kind.failed), None)
  }

  /** Only a PDF goes into the PDF folder; the image types stay out of the video folder
      and the video types out of the thumbnail folder. */
  lemma KindsDisjoint(file: Value)
    ensures Accepted(Pdf, file) ==> !Accepted(Video, file) && !Accepted(Thumbnail, file)
    ensures Accepted(Video, file) ==> !Accepted(Thumbnail, file)
  {
  }

  /** An uploaded object lies in its route's folder, keeps the file's extension, and is
      what its public URL gives back. */
  lemma UploadKey(kind: Kind, files: Option<Record>, bucket: string, millis: nat, suffix: string)
    requires '.' !in suffix && '/' !in suffix
    requires UploadFile(kind, files, bucket, millis, suffix).written.Some?
    ensures var key := UploadFile(kind, files, bucket, millis, suffix).written.value;
      && StartsWith(key, kind.folder + "/")
      && Storage.Extname(key) == Storage.Extname(Property(files.value["file"], "name").value.s)
      && Storage.GetKeyFromUrl(bucket, Some(Str(Storage.PublicUrl(bucket, key)))) == Success(Some(key))
  {
    var name := Property(files.value["file"], "name").value.s;
    var key := Storage.MakeKey(kind.folder, millis, suffix, name);
    Storage.KeyKeepsExtension(kind.folder, millis, suffix, name);
    Storage.KeyFromUrlRoundTrip(bucket, key);
  }

  // ---------------------------------------------------------------- deleting

  /** The reply, and the key of the object removed, if any. */
  datatype Removal = Removal(reply: Reply, removed: Option<Value>)

  /** DELETE `/`: removes the object named by `key`, or else by the public URL `url`. A
      URL of another bucket names nothing, and neither does the bucket's own URL, whose
      key is empty. */
  function Delete(body: Record, bucket: string): (d: Removal)
    ensures IsTruthy(Get(body, "key")) ==> d.reply.status == 200 && d.removed == Get(body, "key")
    ensures d.removed.Some? <==> d.reply.status == 200
    ensures !IsTruthy(Get(body, "key")) ==>
      match Storage.GetKeyFromUrl(bucket, Get(body, "url"))
      case Failure(_) => d == Removal(Refuse(500, "File deletion failed"), None)
      case Success(k) =>
        if k.Some? && k.value != "" then d.reply.status == 200 && d.removed == Some(Str(k.value))
        else d == Removal(Refuse(400, "File key or URL is required"), None)
  {
    var done := Ok(200, map["message" := Str("File deleted successfully")]);
    if IsTruthy(Get(body, "key")) then Removal(done, Get(body, "key"))
    else match Storage.GetKeyFromUrl(bucket, Get(body, "url"))
      case Failure(_) => Removal(Refuse(500, "File deletion failed"), None)
      case Success(k) =>
        if k.Some? && k.value != "" then Removal(done, Some(Str(k.value)))
        else Removal(Refuse(400, "File key or URL is required"), None)
  }

  /** Deleting by an object's public URL removes that object. */
  lemma DeleteByUrl(body: Record, bucket: string, key: string)
    requires !IsTruthy(Get(body, "key")) && key != ""
    requires Get(body, "url") == Some(Str(Storage.PublicUrl(bucket, key)))
    ensures Delete(body, bucket).removed == Some(Str(key))
  {
    Storage.KeyFromUrlRoundTrip(bucket, key);
  }

  /** The bucket's own URL names no object. */
  lemma DeleteBucketUrl(body: Record, bucket: string)
    requires !IsTruthy(Get(body, "key"))
    requires Get(body, "url") == Some(Str(Storage.BucketUrl(bucket)))
    ensures Delete(body, bucket) == Removal(Refuse(400, "File key or URL is required"), None)
  {
    assert Storage.BucketUrl(bucket) == Storage.PublicUrl(bucket, "");
    Storage.KeyFromUrlRoundTrip(bucket, "");
  }
}

=== FILE: user_routes.dfy ===
/** The user routes, labelled admin but with no token or role check: list, count and
    look users up. No reply ever carries a password. */
module UserRoutes {
  import opened Wrappers
  import opened Text
  import opened Values
  import opened Store
  import opened Http
  import Listing
  import Dynamo
  import Storage

  /** The filters the listing takes: class and board. */
  const FilterNames := {"classId", "board"}

  function Chosen(query: Record): Record -> bool {
    Listing.Matcher(Pick(query, FilterNames), Dynamo.UserFilters)
  }

  /** The users of the chosen class and board, without their passwords. */
  function SafeUsers(scan: seq<Record>, query: Record): (r: seq<Record>)
    ensures |r| == Listing.Count(scan, Chosen(query))
    ensures forall y :: y in r ==> "password" !in y && exists x :: x in scan && Chosen(query)(x) && y == WithoutPassword(x)
    ensures forall x :: x in scan && Chosen(query)(x) ==> WithoutPassword(x) in r
  {
    var users := Dynamo.GetAllUsers(scan, Pick(query, FilterNames));
    var safe := seq(|users|, i requires 0 <= i < |users| => WithoutPassword(users[i]));
    forall x | x in scan && Chosen(query)(x) ensures WithoutPassword(x) in safe {
      var i :| 0 <= i < |users| && users[i] == x;
      assert safe[i] == WithoutPassword(x);
    }
    forall y | y in safe ensures exists x :: x in scan && Chosen(query)(x) && y == WithoutPassword(x) {
      var i :| 0 <= i < |safe| && safe[i] == y;
      assert users[i] in users;
    }
    safe
  }

  /** GET `/`: the users of the chosen class and board, without their passwords. */
  function List(scan: seq<Record>, query: Record): (r: Reply)
    ensures r.status == 200 && "count" in r.body && "data" in r.body && r.body["data"].Arr?
    ensures r.body["count"] == Num(Listing.Count(scan, Chosen(query)))
    ensures forall v :: v in r.body["data"].items ==> v.Obj? && v.fields in SafeUsers(scan, query)
    ensures forall y :: y in SafeUsers(scan, query) ==> Obj(y) in r.body["data"].items
  {
    ListMembers(SafeUsers(scan, query));
    Listed(SafeUsers(scan, query))
  }

  // ---------------------------------------------------------------- statistics

  datatype UserStats = UserStats(total: nat, class10: nat, class11: nat, class12: nat, neet: nat,
                                 state: nat, cbse: nat, newToday: nat)

  /** `u.createdAt && u.createdAt.startsWith(today)`: a truthy creation time that is not
      text has no `startsWith` and throws. */
  function JoinedOn(u: Record, today: string): Result<bool, Storage.Crash> {
    var c := Get(u, Dynamo.CreatedAt);
    if !IsTruthy(c) then Success(false)
    else if !c.value.Str? then Failure(Storage.TypeError)
    else Success(StartsWith(c.value.s, today))
  }

  /** `users.filter(u => u.createdAt && u.createdAt.startsWith(today))` throws when some
      user's creation time is truthy but not text. */
  predicate Crashes(s: seq<Record>, today: string) {
    exists i :: 0 <= i < |s| && JoinedOn(s[i], today).Failure?
  }

  function JoinedToday(today: string): Record -> bool {
    x => JoinedOn(x, today) == Success(true)
  }

  function Class(c: string): Record -> bool {
    Listing.Equals("classId", Str(c))
  }

  function Board(b: string): Record -> bool {
    Listing.Equals("board", Str(b))
  }

  /** The four classes are told apart: together they count no more users than there are. */
  lemma ClassesExclusive(s: seq<Record>)
    ensures Listing.Count(s, Class("class10")) + Listing.Count(s, Class("class11"))
          + Listing.Count(s, Class("class12")) + Listing.Count(s, Class("neet")) <= |s|
  {
    var p1 := x => Class("class10")(x) || Class("class11")(x);
    var p2 := x => p1(x) || Class("class12")(x);
    var p3 := x => p2(x) || Class("neet")(x);
    forall x ensures Get(x, "classId") == Some(Str("class10")) <==> Class("class10")(x) {
      StrictEqString(Get(x, "classId"), "class10");
    }
    forall x ensures Get(x, "classId") == Some(Str("class11")) <==> Class("class11")(x) {
      StrictEqString(Get(x, "classId"), "class11");
    }
    forall x ensures Get(x, "classId") == Some(Str("class12")) <==> Class("class12")(x) {
      StrictEqString(Get(x, "classId"), "class12");
    }
    forall x ensures Get(x, "classId") == Some(Str("neet")) <==> Class("neet")(x) {
      StrictEqString(Get(x, "classId"), "neet");
    }
    Listing.CountDisjoint(s, Class("class10"), Class("class11"), p1);
    Listing.CountDisjoint(s, p1, Class("class12"), p2);
    Listing.CountDisjoint(s, p2, Class("neet"), p3);
  }

  /** GET `/stats`: counts by class and board over every user, and the users who joined
      on `today` (the current date as `YYYY-MM-DD`). */
  function Stats(scan: seq<Record>, today: string): (r: Result<UserStats, Storage.Crash>)
    ensures r.Failure? <==> Crashes(scan, today)
    ensures r.Success? ==>
      && r.value.total == |scan|
      && r.value.class10 == Listing.Count(scan, Class("class10"))
      && r.value.class11 == Listing.Count(scan, Class("class11"))
      && r.value.class12 == Listing.Count(scan, Class("class12"))
      && r.value.neet == Listing.Count(scan, Class("neet"))
      && r.value.state == Listing.Count(scan, Board("state"))
      && r.value.cbse == Listing.Count(scan, Board("cbse"))
      && r.value.class10 + r.value.class11 + r.value.class12 + r.value.neet <= r.value.total
      && r.value.state + r.value.cbse <= r.value.total
      && r.value.newToday == Listing.Count(scan, JoinedToday(today))
  {
    var all := Dynamo.GetAllUsers(scan, map[]);
    Listing.WhereAll(scan, Listing.Matcher(map[], Dynamo.UserFilters));
    ClassesExclusive(scan);
    Listing.Exclusive(scan, "board", "state", "cbse");
    if Crashes(all, today) then Failure(Storage.TypeError)
    else
      Success(UserStats(|all|,
        Listing.Count(all, Class("class10")), Listing.Count(all, Class("class11")),
        Listing.Count(all, Class("class12")), Listing.Count(all, Class("neet")),
        Listing.Count(all, Board("state")), Listing.Count(all, Board("cbse")),
        Listing.Count(all, JoinedToday(today))))
  }

  /** The reply to GET `/stats`. */
  function StatsReply(scan: seq<Record>, today: string): (r: Reply)
    ensures r.status == 200 <==> Stats(scan, today).Success?
    ensures r.status != 200 ==> r == Refuse(500, "Failed to get statistics")
  {
    match Stats(scan, today)
    case Failure(_) => Refuse(500, "Failed to get statistics")
    case Success(s) =>
      Ok(200, map["data" := Obj(map[
        "totalUsers" := Num(s.total),
        "classDistribution" := Obj(map["class10" := Num(s.class10), "class11" := Num(s.class11),
                                       "class12" := Num(s.class12), "neet" := Num(s.neet)]),
        "boardDistribution" := Obj(map["state" := Num(s.state), "cbse" := Num(s.cbse)]),
        "newUsersToday" := Num(s.newToday)])])
  }

  /** GET `/:phone`: one user's record without the password. */
  function ByPhone(t: Table, phone: string): (r: Reply)
    ensures phone == "" ==> r == Refuse(500, "Failed to get user")
    ensures phone != "" && phone !in t ==> r == Refuse(404, "User not found")
    ensures r.status == 200 <==> phone != "" && phone in t
    ensures r.status == 200 ==> "data" in r.body && r.body["data"].Obj? && "password" !in r.body["data"].fields
    ensures r.status == 200 ==> forall k :: k != "password" ==> Get(r.body["data"].fields, k) == Get(t[phone], k)
  {
    match GetItem(t, Some(Str(phone)))
    case Failure(_) => Refuse(500, "Failed to get user")
    case Success(None) => Refuse(404, "User not found")
    case Success(Some(user)) => Ok(200, map["data" := Obj(WithoutPassword(user))])
  }
}

=== FILE: values.dfy ===
/** JavaScript values as they travel between request bodies, records and the store.
    A missing property (`undefined`) is a key absent from its record. */
module Values {
  import opened Wrappers
  import opened Text

  /** Numbers are integers: floating point is not modelled. */
  datatype Value =
    | Null
    | Bool(b: bool)
    | Num(n: int)
    | Str(s: string)
    | Arr(items: seq<Value>)
    | Obj(fields: map<string, Value>)

  /** A stored item, a request body or a query string: property name to value. */
  type Record = map<string, Value>

  /** The properties of an object literal in insertion order, as `Object.keys` lists them. */
  type Fields = seq<(string, Value)>

  /** `r.k`, with `None` for `undefined`. */
  function Get(r: Record, k: string): Option<Value> {
    if k in r then Some(r[k]) else None
  }

  /** JavaScript truthiness: `null`, `false`, `0` and `''` are falsy; arrays and objects are truthy. */
  predicate Truthy(v: Value) {
    match v
    case Null => false
    case Bool(b) => b
    case Num(n) => n != 0
    case Str(s) => s != ""
    case Arr(_) => true
    case Obj(_) => true
  }

  /** Truthiness of a possibly undefined property. */
  predicate IsTruthy(o: Option<Value>) {
    o.Some? && Truthy(o.value)
  }

  /** `x || fallback`. */
  function Or(o: Option<Value>, fallback: Value): Value {
    if IsTruthy(o) then o.value else fallback
  }

  /** `===` on two values held in different places: primitives compare by value, while
      arrays and objects compare by reference, so two distinct ones are never equal. */
  predicate SameValue(a: Value, b: Value) {
    match (a, b)
    case (Null, Null) => true
    case (Bool(p), Bool(q)) => p == q
    case (Num(m), Num(n)) => m == n
    case (Str(s), Str(t)) => s == t
    case _ => false
  }

  /** `===` on possibly undefined values: `undefined === undefined` holds. */
  predicate StrictEq(a: Option<Value>, b: Option<Value>) {
    match (a, b)
    case (None, None) => true
    case (Some(x), Some(y)) => SameValue(x, y)
    case _ => false
  }

  lemma StrictEqString(a: Option<Value>, s: string)
    ensures StrictEq(a, Some(Str(s))) <==> a == Some(Str(s))
  {
  }

  /** `String(v)`. Array elements that are `null` print as empty text. */
  function ToStr(v: Value): string
    decreases v
  {
    match v
    case Null => "null"
    case Bool(b) => if b then "true" else "false"
    case Num(n) => IntToString(n)
    case Str(s) => s
    case Arr(items) =>
      Join(seq(|items|, i requires 0 <= i < |items| => if items[i].Null? then "" else ToStr(items[i])), ",")
    case Obj(_) => "[object Object]"
  }

  /** `Number(v)` for the values that `+` converts to numbers. */
  function ToNumber(v: Value): int
    requires v.Null? || v.Bool? || v.Num?
  {
    match v
    case Null => 0
    case Bool(b) => if b then 1 else 0
    case Num(n) => n
  }

  /** JavaScript `a + b`: text concatenation once either side is text, an array or an
      object; numeric addition otherwise. */
  function Plus(a: Value, b: Value): (r: Value)
    ensures a.Num? && b.Num? ==> r == Num(a.n + b.n)
    ensures a.Str? && b.Str? ==> r == Str(a.s + b.s)
    ensures a.Str? || b.Str? ==> r.Str?
  {
    if a.Str? || a.Arr? || a.Obj? || b.Str? || b.Arr? || b.Obj? then Str(ToStr(a) + ToStr(b))
    else Num(ToNumber(a) + ToNumber(b))
  }

  /** `parseInt(x)`: the argument is converted to text first; `None` is `NaN`. An absent
      argument is `NaN` outright: see `ParseUndefined`. */
  function ParseInt(o: Option<Value>): Option<int> {
    match o
    case None => None
    case Some(v) => ParseIntString(ToStr(v))
  }

  /** `parseInt(undefined)` reads the text "undefined", which is `NaN` as well. */
  lemma ParseUndefined()
    ensures ParseInt(None) == ParseIntString("undefined")
  {
    ParseNonNumeric("undefined");
  }

  /** `parseInt(x) || fallback`: `NaN` and `0` give way to the fallback. */
  function IntOr(o: Option<Value>, fallback: int): int {
    match ParseInt(o)
    case Some(n) => if n != 0 then n else fallback
    case None => fallback
  }

  /** A number parses back to itself, and so does its numeral. */
  lemma ParseIntOfNumber(n: int)
    ensures ParseInt(Some(Num(n))) == Some(n)
    ensures ParseInt(Some(Str(IntToString(n)))) == Some(n)
  {
    ParseIntRoundTrip(n);
  }

  /** `parseInt(x) || fallback` keeps a non-zero number sent as a number or a numeral. */
  lemma IntOrKept(o: Option<Value>, n: int, fallback: int)
    requires n != 0 && (o == Some(Num(n)) || o == Some(Str(IntToString(n))))
    ensures IntOr(o, fallback) == n
  {
    ParseIntOfNumber(n);
  }

  /** Text that does not start with a sign, a digit or white space is `NaN`. */
  lemma ParseNonNumeric(t: string)
    requires t != [] && !IsSpace(t[0]) && t[0] != '-' && t[0] != '+' && !IsDigit(t[0])
    ensures ParseIntString(t) == None
  {
    assert TrimStart(t) == t;
    assert Unsigned(t) == t;
    assert !HasHexPrefix(t);
    assert DigitRun(t, 10) == 0;
  }

  /** `parseInt(x) || fallback` keeps a non-zero integer and replaces zero, `NaN` and absence. */
  lemma IntOrCases(n: int, fallback: int)
    ensures IntOr(Some(Num(n)), fallback) == (if n != 0 then n else fallback)
    ensures IntOr(None, fallback) == fallback
    ensures IntOr(Some(Null), fallback) == fallback
  {
    ParseIntOfNumber(n);
    ParseNonNumeric("null");
  }

  predicate DistinctNames(u: Fields) {
    forall i, j :: 0 <= i < j < |u| ==> u[i].0 != u[j].0
  }

  function Names(u: Fields): set<string> {
    set i | 0 <= i < |u| :: u[i].0
  }

  /** Listing one more property adds its name. */
  lemma NamesSnoc(u: Fields)
    requires u != []
    ensures Names(u) == Names(u[..|u| - 1]) + {u[|u| - 1].0}
  {
    var front := u[..|u| - 1];
    forall k | k in Names(u) ensures k in Names(front) + {u[|u| - 1].0} {
      var i :| 0 <= i < |u| && u[i].0 == k;
      if i < |u| - 1 { assert front[i] == u[i]; }
    }
    forall k | k in Names(front) ensures k in Names(u) {
      var i :| 0 <= i < |front| && front[i].0 == k;
      assert u[i] == front[i];
    }
  }

  /** The value listed for `k` in `u`, if any. */
  function Lookup(u: Fields, k: string): Option<Value> {
    if u == [] then None else if u[|u| - 1].0 == k then Some(u[|u| - 1].1) else Lookup(u[..|u| - 1], k)
  }

  /** `{...r, ...u}`: `r` with every property listed in `u` set to the listed value. */
  function Override(r: Record, u: Fields): (r': Record)
    requires DistinctNames(u)
    ensures r'.Keys == r.Keys + Names(u)
    ensures forall i :: 0 <= i < |u| ==> r'[u[i].0] == u[i].1
    ensures forall k :: k in r && k !in Names(u) ==> r'[k] == r[k]
  {
    if u == [] then r
    else
      var last := u[|u| - 1];
      var front := u[..|u| - 1];
      NamesSnoc(u);
      var o := Override(r, front);
      var r' := o[last.0 := last.1];
      forall i | 0 <= i < |u| ensures r'[u[i].0] == u[i].1 {
        if i < |u| - 1 { assert u[i] == front[i]; }
      }
      r'
  }
}

=== FILE: wrappers.dfy ===
/** Failure-compatible wrappers shared by every module of the model. */
module Wrappers {

  /** A value that may be missing: a JavaScript `undefined` or `null` result. */
  datatype Option<+T> = None | Some(value: T) {
    function GetOr(default: T): T {
      match this
      case Some(v) => v
      case None => default
    }
  }

  /** The outcome of an operation that can fail with an error value. */
  datatype Result<+T, +E> = Success(value: T) | Failure(error: E)
}
